=== FILE: README.md ===
# g2p-mix in Dafny

g2p-mix turns mixed Chinese and English text into phones. Chinese characters get pinyin syllables, each with a tone digit. English words get CMUdict ARPAbet phonemes. Numbers and symbols keep their text.

This project models the core of that pipeline as pure Dafny functions over immutable data:

- **Tokenizer.** The scanner splits text into Chinese runs, digit runs, single symbols and English words (with an optional contraction). Then `posseg_cut` cuts the Chinese runs into tagged words. `get_language` classifies a word.
- **Token record.** It has tone reading and writing, plus `push_back` / `push_front`.
- **Tone sandhi.** The `_merge` pass glues neighbouring Chinese tokens into prosodic words. Four rules then rewrite tone digits: 不, 一, the neutral tone and the third tone.
- **Front ends.**
  - `G2pPth.g2p` pairs segmented words with the pinyin converter's syllables.
  - `get_initials_finals` of `g2p_han.py`.
  - `G2pMix.retokenize` re-joins English contractions; `G2pMix.g2p` tags each token's language.
  - The earlier top-level `g2p_mix.py` groups runs of single letters.
- **`G2pEn`.** It loads the CMUdict table and looks words up, with a fallback that spells abbreviations.
- **Helpers.** The `utils.py` helpers: `parse_pinyin`, `apply_tone`, `pinyin2ipa`, `g2p_abbr`, `convert_jyut`.
- **Inventories.** The symbol inventories of `constants.py`.

The model leaves two things abstract:

- **Outside libraries become parameters.** This covers jieba, pypinyin, pycantonese, the g2p_en neural model and the pronunciation tables. The model passes them in as functions or maps, and a precondition states only what the code assumes of them.
- **Unicode classes become predicates.** Python's character classes (`\d`, `\s`, `str.isdigit`, `str.isalnum`, case mapping) are abstract predicates. `Tokenizer.WellFormed` lists the few facts the proofs need. The Han block U+4E00..U+9FFF and `[a-zA-Z]` are written out.

Mutation in the source (`token.sandhi`, `push_back`, in-place list edits) becomes functions that return new values.

Modules follow the source files:

| module | file |
|---|---|
| `Common` | shared sequence helpers |
| `Tokens` | token.py |
| `Tokenizer` | tokenizer.py |
| `Utils` | utils.py |
| `Constants` | constants.py |
| `Lexicon` | the word lists of `ToneSandhi.__init__` |
| `Merge` | `_merge` |
| `ToneSandhi` | tone_sandhi.py |
| `G2pHan` | g2p_han.py |
| `G2pPth` | g2p_pth.py |
| `G2pMix` | g2p_mix/g2p_mix.py |
| `G2pEng` | g2p_eng.py |
| `Legacy` | the top-level g2p_mix.py |

A few facts about the code that the model makes explicit:

- `_merge` reads its input once, left to right. A token it has glued on is never looked at again (`Merge.Step`, `Merge.MergeIsRegrouping`).
- Rule 2 of `_merge` tests `token.word in ("儿")`. That is a substring test, so an empty word is glued on too (`Merge.RuleBuOrEr`).
- The third-tone merge needs each word to be at most two characters long, so its bound of four on the sum never decides anything (`Merge.RuleThree`).
- Rule 4 of `_merge` needs the previous tag to start with `v` (`Merge.RuleReduplication`).
- The 儿/们 neutral-tone test compares one character with a list and never fires (`ToneSandhi.NeutralPartOnce`).
- The tone rules as a whole are not idempotent (`ToneSandhi.RulesNotIdempotent`).

## Model

| member | source | states |
|---|---|---|
| Tokens.NewToken | g2p_mix/token.py:27-33 | An English token has no tag and takes the English converter's phones. Any other token keeps its tag. It falls back to `[word]` exactly when no phones or an empty list is given, and otherwise keeps the phones given. The fallback has one syllable per character exactly when the word is one character long. |
| Tokens.Tone | g2p_mix/token.py:41-44 | A tone exists exactly when the token is Chinese and the index is below the syllable count. Negative indexes count from the end. The tone is the last character of that syllable. |
| Tokens.SetTone | g2p_mix/token.py:48 | The new syllable ends in the given tone and keeps everything before the old last character. |
| Tokens.Sandhi | g2p_mix/token.py:46-48 | Only syllable `index` changes, and only its last character. Word, tag and syllable count are kept. Reading the tone back gives the new tone. Alignment is kept. |
| Tokens.SandhiIdempotent | g2p_mix/token.py:46-48 | Setting the same tone twice is the same as setting it once. |
| Tokens.PushBack | g2p_mix/token.py:55-58 | The word and the phones are extended on the right; language and tag are the receiver's. |
| Tokens.PushFront | g2p_mix/token.py:50-53 | The word and the phones are extended on the left; language and tag are the receiver's. |
| Tokens.PushBackAligned | g2p_mix/token.py:55-58 | Joining two aligned tokens gives an aligned token. |
| Tokens.PushFrontAligned | g2p_mix/token.py:50-53 | The same for `push_front`. |
| Tokens.PushFrontMirrorsPushBack | g2p_mix/token.py:50-58 | `t.push_front(u)` has the text and phones of `u.push_back(t)`. |
| Tokenizer.RunEnd | g2p_mix/tokenizer.py:26 | A greedy `+` run: every character before the end satisfies the class, and the character at the end does not. |
| Tokenizer.LettersEndShape | g2p_mix/tokenizer.py:26 | The English alternative matches letters with at most one inner apostrophe between letters. The match is never followed by another letter, and a match of letters alone is never followed by an apostrophe and a letter, because the optional group is greedy. |
| Tokenizer.MatchAtOk | g2p_mix/tokenizer.py:26 | Some alternative matches at a position exactly when its character is not one `finditer` skips. The match has that alternative's shape and extends its run as far as it goes. For an English word, that includes taking the apostrophe group whenever a letter follows the apostrophe. |
| Tokenizer.ContractionIsOneMatch | g2p_mix/tokenizer.py:26 | An English match starting at he've must cover all five characters; he alone, or he', does not meet the pattern. |
| Tokenizer.SpanCharsNotSkippable | g2p_mix/tokenizer.py:26 | No character inside a match is one the scanner would skip. |
| Tokenizer.LoneApostropheIsSymbol | g2p_mix/tokenizer.py:26 | An apostrophe where a scan starts is a one-character symbol match. |
| Tokenizer.LettersShapeChars | g2p_mix/tokenizer.py:26 | An English match holds only ASCII letters and apostrophes. |
| Tokenizer.LettersShapeEndsInLetter | g2p_mix/tokenizer.py:26 | An English match ends in a letter. |
| Tokenizer.Scan | g2p_mix/tokenizer.py:52-58 | The matches lie in order and do not overlap. Each has its alternative's shape and greedy end, including the apostrophe group of an English word. |
| Tokenizer.ScanCoverage | g2p_mix/tokenizer.py:52-58 | A character lies in some match exactly when the scanner cannot skip it. |
| Tokenizer.SpanEndLeftClosed | g2p_mix/tokenizer.py:52-58 | After a match, a Chinese or digit run never continues across the boundary. |
| Tokenizer.ScanLeftMaximal | g2p_mix/tokenizer.py:52-58 | No Chinese or digit match could be extended to the left. |
| Tokenizer.SpanPairs | g2p_mix/tokenizer.py:54-58 | One `(text, tag)` pair per match, in order, with the tag of the alternative that matched. |
| Tokenizer.Tokenize | g2p_mix/tokenizer.py:52-60 | One non-empty pair per match. Every tag is one of zh, m, x, en. |
| Tokenizer.AllHanIsOneSpan | g2p_mix/tokenizer.py:52-60 | A non-empty all-Chinese text is a single `zh` pair. |
| Tokenizer.HanChars | g2p_mix/tokenizer.py:67-71 | The Chinese characters of a string, in order; none longer than the input. |
| Tokenizer.HanCharsAppend | g2p_mix/tokenizer.py:67-71 | Taking the Chinese characters distributes over concatenation. |
| Tokenizer.HanCharsKeeps | g2p_mix/tokenizer.py:67-71 | An all-Chinese string is kept whole. |
| Tokenizer.HanCharsNone | g2p_mix/tokenizer.py:67-71 | A string with no Chinese character gives nothing. |
| Tokenizer.SpanHanChars | g2p_mix/tokenizer.py:67-71 | A `zh` match is all Chinese; no other match holds a Chinese character. |
| Tokenizer.ScanChineseText | g2p_mix/tokenizer.py:67-71 | `chinese_text` built from the scan is exactly the Chinese characters of the input, in order. |
| Tokenizer.Tagged | g2p_mix/tokenizer.py:81 | Every piece carries the word's tag. |
| Tokenizer.Resplit | g2p_mix/tokenizer.py:77-81 | A word shorter than four characters is kept; a longer one is replaced by its `seg` pieces with its tag. |
| Tokenizer.SpanWords | g2p_mix/tokenizer.py:69-85 | A non-Chinese pair stays one word with its tag. In Cantonese mode `x` becomes `PUNCT`. |
| Tokenizer.CutWordsAppend | g2p_mix/tokenizer.py:69-85 | The word loop distributes over concatenated pairs. |
| Tokenizer.NonChinesePassesThrough | g2p_mix/tokenizer.py:82-85 | A non-Chinese pair contributes exactly one word in its own place. |
| Tokenizer.Texts | g2p_mix/tokenizer.py:86 | The words' texts, one per pair, in order. |
| Tokenizer.TextsAppend | g2p_mix/tokenizer.py:86 | Texts distribute over concatenation. |
| Tokenizer.ResplitAllKeepsText | g2p_mix/tokenizer.py:76-81 | When `seg` only cuts, re-splitting keeps the concatenated text. |
| Tokenizer.CutWordsKeepsText | g2p_mix/tokenizer.py:69-85 | When the segmenters only cut, the words spell out the matched text. |
| Tokenizer.PossegCut | g2p_mix/tokenizer.py:62-87 | Returns the Chinese characters of the input. When the segmenters only cut, the words spell out every match. |
| Tokenizer.RemoveApostrophes | g2p_mix/tokenizer.py:40 | The result has no apostrophe and is no longer than the input. |
| Tokenizer.RemoveApostrophesKeeps | g2p_mix/tokenizer.py:40 | A word without apostrophes is unchanged. |
| Tokenizer.RemoveApostrophesAppend | g2p_mix/tokenizer.py:40 | Removal distributes over concatenation. |
| Tokenizer.RemoveApostrophesSplit | g2p_mix/tokenizer.py:40 | `a'b` becomes `ab`. |
| Tokenizer.GetLanguage | g2p_mix/tokenizer.py:28-42 | ZH exactly for a RE_HANS match. NUM exactly for a non-Chinese all-digit word. EN only when the word without apostrophes is alphanumeric. SYM only when neither test holds. |
| Tokenizer.DigitsAreNumbers | g2p_mix/tokenizer.py:38-41 | Digit words are NUM even though they are also alphanumeric. |
| Tokenizer.EmptyAndApostropheAreSymbols | g2p_mix/tokenizer.py:36-42 | The empty word and a lone apostrophe are SYM. |
| Tokenizer.ContractionIsEnglish | g2p_mix/tokenizer.py:40-41 | A letter contraction such as `he've` is EN. |
| Utils.Segment | g2p_mix/utils.py:109-123 | One pair per match, tags zh, m, x, eng. |
| Utils.SegmentMatchesTokenize | g2p_mix/utils.py:117-122 | `segment` cuts the same spans as `Tokenizer.tokenize` and differs only in calling English `eng`. |
| Utils.PossegCut | g2p_mix/utils.py:126-148 | Returns the Chinese characters of the input. When the segmenters only cut, the words spell out every segment. |
| Utils.EveryWordResplit | g2p_mix/utils.py:140-142 | Every jieba word goes through `seg`. In tokenizer.py only words of four or more characters do. |
| Utils.G2pCh | g2p_mix/utils.py:31-38 | Defined exactly when the lower-cased letter is in the table with enough readings. The result is the letter's second reading for a, and its first reading for any other letter. |
| Utils.CapitalAIsLetterName | g2p_mix/utils.py:35-38 | "A" is read EY1, the second CMUdict reading, not AH0. |
| Utils.G2pAbbr | g2p_mix/utils.py:41-45 | Defined exactly when every letter has a reading. The result is the letters' readings concatenated, in order. |
| Utils.G2pAbbrAppend | g2p_mix/utils.py:41-45 | The phones of a concatenation are the concatenated phones of its parts, defined exactly when both are. |
| Utils.ParsePinyin | g2p_mix/utils.py:95-106 | The tone is the last character. A syllabic nasal in the table has no initial and takes the mapped final. Anything else is split by pypinyin. |
| Utils.ReplaceZero | g2p_mix/utils.py:174 | With a tone free of "0", no "0" is left. A phone without "0" is unchanged. |
| Utils.ReplaceZeroIdempotent | g2p_mix/utils.py:174 | Filling the tone placeholder twice is the same as once. |
| Utils.ApplyTone | g2p_mix/utils.py:171-174 | A single phone counts as a one-element list. Every phone gets its placeholders filled, and no "0" is left. |
| Utils.ApplyToneIdempotent | g2p_mix/utils.py:171-174 | Applying the same tone twice is the same as once. |
| Utils.Pinyin2Ipa | g2p_mix/utils.py:177-194 | An unknown tone gives no result. Otherwise interjections are checked first, then syllabic consonants, each with the tone applied. Any other result starts with the initial's phone. "i" after zh/ch/sh/r gives the initial and the retroflex apical vowel, and after z/c/s the initial and the dental apical vowel. These are defined exactly when the initial is in the table. Any other syllable gives the initial followed by the toned final, defined exactly when both are in their tables. |
| Utils.Pinyin2IpaFillsTone | g2p_mix/utils.py:177-194 | No phone of a result still holds the "0" placeholder. |
| Utils.CharsJyutping | g2p_mix/utils.py:159-165 | Defined exactly when every character has a reading. |
| Utils.CharsJyutpingFlatten | g2p_mix/utils.py:159-165 | It is then the characters' readings concatenated. |
| Utils.JyutSplit | g2p_mix/utils.py:167 | Every piece is a run of non-digits closed by a digit, or one non-digit. |
| Utils.SyllableRunEnd | g2p_mix/utils.py:167 | Inside a syllable, the non-digit run stops at the tone digit. |
| Utils.JyutSplitJoin | g2p_mix/utils.py:167 | Splitting concatenated well-formed syllables gives back the syllables. |
| Utils.ConvertJyut | g2p_mix/utils.py:151-168 | `None` exactly when the word is not in the word table and some character has no reading. A word in the table gives its split reading. |
| Utils.ConvertJyutByCharacter | g2p_mix/utils.py:155-168 | A word outside the table gives one syllable per character. |
| Constants.UnionChars | g2p_mix/constants.py:21 | `set.union` with a string adds its characters, so `.union("")` adds nothing. |
| Constants.ToneInventory | g2p_mix/constants.py:16 | Five tones and no "5". The stress set has four marks, the empty one included. |
| Constants.StrictInitialInventory | g2p_mix/constants.py:21 | 21 strict initials; the empty initial is not among them. |
| Constants.InitialInventory | g2p_mix/constants.py:30 | 23 initials. |
| Constants.GlidesAdded | g2p_mix/constants.py:21-30 | The non-strict initials add exactly y and w. |
| Constants.PostnasalsAreFinals | g2p_mix/constants.py:33-36 | n and m map to ng and mg, both of which are finals. |
| Constants.StrictFinalInventory | g2p_mix/constants.py:53-59 | 37 finals. |
| Constants.FinalInventory | g2p_mix/constants.py:65-71 | 40 finals. |
| Constants.FinalsDiffer | g2p_mix/constants.py:53-71 | The strict-mode finals add exactly iou, uei, van, uen, vn, ueng, io. |
| Constants.StrictFinalsDiffer | g2p_mix/constants.py:53-71 | They drop exactly iu, ui, un, ue. |
| Constants.PhoneInventory | g2p_mix/constants.py:77-82 | 39 ARPAbet phones. |
| Merge.InErExactly | g2p_mix/tone_sandhi.py:60 | `word in ("儿")` is a substring test. It holds for 儿 and for the empty word. |
| Merge.PushBackReady | g2p_mix/tone_sandhi.py:61 | Absorbing a token keeps what `_merge` reads of the receiver. |
| Merge.RuleBuOrEr | g2p_mix/tone_sandhi.py:58-60 | Rules 1 and 2 fire exactly when the previous word is 不, 很 or 一, or the current word is 儿 or empty. |
| Merge.RuleThree | g2p_mix/tone_sandhi.py:63-69 | Rule 3 fires exactly when the previous token's last syllable and the current token's first syllable end in 3 and both words have at most two characters. |
| Merge.RuleReduplication | g2p_mix/tone_sandhi.py:72-79 | Rule 4 fires exactly on a 一 with a token after it that repeats the previous word, after a tag starting with `v`. |
| Merge.ListenOnceIsOneWord | g2p_mix/tone_sandhi.py:72-80 | 听/一/听 after a verb tag is merged into the one token 听一听, with all three syllables. |
| Merge.Step | g2p_mix/tone_sandhi.py:51-81 | One pass keeps the current token apart, or glues one or two tokens onto the last output token. Any pair that is not both Chinese is kept apart. For two Chinese tokens, exactly one token is glued on when rule 1, 2 or 3 fires. Exactly two are glued on when none of them fires and rule 4 does. |
| Merge.StepKeepsClosed | g2p_mix/tone_sandhi.py:54-62 | One pass never leaves a lone 不, 很 or 一 directly before a Chinese token. |
| Merge.MergeFrom | g2p_mix/tone_sandhi.py:51-81 | The rest of the loop adds at most one token per input token. If no lone 不, 很 or 一 stands before a Chinese token so far, none does at the end. |
| Merge.MergeTokens | g2p_mix/tone_sandhi.py:48-82 | `_merge` returns no more tokens than it was given. In its result no Chinese 不, 很 or 一 of its own is followed by another Chinese token. |
| Merge.NonChineseStandsAlone | g2p_mix/tone_sandhi.py:54-56 | A token next to a non-Chinese one starts a new output token. |
| Merge.Combine | g2p_mix/tone_sandhi.py:61-78 | A run folded with `push_back` takes its first token's language and tag. |
| Merge.CombineText | g2p_mix/tone_sandhi.py:61-78 | The folded token's word and phones are the run's, concatenated. |
| Merge.CombineSnoc | g2p_mix/tone_sandhi.py:61-78 | Folding one more token is one more `push_back`. |
| Merge.Regroup | g2p_mix/tone_sandhi.py:48-82 | One output token per run, each run folded. |
| Merge.StepRegroups | g2p_mix/tone_sandhi.py:51-81 | One pass extends the cut of the input read so far into runs. |
| Merge.MergeFromRegroups | g2p_mix/tone_sandhi.py:48-82 | The rest of the loop does the same. |
| Merge.MergeIsRegrouping | g2p_mix/tone_sandhi.py:48-82 | `_merge` cuts its input into consecutive non-empty runs and folds each one. |
| Merge.RegroupKeepsText | g2p_mix/tone_sandhi.py:48-82 | Folding runs keeps the concatenated words and phones. |
| Merge.MergeKeepsText | g2p_mix/tone_sandhi.py:48-82 | `_merge` keeps the sentence's text and phones, in order. |
| Merge.MergeNeverGrows | g2p_mix/tone_sandhi.py:48-82 | `_merge` never returns more tokens than it was given. |
| Merge.CombineAligned | g2p_mix/tone_sandhi.py:61-78 | A fold of aligned tokens is aligned. |
| Merge.MergeKeepsAlignment | g2p_mix/tone_sandhi.py:48-82 | `_merge` of aligned tokens gives aligned tokens. |
| Merge.AbsorbedAligned | g2p_mix/tone_sandhi.py:60-78 | A glued-on token is Chinese, or is the token after a 一 under rule 4. So the grown token is aligned when those tokens are. |
| Merge.StepKeepsChineseAligned | g2p_mix/tone_sandhi.py:51-81 | One pass keeps every Chinese output token aligned, given aligned Chinese input tokens and an aligned token after each 一. |
| Merge.MergeFromChineseAligned | g2p_mix/tone_sandhi.py:51-81 | The rest of the loop does the same. |
| Merge.MergeKeepsChineseAlignment | g2p_mix/tone_sandhi.py:48-82 | English and number tokens need not be aligned. If every Chinese token, and every non-Chinese token after a 一, is aligned, every merged Chinese token is aligned. |
| ToneSandhi.RetonedAligned | g2p_mix/token.py:46-48 | Rewriting tone characters keeps one syllable per character. |
| ToneSandhi.RetonedTrans | g2p_mix/tone_sandhi.py:191-200 | Tone rewrites compose. |
| ToneSandhi.SandhiRetones | g2p_mix/token.py:46-48 | `sandhi` only rewrites a tone character. |
| ToneSandhi.ShortestIndex | g2p_mix/tone_sandhi.py:129-130 | `sorted(key=len)[0]`: a shortest piece, the first of that length (the sort is stable). |
| ToneSandhi.PyDropLastN | g2p_mix/tone_sandhi.py:136 | `word[:-n]` for `0 < n <= len`; empty for `n == 0` or `n > len`. |
| ToneSandhi.SplitWord | g2p_mix/tone_sandhi.py:127-138 | Two parts, one of them the shortest piece. Their lengths add up to the word's whenever that piece is no longer than the word. |
| ToneSandhi.SplitWordCovers | g2p_mix/tone_sandhi.py:127-138 | The parts concatenate to the word exactly when the shortest piece is a prefix or a suffix of it. |
| ToneSandhi.BuReference | g2p_mix/tone_sandhi.py:84-96 | Only tone characters change, and only at 不. |
| ToneSandhi.BuSandhi | g2p_mix/tone_sandhi.py:84-96 | The in-order loop equals the position-by-position reference. |
| ToneSandhi.YiTone | g2p_mix/tone_sandhi.py:107-122 | Every 一 outside the 看一看 frame gets tone 1, 2 or 4, and nothing else does. |
| ToneSandhi.YiReference | g2p_mix/tone_sandhi.py:98-122 | Only tone characters change, only at 一. Outside the frame every 一 ends in 1, 2 or 4. |
| ToneSandhi.YiSandhi | g2p_mix/tone_sandhi.py:98-122 | The in-order loop equals the position-by-position reference. |
| ToneSandhi.SandhiKeeps | g2p_mix/token.py:46-48 | Setting a syllable's own tone changes nothing. |
| ToneSandhi.NeutralTrigger | g2p_mix/tone_sandhi.py:144-158 | Only a non-empty part outside the not-neutral list triggers the rule. Such a part always does when it is in the neutral list or ends in a particle. |
| ToneSandhi.NeutralPart | g2p_mix/tone_sandhi.py:143-158 | With no trigger, nothing changes. With a trigger, the part's last syllable ends in 5, every other syllable is kept, and text and tag are kept. |
| ToneSandhi.NeutralPartAsWritten | g2p_mix/tone_sandhi.py:143-158 | One loop pass leaves the token alone or makes the part's last syllable neutral. |
| ToneSandhi.NeutralPartOnce | g2p_mix/tone_sandhi.py:143-158 | However many of the three tests fire, the loop's result is the same as the reference that sets tone 5 on the part's last syllable once, when any test holds. |
| ToneSandhi.NeutralPartRetones | g2p_mix/tone_sandhi.py:143-158 | Only that syllable can change, and it becomes tone 5. |
| ToneSandhi.NeutralSandhi | g2p_mix/tone_sandhi.py:140-159 | Only tone characters change. A changed syllable ends in 5. It is either the first part's last syllable, with the first part's test firing, or the word's last syllable, with the second part's test firing. When the first part triggers, its last syllable ends in 5. When the second part triggers, the word's last syllable ends in 5. When neither triggers, nothing changes. |
| ToneSandhi.NeutralIdempotent | g2p_mix/tone_sandhi.py:140-159 | Running the neutral rule twice is the same as once. |
| ToneSandhi.SandhiThreeToTwo | g2p_mix/tone_sandhi.py:167-189 | Turning a third tone among the first three syllables into 2 is a three-to-two change. |
| ToneSandhi.ThreeToTwoTrans | g2p_mix/tone_sandhi.py:178-189 | Successive three-to-two changes on disjoint syllables compose. |
| ToneSandhi.ThreeAfterSingle | g2p_mix/tone_sandhi.py:170-176 | Only third tones among the first three syllables become second tones. |
| ToneSandhi.AfterSingleTones | g2p_mix/tone_sandhi.py:170-176 | 纸/老虎: syllable 2 becomes 2 when syllables 2 and 3 are third tones. Otherwise syllable 1 becomes 2 when syllables 1 and 2 are. Nothing else changes. |
| ToneSandhi.ThreeAfterSingleSettled | g2p_mix/tone_sandhi.py:170-176 | Applying that branch twice is the same as once. |
| ToneSandhi.ThreeFirst | g2p_mix/tone_sandhi.py:179-180 | Only the first syllable can change, from 3 to 2. |
| ToneSandhi.ThreeSecond | g2p_mix/tone_sandhi.py:181-186 | Only the second syllable can change, from 3 to 2. |
| ToneSandhi.ThreeThird | g2p_mix/tone_sandhi.py:188-189 | Only the third syllable can change, from 3 to 2. |
| ToneSandhi.FirstTone | g2p_mix/tone_sandhi.py:179-180 | Syllable 1 becomes 2 exactly when syllables 1 and 2 are third tones. |
| ToneSandhi.SecondTone | g2p_mix/tone_sandhi.py:181-186 | Syllable 2 becomes 2 exactly when syllables 2 and 3 are third tones and the word is three long or syllable 4 is not a third tone. |
| ToneSandhi.ThirdTone | g2p_mix/tone_sandhi.py:188-189 | Syllable 3 becomes 2 exactly when the word is longer than three and syllables 3 and 4 are third tones. |
| ToneSandhi.ThreeOther | g2p_mix/tone_sandhi.py:177-189 | Only third tones among the first three syllables become second tones. |
| ToneSandhi.ThreeOtherTones | g2p_mix/tone_sandhi.py:177-189 | The three steps read the original tones, and each later step never undoes an earlier one. |
| ToneSandhi.ThreeOtherNoTrigger | g2p_mix/tone_sandhi.py:177-189 | Afterwards none of the three conditions holds any more. |
| ToneSandhi.ThreeOtherSettled | g2p_mix/tone_sandhi.py:177-189 | Applying that branch twice is the same as once. |
| ToneSandhi.AllToneThree | g2p_mix/tone_sandhi.py:161-162 | True exactly when every syllable ends with "3", as `str.endswith` tests it. |
| ToneSandhi.ThreeSandhi | g2p_mix/tone_sandhi.py:164-189 | Only third tones among the first three syllables become second tones. A two-character word with two third tones becomes 2-3. Any other two-character word, and any shorter one, is unchanged. A longer word goes to the branch its first part selects. |
| ToneSandhi.PairThree | g2p_mix/tone_sandhi.py:161-162 | `_all_tone_three` of a two-syllable slice tests both syllables, or the one left at the end. |
| ToneSandhi.ThreeIdempotent | g2p_mix/tone_sandhi.py:164-189 | Running the third-tone rule twice is the same as once. |
| ToneSandhi.AfterSingleLeavesNoPair | g2p_mix/tone_sandhi.py:170-176 | A three-character word is left with no two neighbouring third tones. |
| ToneSandhi.OtherLeavesNoPair | g2p_mix/tone_sandhi.py:177-189 | So is a three- or four-character word in the other branch. |
| ToneSandhi.ThreeLeavesNoPair | g2p_mix/tone_sandhi.py:164-189 | Words of two or three characters, and four-character words whose first part is not one character long, end with no two neighbouring third tones. |
| ToneSandhi.ApplyRules | g2p_mix/tone_sandhi.py:193-199 | A non-Chinese or one-character token is left alone. Any other token keeps its text, tag and syllables, with only tone characters rewritten. |
| ToneSandhi.ModifiedTone | g2p_mix/tone_sandhi.py:191-200 | One result per merged token, no more than the input tokens. The sentence text is kept, and only tone characters of long Chinese tokens change. Each result is the merged token after `ApplyRules`. |
| ToneSandhi.AlignedInputIsReady | g2p_mix/tone_sandhi.py:191-200 | English and number tokens need not be aligned. Aligned Chinese tokens, and an aligned token after each 一, are enough for every rule. |
| ToneSandhi.BuYiTianBu | g2p_mix/tone_sandhi.py:84-96 | 不一天 (bu4 yi1 tian1): the 不 rule changes nothing. |
| ToneSandhi.BuYiTianYi | g2p_mix/tone_sandhi.py:98-122 | 不一天: the 一 rule makes yi4. |
| ToneSandhi.BuYiTianFirstPass | g2p_mix/tone_sandhi.py:193-199 | One pass leaves bu4 yi4. |
| ToneSandhi.FallingYiMakesBu2 | g2p_mix/tone_sandhi.py:84-96 | With yi4 in place, a second pass turns 不 into bu2. |
| ToneSandhi.RulesNotIdempotent | g2p_mix/tone_sandhi.py:193-199 | So the rules as a whole are not idempotent: one pass gives bu4 and a second gives bu2. |
| G2pHan.InitialFinal | g2p_mix/g2p_han.py:43-49 | A syllabic nasal in the table has no initial and takes the table's final. Any other reading takes pypinyin's initial, and pypinyin's final with the reading's last character appended. Either way the final ends in the syllable's tone. |
| G2pHan.GetInitialsFinals | g2p_mix/g2p_han.py:39-50 | One initial and one final per reading, position by position. Each final ends in its syllable's tone. |
| G2pHan.HanPostnasalsShape | g2p_mix/g2p_han.py:25-32 | The table renames n to ng and m to mg, keeping the tone. n3 and m1 are missing. |
| G2pHan.PostnasalsAgree | g2p_mix/g2p_han.py:25-32 | For the table's entries, `parse_pinyin` with constants.py's table gives the same split. |
| G2pHan.PostnasalsDisagreeOnN3 | g2p_mix/g2p_han.py:25-32 | n3 is a syllabic nasal to `parse_pinyin` but goes to pypinyin here. |
| G2pPth.ReadWords | g2p_mix/g2p_pth.py:52-57 | One entry per word, with its text and tag. A skipped word yields its own text. Any other word yields syllables. With one reading per character, each such word gets one syllable per character. |
| G2pPth.ReadWordsConsumesInOrder | g2p_mix/g2p_pth.py:55-57 | The syllables handed out are the converter's first entries, in order, with none skipped or repeated. |
| G2pPth.DemandAppend | g2p_mix/g2p_pth.py:55-57 | What words consume adds up over concatenation. |
| G2pPth.DemandOfChineseWords | g2p_mix/g2p_pth.py:55-57 | All-Chinese words consume one entry per character. |
| G2pPth.SegmentIsScanned | g2p_mix/g2p_pth.py:50 | Every `segment` pair is all Chinese when tagged zh, and free of Chinese otherwise. |
| G2pPth.DemandIsChineseLength | g2p_mix/g2p_pth.py:50-57 | The words of `posseg_cut` consume exactly as many entries as `chinese_text` has characters. |
| G2pPth.G2p | g2p_mix/g2p_pth.py:49-57 | One entry per word of `posseg_cut`. |
| G2pPth.G2pReadsEveryCharacter | g2p_mix/g2p_pth.py:49-57 | The corrected loop hands out exactly the converter's syllables for `chinese_text`. With one reading per character, each Chinese word gets one syllable per character. |
| G2pPth.G2pAsWritten | g2p_mix/g2p_pth.py:49-57 | One entry per word, with the source's tag test. |
| G2pPth.NumeralShiftsReadings | g2p_mix/g2p_pth.py:53-54 | A Chinese numeral tagged m keeps its text, and the next word takes the numeral's syllables. |
| G2pMix.ActionAt | g2p_mix/g2p_mix.py:29-40 | A space entry is skipped. An apostrophe before a contraction suffix is joined. Anything else is kept. |
| G2pMix.Loop | g2p_mix/g2p_mix.py:28-41 | The loop never drops a token. It adds at most one token per remaining entry. |
| G2pMix.LoopSucceedsWithToken | g2p_mix/g2p_mix.py:28-41 | With a token already emitted, the loop never fails. |
| G2pMix.LoopFailsIff | g2p_mix/g2p_mix.py:35-37 | `tokens[-1]` raises exactly when a joinable apostrophe comes before any token. |
| G2pMix.JoinKeepsText | g2p_mix/g2p_mix.py:35-38 | A join moves both entries' text and phones onto the last token. |
| G2pMix.FreshKeepsText | g2p_mix/g2p_mix.py:39-40 | A kept entry becomes its own token. |
| G2pMix.LoopKeepsText | g2p_mix/g2p_mix.py:28-41 | The tokens spell out the non-space words and pinyins. |
| G2pMix.LoopWithoutApostrophes | g2p_mix/g2p_mix.py:28-41 | Without apostrophes, every non-space entry becomes a token of its own. |
| G2pMix.Retokenize | g2p_mix/g2p_mix.py:25-42 | Fails exactly on a leading joinable apostrophe. Otherwise the tokens spell out the non-space words and pinyins. |
| G2pMix.RetokenizeWithoutApostrophes | g2p_mix/g2p_mix.py:25-42 | Without apostrophes, there is one token per non-space entry. |
| G2pMix.ContractionJoins | g2p_mix/g2p_mix.py:33-38 | he ' ve becomes he've. |
| G2pMix.LeadingContractionFails | g2p_mix/g2p_mix.py:35-36 | A joinable apostrophe with no token before it raises. |
| G2pMix.Tag | g2p_mix/g2p_mix.py:48-56 | ZH exactly when word and phones differ. NUM exactly for digit words. EN exactly when the word without apostrophes is ASCII alphanumeric, and only EN tokens take ARPAbet phones. Nothing is ever SYM. |
| G2pMix.TagAgreesWithGetLanguage | g2p_mix/g2p_mix.py:48-56 | On non-Chinese words the tag agrees with `get_language` on NUM. An EN tag is EN there too. An untagged word is EN or SYM there. |
| G2pMix.NonAsciiLetterIsUntagged | g2p_mix/g2p_mix.py:53 | é is EN to `get_language` but gets no tag, because its UTF-8 bytes are not alphanumeric. |
| G2pMix.G2p | g2p_mix/g2p_mix.py:44-57 | Fails exactly when `retokenize` does. Otherwise each returned token is its retokenized piece tagged by `Tag`, in order, and together they spell out the non-space words. |
| G2pEng.Find | g2p_mix/g2p_eng.py:30 | The first occurrence of the separator at or after a position, or none. |
| G2pEng.FindCuts | g2p_mix/g2p_eng.py:30 | The text before the first separator holds none. |
| G2pEng.SplitJoin | g2p_mix/g2p_eng.py:30 | Joining the pieces of `str.split(sep)` with `sep` gives back the string. |
| G2pEng.SplitPiecesFree | g2p_mix/g2p_eng.py:30 | No piece contains the separator. |
| G2pEng.Strip | g2p_mix/g2p_eng.py:30 | `str.strip`: a slice of the input with no whitespace at either end, and only whitespace cut off before and after it. |
| G2pEng.ParseLine | g2p_mix/g2p_eng.py:28-37 | A comment exactly when the line starts with `;;;`. Otherwise malformed exactly when the stripped line does not split into two fields on two spaces. A two-field line is an entry exactly when its headword is valid and not dropped. An entry has an upper-case headword (letters and apostrophes) other than AI and HUD. The stripped line is that headword, two spaces and the phones joined by single spaces. |
| G2pEng.Load | g2p_mix/g2p_eng.py:26-37 | Loading never loses a headword already in the table. |
| G2pEng.LoadIsClean | g2p_mix/g2p_eng.py:26-37 | Every loaded headword is upper-case ASCII and neither AI nor HUD. |
| G2pEng.LoadFailsIff | g2p_mix/g2p_eng.py:26-37 | Loading raises exactly when some line does not split into two fields. |
| G2pEng.LaterLineWins | g2p_mix/g2p_eng.py:37 | A later entry for the same headword replaces the earlier one. |
| G2pEng.IsAbbreviation | g2p_mix/g2p_eng.py:43-45 | An upper-case word is an abbreviation exactly when it has at most four characters. A lower-case word is one exactly when it has at most three. |
| G2pEng.Spell | g2p_mix/g2p_eng.py:49-56 | A word made only of a's, in either case, is spelled EY1 once per character. |
| G2pEng.SpellIsPerLetter | g2p_mix/g2p_eng.py:49-56 | An abbreviation's phones are its characters' phones, in order. Each character is EY1 for an A, otherwise the neural model's phones. |
| G2pEng.SpellAppend | g2p_mix/g2p_eng.py:49-56 | Spelling distributes over concatenation. |
| G2pEng.G2p | g2p_mix/g2p_eng.py:39-56 | A dictionary word gives its entry. Otherwise an abbreviation is spelled, and anything else goes to the neural model. |
| G2pEng.AbbreviationsAreShort | g2p_mix/g2p_eng.py:43-45 | Abbreviations have one to four characters. |
| G2pEng.AiIsSpelled | g2p_mix/g2p_eng.py:35-36 | Because AI is dropped from the table, "AI" is spelled EY1 followed by the phones of I. |
| Legacy.Combine | g2p_mix.py:15-19 | A plain entry exactly when initial and final agree. |
| Legacy.Pinyins | g2p_mix.py:15-19 | `zip` stops at the shorter list; one combined entry per position. |
| Legacy.NextAt | g2p_mix.py:29-36 | The inner loop stops at a missing or long entry and ends on a space. It continues exactly on a one-character letter or apostrophe, and otherwise breaks on a one-character entry. |
| Legacy.Absorb | g2p_mix.py:29-39 | The inner loop stops at or after where it started, inside the entries. |
| Legacy.AbsorbKeepsPrefix | g2p_mix.py:29-39 | The inner loop only changes the last item and appends after it: every earlier item is kept. |
| Legacy.AbsorbStep | g2p_mix.py:29-39 | One pass of the inner loop: stop, end on a space, give a non-letter its own item, or grow the last item and go on. |
| Legacy.GrowThenExtend | g2p_mix.py:38-39 | Growing the last item by one entry and then by more is growing it by both at once. |
| Legacy.AbsorbRun | g2p_mix.py:29-39 | Over a run of letters and apostrophes, the inner loop adds the run's characters and pinyin to the last item and goes on after the run. |
| Legacy.OuterStep | g2p_mix.py:24-40 | Each outer pass moves forward and keeps the items it was given. |
| Legacy.Group | g2p_mix.py:24-40 | The whole loop keeps the items it was given, as a prefix. |
| Legacy.OuterStepAtLetter | g2p_mix.py:26-29 | A letter entry opens an item and enters the inner loop. |
| Legacy.RunItem | g2p_mix.py:27-39 | The item a letter opens, grown by the rest of its run, holds the whole run. |
| Legacy.OuterStepOverRun | g2p_mix.py:24-40 | At a letter, the outer pass makes the letter and its run one item before the inner loop decides how to end. |
| Legacy.LetterRunIsOneItem | g2p_mix.py:24-40 | A letter and the letters and apostrophes after it become one item. A space after the run adds nothing, and any other one-character entry after it becomes an item of its own. |
| Legacy.AllLettersOneItem | g2p_mix.py:22-40 | A text of one-character letters becomes a single item. |
| Legacy.LedgerSkip | g2p_mix.py:26 | Passing a space adds nothing. |
| Legacy.LedgerAdd | g2p_mix.py:27 | A new item takes the entry's character and pinyin. |
| Legacy.LedgerGrow | g2p_mix.py:38-39 | Growing the last item moves the entry's character and pinyin into it. |
| Legacy.AbsorbKeepsLedger | g2p_mix.py:29-39 | The inner loop moves exactly the characters, pinyin and `[initial, final]` pairs of the entries it passes into the items. Items stay well shaped. |
| Legacy.OuterStepKeepsLedger | g2p_mix.py:24-40 | The same for one outer pass. |
| Legacy.GroupKeepsLedger | g2p_mix.py:24-40 | The same for the whole loop. |
| Legacy.ItemsAtMostText | g2p_mix.py:27 | Items with non-empty tokens are no more than their characters. |
| Legacy.KeptAtMost | g2p_mix.py:26-27 | The kept characters are at most the entries. |
| Legacy.Items | g2p_mix.py:22-40 | Together the items' tokens are exactly the non-space characters, in order. Their phones are the non-space pinyin. There are as many `[initial, final]` items as such entries. There are at most as many items as entries. How runs of letters group is stated by `LetterRunIsOneItem`. |
| Legacy.ToEnglish | g2p_mix.py:42-45 | The token is kept. It keeps its pinyin exactly when it is one character long and not an ASCII letter. |
| Legacy.G2p | g2p_mix.py:8-46 | One output per item of the grouping loop, in order, and no more outputs than characters of the text. Each output is its item after the English conversion, so the token text and grouping promises of `Items` and `LetterRunIsOneItem` carry over. |
| Legacy.ChineseKeepsPinyin | g2p_mix.py:42-45 | A lone Chinese character keeps its `[initial, final]` pair. |

## Left out

- jieba (`cut`, `cut_for_search`, `posseg`), pypinyin (`lazy_pinyin`, `to_initials`, `to_finals`, `seg`, the converter, `RE_HANS`), pycantonese, the g2p_en neural model, CMUdict and the `IPA` tables are outside libraries and data. They are function or map parameters.
- Python's Unicode character classes and case mapping are abstract predicates, because they come from the Unicode database. `Tokenizer.WellFormed` and the preconditions state the facts used.
- `str.isalpha` in the top-level g2p_mix.py is the parameter `isAlpha`, required to reject a space. A space entry therefore never starts a run of letters.
- `utils.load_dict`, `utils.parse_jyutping`, g2p_mix/g2p_jyut.py, the class constructors that load models, and the CLI are I/O or wrappers of outside libraries.
- `G2pHan.g2p`, the method g2p_mix/g2p_mix.py calls, is not part of this model: its source is absent. `G2pMix.G2p` takes its `(words, pinyins)` as parameters.
- `g2p_han.cut` calls `pre_merge_for_modify`, which tone_sandhi.py does not define. It is not part of this model.
- Python exceptions are `Option` results where the code has no guard, or preconditions where the caller guarantees the input. Examples: `tokens[-1]` in `retokenize`, table lookups, `pinyin[-1]`.
- In-place aliasing (a token shared between lists and mutated through one of them) is not modelled. Tokens are values.
- `Utils.JyutSplit` reads `[\D]+\d` greedily. It does not model the regex engine's backtracking beyond that pattern.
- Tokenizer: the `$`/newline corner cases of Python regexes do not arise, because the pattern has no anchors.
- G2pMix.Retokenize requires `len(pinyins) <= len(words)`, which the front end guarantees. The text-keeping clause also assumes that no space entry is a contraction suffix (`SpacesAreNotSuffixes`).
- G2pMix.LoopKeepsText: the same assumption.
- Legacy.G2p requires no more pinyin entries than characters, as `lazy_pinyin(list(text))` gives one per character. The English converter receives the item's entry.
- ToneSandhi.NeutralSandhi assumes the search-mode cut's shortest piece is no longer than the word (`SoundSplitter`). It does not assume that the two parts cover the word; `SplitWordCovers` says when they do.
- ToneSandhi.ModifiedTone states that each merged token goes through `ApplyRules`. The exact tones each rule gives are stated in the per-rule members (`BuSandhi`, `YiSandhi`, `NeutralSandhi`, `ThreeSandhi`), not in one closed formula.
- ToneSandhi.AlignedInputIsReady requires an aligned token after each 一, even when that token is not Chinese. Rule 4 can glue such a token onto the 一, and the later rules index its phones per character.
- ToneSandhi.NeutralPartAsWritten: the 儿/们 test at line 149 compares a character with a list and is never true. The model follows the code and leaves the test out.

## Findings

| source | as written | input that shows it | evidently intended | confidence | as-written member | corrected member |
|---|---|---|---|---|---|---|
| g2p_mix/g2p_pth.py:53-54 | A word is passed through when its tag is eng, m or x. jieba tags Chinese numerals m too. Such a word consumes none of the pinyin of `chinese_text`, so every later Chinese word is read with the wrong syllables. | words 三个/m and 苹果/n with converter output san1, ge4, ping2, guo3: 三个 yields its own text and 苹果 yields san1 ge4 | pass through only words with no Chinese character, so that every character of `chinese_text` is read by its own word | likely; not executed | G2pPth.G2pAsWritten, G2pPth.NumeralShiftsReadings | G2pPth.G2p, G2pPth.G2pReadsEveryCharacter |

=== FILE: common.dfy ===
/** Small shared vocabulary: an option type for Python's `None` / raised
    lookups, and the few string operations Python gives for free
    (`s[-1]`, `s[:-1]`, `a in b` on strings, `"".join`). */
module Common {

  datatype Option<+T> = None | Some(value: T)

  /** Python's `s[-1]`. */
  function Last<T>(s: seq<T>): T
    requires |s| > 0
  {
    s[|s| - 1]
  }

  /** Python's `s[:-1]`: everything but the last element; `""[:-1] == ""`. */
  function DropLast<T>(s: seq<T>): (r: seq<T>)
    ensures |s| > 0 ==> |r| == |s| - 1
    ensures |s| == 0 ==> r == []
  {
    if |s| == 0 then [] else s[..|s| - 1]
  }

  /** Putting the last element back restores the sequence. */
  lemma {:induction false} DropLastSplit<T>(s: seq<T>)
    requires |s| > 0
    ensures s == DropLast(s) + [Last(s)]
  {
  }

  predicate IsPrefix<T(==)>(p: seq<T>, s: seq<T>) {
    |p| <= |s| && s[..|p|] == p
  }

  predicate IsSuffix<T(==)>(p: seq<T>, s: seq<T>) {
    |p| <= |s| && s[|s| - |p|..] == p
  }

  /** Python's `a in b` for two strings: `a` occurs somewhere in `b`. */
  predicate IsSubstring<T(==)>(a: seq<T>, b: seq<T>) {
    exists k :: 0 <= k <= |b| && IsPrefix(a, b[k..])
  }

  /** In-order concatenation of a list of sequences (`sum(xs, [])`, `"".join(xs)`). */
  function Flatten<T>(xs: seq<seq<T>>): seq<T>
  {
    if |xs| == 0 then [] else xs[0] + Flatten(xs[1..])
  }

  lemma {:induction false} FlattenAppend<T>(xs: seq<seq<T>>, ys: seq<seq<T>>)
    ensures Flatten(xs + ys) == Flatten(xs) + Flatten(ys)
  {
    if |xs| == 0 {
      assert xs + ys == ys;
    } else {
      assert (xs + ys)[1..] == xs[1..] + ys;
      FlattenAppend(xs[1..], ys);
    }
  }

  lemma {:induction false} FlattenSingleton<T>(x: seq<T>)
    ensures Flatten([x]) == x
  {
    assert [x][1..] == [];
  }

  lemma {:induction false} FlattenSnoc<T>(xs: seq<seq<T>>, x: T)
    ensures Flatten(xs + [[x]]) == Flatten(xs) + [x]
  {
    FlattenAppend(xs, [[x]]);
    FlattenSingleton([x]);
  }

  /** `DropLast` and `Last` undo an append of one element. */
  lemma {:induction false} DropLastSnoc<T>(xs: seq<T>, x: T)
    ensures DropLast(xs + [x]) == xs && Last(xs + [x]) == x
  {
  }

  /** Growing the last piece grows the concatenation at its end. */
  lemma {:induction false} FlattenGrowLast<T>(init: seq<seq<T>>, last: seq<T>, x: T)
    ensures Flatten(init + [last + [x]]) == Flatten(init + [last]) + [x]
  {
    FlattenAppend(init, [last]);
    FlattenSingleton(last);
    FlattenAppend(init, [last + [x]]);
    FlattenSingleton(last + [x]);
    assert Flatten(init) + (last + [x]) == (Flatten(init) + last) + [x];
  }

  lemma {:induction false} FlattenExtend<T>(xs: seq<seq<T>>, x: T)
    requires |xs| > 0
    ensures Flatten(DropLast(xs) + [Last(xs) + [x]]) == Flatten(xs) + [x]
  {
    DropLastSplit(xs);
    FlattenGrowLast(DropLast(xs), Last(xs), x);
  }

  lemma {:induction false} AppendAssoc<T>(a: seq<T>, b: seq<T>, c: seq<T>)
    ensures (a + b) + c == a + (b + c)
  {
  }

  /** Growing the last piece by a whole sequence. */
  lemma {:induction false} FlattenExtendBy<T>(xs: seq<seq<T>>, y: seq<T>)
    requires |xs| > 0
    ensures Flatten(DropLast(xs) + [Last(xs) + y]) == Flatten(xs) + y
  {
    DropLastSplit(xs);
    FlattenAppend(DropLast(xs), [Last(xs) + y]);
    FlattenAppend(DropLast(xs), [Last(xs)]);
    FlattenSingleton(Last(xs) + y);
    FlattenSingleton(Last(xs));
  }

  /** Growing the last piece by two elements, one at a time. */
  lemma {:induction false} FlattenExtendTwice<T>(xs: seq<seq<T>>, x: T, y: T)
    requires |xs| > 0
    ensures var ys := DropLast(xs) + [Last(xs) + [x]];
            Flatten(DropLast(ys) + [Last(ys) + [y]]) == Flatten(xs) + [x, y]
  {
    var init, last := DropLast(xs), Last(xs) + [x];
    FlattenExtend(xs, x);
    DropLastSnoc(init, last);
    FlattenGrowLast(init, last, y);
    assert Flatten(xs) + [x] + [y] == Flatten(xs) + [x, y];
  }

  /** Total length of the pieces of a list of sequences. */
  function TotalLength<T>(xs: seq<seq<T>>): nat
  {
    if |xs| == 0 then 0 else |xs[0]| + TotalLength(xs[1..])
  }

  lemma {:induction false} FlattenLength<T>(xs: seq<seq<T>>)
    ensures |Flatten(xs)| == TotalLength(xs)
  {
    if |xs| > 0 {
      FlattenLength(xs[1..]);
    }
  }

  function Min(a: int, b: int): int {
    if a <= b then a else b
  }

  /** Python's `s[i:j]` for non-negative bounds: both ends are clamped to the
      length, and a start past the end gives the empty slice. */
  function PySlice<T>(s: seq<T>, i: nat, j: nat): (r: seq<T>)
    ensures j <= |s| && i <= j ==> r == s[i..j]
    ensures |r| <= |s|
  {
    var hi := Min(j, |s|);
    var lo := Min(i, hi);
    s[lo..hi]
  }
}

=== FILE: constants.dfy ===
/** The symbol inventories of g2p_mix/constants.py.  Each set is written as
    in the source; for counting, the larger ones are also split into small
    groups of members of equal length. */
module Constants {

  /** The tone digits pypinyin writes, "0" being the neutral placeholder. */
  const Tones: set<string> := {"0", "1", "2", "3", "4"}

  /** The initials `to_initials(strict=True)` can return.  The source ends
      the expression with `.union("")`, which iterates the empty string and
      so adds nothing: the empty initial of a zero-initial syllable is not a
      member. */
  const StrictInitials: set<string> :=
    {"b", "p", "m", "f", "d", "t", "n", "l", "g", "k", "h", "j", "q", "x",
     "zh", "ch", "sh", "r", "z", "s", "c"}

  /** `set(...).union(xs)` adds the elements of the iterable `xs`; a string
      iterates over its one-character substrings. */
  function UnionChars(s: set<string>, xs: string): (r: set<string>)
    ensures forall x :: x in r <==> x in s || (|x| == 1 && x[0] in xs)
  {
    var added := set c | c in xs :: [c];
    assert forall x :: x in added <==> |x| == 1 && x[0] in xs by {
      forall x | |x| == 1 && x[0] in xs
        ensures x in added
      {
        assert x == [x[0]];
      }
    }
    s + added
  }

  /** The initials `to_initials(strict=False)` can return: the strict ones
      plus the glides y and w. */
  const Initials: set<string> := StrictInitials + {"y", "w"}

  /** Syllabic nasals, renamed so that they cannot be taken for initials. */
  const Postnasals: map<string, string> := map["n" := "ng", "m" := "mg"]

  /** The finals `to_finals(strict=False)` can return. */
  const StrictFinals: set<string> :=
    {"a", "o", "e", "i", "u", "v", "er", "ai", "ei", "ao", "ou", "ia", "ie", "ua", "uo",
     "ve", "iao", "iu", "uai", "ui", "an", "ian", "uan", "en", "in", "ang", "un",
     "iang", "uang", "eng", "ing", "ong", "iong", "ê", "ng", "mg", "ue"}

  /** The finals `to_finals(strict=True)` can return. */
  const Finals: set<string> :=
    {"a", "o", "e", "i", "u", "v", "er", "ai", "ei", "ao", "ou", "ia", "ie", "ua", "uo",
     "ve", "iao", "iou", "uai", "uei", "an", "ian", "uan", "van", "en", "in", "uen", "vn", "ang",
     "iang", "uang", "eng", "ing", "ueng", "ong", "iong", "ê", "ng", "mg", "io"}

  /** CMUdict stress marks; the empty mark is for consonants. */
  const Stress: set<string> := {"", "0", "1", "2"}

  /** The ARPAbet phones of CMUdict. */
  const Phones: set<string> :=
    {"AA", "AE", "AH", "AO", "AW", "AY", "B", "CH", "D", "DH", "EH", "ER", "EY", "F", "G", "HH", "IH", "IY",
     "JH", "K", "L", "M", "N", "NG", "OW", "OY", "P", "R", "S", "SH", "T", "TH", "UH", "UW", "V", "W", "Y", "Z", "ZH"}

  /** The neutral tone has no digit of its own in the set: "5" is not a tone. */
  lemma {:induction false} ToneInventory()
    ensures |Tones| == 5
    ensures "5" !in Tones
    ensures |Stress| == 4 && "" in Stress
  {
  }

  // The larger sets split into small groups of members of one length.
  ghost const InitialsA: set<string> := {"b", "p", "m", "f", "d", "t", "n", "l", "g"}
  ghost const InitialsB: set<string> := {"k", "h", "j", "q", "x", "r", "z", "s", "c"}
  ghost const InitialsC: set<string> := {"zh", "ch", "sh"}
  ghost const FinalsOne: set<string> := {"a", "o", "e", "i", "u", "v", "ê"}
  ghost const FinalsTwo: set<string> := {"er", "ai", "ei", "ao", "ou", "ia", "ie", "ua", "uo"}
  ghost const StrictFinalsTwo: set<string> := {"ve", "iu", "ui", "an", "en", "in", "un", "ng", "mg", "ue"}
  ghost const StrictFinalsThree: set<string> := {"iao", "uai", "ian", "uan", "ang", "eng", "ing", "ong"}
  ghost const StrictFinalsFour: set<string> := {"iang", "uang", "iong"}
  ghost const FinalsTwoB: set<string> := {"ve", "an", "en", "in", "vn", "ng", "mg", "io"}
  ghost const FinalsThreeA: set<string> := {"iao", "iou", "uai", "uei", "ian", "uan"}
  ghost const FinalsThreeB: set<string> := {"van", "uen", "ang", "eng", "ing", "ong"}
  ghost const FinalsFour: set<string> := {"iang", "uang", "ueng", "iong"}
  ghost const PhonesOneA: set<string> := {"B", "D", "F", "G", "K", "L", "M", "N"}
  ghost const PhonesOneB: set<string> := {"P", "R", "S", "T", "V", "W", "Y", "Z"}
  ghost const PhonesTwoA: set<string> := {"AA", "AE", "AH", "AO", "AW", "AY"}
  ghost const PhonesTwoB: set<string> := {"CH", "DH", "EH", "ER", "EY", "HH"}
  ghost const PhonesTwoC: set<string> := {"IH", "IY", "JH", "NG", "OW", "OY"}
  ghost const PhonesTwoD: set<string> := {"SH", "TH", "UH", "UW", "ZH"}

  /** Every member of `s` has length `n`. */
  ghost predicate OfLength(s: set<string>, n: nat) {
    forall x :: x in s ==> |x| == n
  }

  /** The size of a union of disjoint sets is the sum of their sizes. */
  lemma {:induction false} DisjointUnionSize<T>(a: set<T>, b: set<T>)
    requires a !! b
    ensures |a + b| == |a| + |b|
  {
    assert a * b == {};
  }

  /** Adding a group of members of one length to members of other lengths
      adds its size. */
  lemma {:induction false} AddGroup(a: set<string>, b: set<string>, n: nat)
    requires forall x :: x in a ==> |x| != n
    requires OfLength(b, n)
    ensures |a + b| == |a| + |b|
  {
    DisjointUnionSize(a, b);
  }

  // Helpers of the inventory counts below: the size of each group and
  // the one length all its members share.

  lemma {:induction false} InitialsAGroup()
    ensures |InitialsA| == 9 && OfLength(InitialsA, 1)
  {
  }

  lemma {:induction false} InitialsBGroup()
    ensures |InitialsB| == 9 && OfLength(InitialsB, 1)
  {
  }

  lemma {:induction false} InitialsCGroup()
    ensures |InitialsC| == 3 && OfLength(InitialsC, 2)
  {
  }

  lemma {:induction false} FinalsOneGroup()
    ensures |FinalsOne| == 7 && OfLength(FinalsOne, 1)
  {
  }

  lemma {:induction false} FinalsTwoGroup()
    ensures |FinalsTwo| == 9 && OfLength(FinalsTwo, 2)
  {
  }

  lemma {:induction false} StrictFinalsTwoGroup()
    ensures |StrictFinalsTwo| == 10 && OfLength(StrictFinalsTwo, 2)
  {
  }

  lemma {:induction false} StrictFinalsThreeGroup()
    ensures |StrictFinalsThree| == 8 && OfLength(StrictFinalsThree, 3)
  {
  }

  lemma {:induction false} StrictFinalsFourGroup()
    ensures |StrictFinalsFour| == 3 && OfLength(StrictFinalsFour, 4)
  {
  }

  lemma {:induction false} FinalsTwoBGroup()
    ensures |FinalsTwoB| == 8 && OfLength(FinalsTwoB, 2)
  {
  }

  lemma {:induction false} FinalsThreeAGroup()
    ensures |FinalsThreeA| == 6 && OfLength(FinalsThreeA, 3)
  {
  }

  lemma {:induction false} FinalsThreeBGroup()
    ensures |FinalsThreeB| == 6 && OfLength(FinalsThreeB, 3)
  {
  }

  lemma {:induction false} FinalsFourGroup()
    ensures |FinalsFour| == 4 && OfLength(FinalsFour, 4)
  {
  }

  lemma {:induction false} PhonesOneAGroup()
    ensures |PhonesOneA| == 8 && OfLength(PhonesOneA, 1)
  {
  }

  lemma {:induction false} PhonesOneBGroup()
    ensures |PhonesOneB| == 8 && OfLength(PhonesOneB, 1)
  {
  }

  lemma {:induction false} PhonesTwoAGroup()
    ensures |PhonesTwoA| == 6 && OfLength(PhonesTwoA, 2)
  {
  }

  lemma {:induction false} PhonesTwoBGroup()
    ensures |PhonesTwoB| == 6 && OfLength(PhonesTwoB, 2)
  {
  }

  lemma {:induction false} PhonesTwoCGroup()
    ensures |PhonesTwoC| == 6 && OfLength(PhonesTwoC, 2)
  {
  }

  lemma {:induction false} PhonesTwoDGroup()
    ensures |PhonesTwoD| == 5 && OfLength(PhonesTwoD, 2)
  {
  }

  lemma {:induction false} InitialsSplit()
    ensures StrictInitials == InitialsA + InitialsB + InitialsC
  {
  }

  lemma {:induction false} InitialsABDisjoint()
    ensures InitialsA !! InitialsB
  {
  }

  /** The 21 strict initials; `.union("")` leaves them as they were, so the
      zero initial is not a member. */
  lemma {:induction false} StrictInitialInventory()
    ensures |StrictInitials| == 21
    ensures UnionChars(StrictInitials, "") == StrictInitials && "" !in StrictInitials
  {
    InitialsSplit();
    InitialsAGroup();
    InitialsBGroup();
    InitialsCGroup();
    InitialsABDisjoint();
    DisjointUnionSize(InitialsA, InitialsB);
    AddGroup(InitialsA + InitialsB, InitialsC, 2);
  }

  /** Two new members grow a set by two. */
  lemma {:induction false} AddTwoNew(s: set<string>, x: string, y: string)
    requires x !in s && y !in s && x != y
    ensures |s + {x, y}| == |s| + 2
  {
    DisjointUnionSize(s, {x, y});
  }

  lemma {:induction false} GlidesAreNew()
    ensures "y" !in StrictInitials && "w" !in StrictInitials
  {
  }

  /** The non-strict initials add exactly the two glides: 23 in all. */
  lemma {:induction false} InitialInventory()
    ensures |Initials| == 23
  {
    StrictInitialInventory();
    GlidesAreNew();
    AddTwoNew(StrictInitials, "y", "w");
  }

  lemma {:induction false} GlidesAdded()
    ensures Initials - StrictInitials == {"y", "w"}
  {
  }

  /** Both renamed nasals are finals under either inventory. */
  lemma {:induction false} PostnasalsAreFinals()
    ensures forall k :: k in Postnasals ==> Postnasals[k] in StrictFinals && Postnasals[k] in Finals
    ensures forall k :: k in Postnasals ==> Postnasals[k] == k + "g"
  {
  }

  /** The two final inventories differ as their comments say: the strict
      one spells out iou, uei, uen, ueng, üan (van) and ün (vn) and adds io;
      the other abbreviates to iu, ui, un and adds the spelling ue. */
  lemma {:induction false} FinalsDiffer()
    ensures Finals - StrictFinals == {"iou", "uei", "van", "uen", "vn", "ueng", "io"}
  {
  }

  lemma {:induction false} StrictFinalsDiffer()
    ensures StrictFinals - Finals == {"iu", "ui", "un", "ue"}
  {
  }

  lemma {:induction false} StrictFinalsSplit()
    ensures StrictFinals == FinalsOne + FinalsTwo + StrictFinalsTwo + StrictFinalsThree + StrictFinalsFour
  {
  }

  lemma {:induction false} StrictFinalsTwoDisjoint()
    ensures FinalsTwo !! StrictFinalsTwo
  {
  }

  /** The 37 finals of `to_finals(strict=False)`. */
  lemma {:induction false} StrictFinalInventory()
    ensures |StrictFinals| == 37
  {
    StrictFinalsSplit();
    FinalsOneGroup();
    FinalsTwoGroup();
    StrictFinalsTwoGroup();
    StrictFinalsThreeGroup();
    StrictFinalsFourGroup();
    StrictFinalsTwoDisjoint();
    AddGroup(FinalsOne, FinalsTwo, 2);
    DisjointUnionSize(FinalsOne + FinalsTwo, StrictFinalsTwo);
    AddGroup(FinalsOne + FinalsTwo + StrictFinalsTwo, StrictFinalsThree, 3);
    AddGroup(FinalsOne + FinalsTwo + StrictFinalsTwo + StrictFinalsThree, StrictFinalsFour, 4);
  }

  lemma {:induction false} FinalsSplit()
    ensures Finals == FinalsOne + FinalsTwo + FinalsTwoB + FinalsThreeA + FinalsThreeB + FinalsFour
  {
  }

  lemma {:induction false} FinalsGroupsDisjoint()
    ensures FinalsTwo !! FinalsTwoB && FinalsThreeA !! FinalsThreeB
  {
  }

  /** The 40 finals of `to_finals(strict=True)`. */
  lemma {:induction false} FinalInventory()
    ensures |Finals| == 40
  {
    FinalsSplit();
    FinalsOneGroup();
    FinalsTwoGroup();
    FinalsTwoBGroup();
    FinalsThreeAGroup();
    FinalsThreeBGroup();
    FinalsFourGroup();
    FinalsGroupsDisjoint();
    AddGroup(FinalsOne, FinalsTwo, 2);
    DisjointUnionSize(FinalsOne + FinalsTwo, FinalsTwoB);
    AddGroup(FinalsOne + FinalsTwo + FinalsTwoB, FinalsThreeA, 3);
    DisjointUnionSize(FinalsOne + FinalsTwo + FinalsTwoB + FinalsThreeA, FinalsThreeB);
    AddGroup(FinalsOne + FinalsTwo + FinalsTwoB + FinalsThreeA + FinalsThreeB, FinalsFour, 4);
  }

  lemma {:induction false} PhonesSplit()
    ensures Phones == (PhonesOneA + PhonesOneB) + ((PhonesTwoA + PhonesTwoB) + (PhonesTwoC + PhonesTwoD))
  {
  }

  lemma {:induction false} PhonesDisjoint()
    ensures PhonesOneA !! PhonesOneB
    ensures PhonesTwoA !! PhonesTwoB && PhonesTwoC !! PhonesTwoD
  {
  }

  lemma {:induction false} PhonesTwoDisjoint()
    ensures PhonesTwoA + PhonesTwoB !! PhonesTwoC + PhonesTwoD
  {
  }

  /** The one-letter phones. */
  lemma {:induction false} PhonesOfOneLetter()
    ensures |PhonesOneA + PhonesOneB| == 16 && OfLength(PhonesOneA + PhonesOneB, 1)
  {
    PhonesOneAGroup();
    PhonesOneBGroup();
    PhonesDisjoint();
    DisjointUnionSize(PhonesOneA, PhonesOneB);
  }

  lemma {:induction false} PhonesOfTwoLettersAB()
    ensures |PhonesTwoA + PhonesTwoB| == 12 && OfLength(PhonesTwoA + PhonesTwoB, 2)
  {
    PhonesTwoAGroup();
    PhonesTwoBGroup();
    PhonesDisjoint();
    DisjointUnionSize(PhonesTwoA, PhonesTwoB);
  }

  lemma {:induction false} PhonesOfTwoLettersCD()
    ensures |PhonesTwoC + PhonesTwoD| == 11 && OfLength(PhonesTwoC + PhonesTwoD, 2)
  {
    PhonesTwoCGroup();
    PhonesTwoDGroup();
    PhonesDisjoint();
    DisjointUnionSize(PhonesTwoC, PhonesTwoD);
  }

  /** Sizes of two groups of lengths `m` and `n` add up. */
  lemma {:induction false} TwoLengths(a: set<string>, m: nat, b: set<string>, n: nat)
    requires OfLength(a, m) && OfLength(b, n) && m != n
    ensures |a + b| == |a| + |b|
  {
    DisjointUnionSize(a, b);
  }

  /** The 39 ARPAbet phones. */
  lemma {:induction false} PhoneInventory()
    ensures |Phones| == 39
  {
    PhonesSplit();
    PhonesOfOneLetter();
    PhonesOfTwoLettersAB();
    PhonesOfTwoLettersCD();
    PhonesTwoDisjoint();
    var one, ab, cd := PhonesOneA + PhonesOneB, PhonesTwoA + PhonesTwoB, PhonesTwoC + PhonesTwoD;
    DisjointUnionSize(ab, cd);
    TwoLengths(one, 1, ab + cd, 2);
  }
}

=== FILE: g2p_eng.dfy ===
/** `G2pEn` of g2p_mix/g2p_eng.py: the filter that turns lines of the
    pronouncing dictionary cmudict-0.7b into table entries, and the choice
    `g2p` makes between the table, letter-by-letter spelling and the neural
    converter. */
module G2pEng {
  import opened Common

  /** Python's `s.split(sep)` for a non-empty separator: the occurrences
      are found left to right without overlap. */
  predicate OccursAt(s: string, sep: string, j: int) {
    0 <= j && j + |sep| <= |s| && s[j..j + |sep|] == sep
  }

  function Find(s: string, sep: string, i: nat): (r: Option<nat>)
    requires |sep| > 0 && i <= |s|
    ensures r.Some? ==> i <= r.value && OccursAt(s, sep, r.value)
    ensures r.Some? ==> forall j :: i <= j < r.value ==> !OccursAt(s, sep, j)
    ensures r.None? ==> forall j :: i <= j ==> !OccursAt(s, sep, j)
    decreases |s| - i
  {
    if i + |sep| > |s| then None
    else if s[i..i + |sep|] == sep then Some(i)
    else Find(s, sep, i + 1)
  }

  function Split(s: string, sep: string): (r: seq<string>)
    requires |sep| > 0
    ensures |r| > 0
    decreases |s|
  {
    match Find(s, sep, 0)
    case None => [s]
    case Some(k) => [s[..k]] + Split(s[k + |sep|..], sep)
  }

  /** `sep.join(xs)` */
  function Join(xs: seq<string>, sep: string): string {
    if |xs| == 0 then ""
    else if |xs| == 1 then xs[0]
    else xs[0] + sep + Join(xs[1..], sep)
  }

  /** `s` has no occurrence of `sep`. */
  predicate Free(s: string, sep: string) {
    forall j :: 0 <= j <= |s| ==> !OccursAt(s, sep, j)
  }

  /** The first occurrence found cuts the text into the piece before it,
      the separator, and the rest; the piece before it holds no separator. */
  lemma {:induction false} FindCuts(s: string, sep: string, k: nat)
    requires |sep| > 0 && Find(s, sep, 0) == Some(k)
    ensures s == s[..k] + sep + s[k + |sep|..]
    ensures Free(s[..k], sep)
  {
    assert s == s[..k] + s[k..k + |sep|] + s[k + |sep|..];
    forall j | 0 <= j <= k
      ensures !OccursAt(s[..k], sep, j)
    {
      if j + |sep| <= k {
        assert !OccursAt(s, sep, j);
        assert s[..k][j..j + |sep|] == s[j..j + |sep|];
      }
    }
  }

  lemma {:induction false} JoinCons(x: string, xs: seq<string>, sep: string)
    requires |xs| > 0
    ensures Join([x] + xs, sep) == x + sep + Join(xs, sep)
  {
    assert ([x] + xs)[1..] == xs;
  }

  /** Splitting and joining with the same separator gives the text back. */
  lemma {:induction false} SplitJoin(s: string, sep: string)
    requires |sep| > 0
    ensures Join(Split(s, sep), sep) == s
    decreases |s|
  {
    match Find(s, sep, 0)
    case None =>
    case Some(k) =>
      var rest := s[k + |sep|..];
      SplitJoin(rest, sep);
      FindCuts(s, sep, k);
      JoinCons(s[..k], Split(rest, sep), sep);
  }

  /** No piece of a split still holds the separator. */
  lemma {:induction false} SplitPiecesFree(s: string, sep: string)
    requires |sep| > 0
    ensures forall m :: 0 <= m < |Split(s, sep)| ==> Free(Split(s, sep)[m], sep)
    decreases |s|
  {
    match Find(s, sep, 0)
    case None =>
      assert Split(s, sep) == [s];
    case Some(k) =>
      var rest := s[k + |sep|..];
      SplitPiecesFree(rest, sep);
      FindCuts(s, sep, k);
      var r := Split(s, sep);
      forall m | 0 <= m < |r|
        ensures Free(r[m], sep)
      {
        if m > 0 {
          assert r[m] == Split(rest, sep)[m - 1];
        }
      }
  }

  predicate AllSpace(isSpace: char -> bool, s: string) {
    forall k :: 0 <= k < |s| ==> isSpace(s[k])
  }

  /** `r` is `s[i..j]`, and only whitespace lies outside it. */
  predicate TrimmedAt(isSpace: char -> bool, s: string, r: string, i: int, j: int) {
    0 <= i <= j <= |s| && r == s[i..j] && AllSpace(isSpace, s[..i]) && AllSpace(isSpace, s[j..])
  }

  /** `r` is `s` with some whitespace cut from either end. */
  predicate TrimmedFrom(isSpace: char -> bool, s: string, r: string) {
    exists i, j :: 0 <= i <= j <= |s| && TrimmedAt(isSpace, s, r, i, j)
  }

  lemma {:induction false} TrimmedWhole(isSpace: char -> bool, s: string)
    ensures TrimmedFrom(isSpace, s, s)
  {
    assert s == s[0..|s|] && s[..0] == [] && s[|s|..] == [];
    assert TrimmedAt(isSpace, s, s, 0, |s|);
  }

  lemma {:induction false} TrimmedFront(isSpace: char -> bool, s: string, r: string)
    requires |s| > 0 && isSpace(s[0]) && TrimmedFrom(isSpace, s[1..], r)
    ensures TrimmedFrom(isSpace, s, r)
  {
    var p := s[1..];
    var i, j :| 0 <= i <= j <= |p| && TrimmedAt(isSpace, p, r, i, j);
    assert r == s[i + 1..j + 1] by {
      assert p[i..j] == s[i + 1..j + 1];
    }
    assert AllSpace(isSpace, s[..i + 1]) by {
      assert s[..i + 1] == [s[0]] + p[..i];
    }
    assert AllSpace(isSpace, s[j + 1..]) by {
      assert p[j..] == s[j + 1..];
    }
    assert TrimmedAt(isSpace, s, r, i + 1, j + 1);
  }

  lemma {:induction false} TrimmedBack(isSpace: char -> bool, s: string, r: string)
    requires |s| > 0 && isSpace(s[|s| - 1]) && TrimmedFrom(isSpace, s[..|s| - 1], r)
    ensures TrimmedFrom(isSpace, s, r)
  {
    var p := s[..|s| - 1];
    var i, j :| 0 <= i <= j <= |p| && TrimmedAt(isSpace, p, r, i, j);
    assert r == s[i..j] by {
      assert p[i..j] == s[i..j];
    }
    assert AllSpace(isSpace, s[..i]) by {
      assert p[..i] == s[..i];
    }
    assert AllSpace(isSpace, s[j..]) by {
      assert s[j..] == p[j..] + [s[|s| - 1]];
    }
    assert TrimmedAt(isSpace, s, r, i, j);
  }

  /** Python's `str.strip()`: whitespace (`isSpace`) removed from both ends;
      what is left is a slice of the input with only whitespace around it. */
  function Strip(isSpace: char -> bool, s: string): (r: string)
    ensures |r| <= |s|
    ensures |r| > 0 ==> !isSpace(r[0]) && !isSpace(r[|r| - 1])
    ensures TrimmedFrom(isSpace, s, r)
    decreases |s|
  {
    if |s| == 0 then
      TrimmedWhole(isSpace, s);
      s
    else if isSpace(s[0]) then
      var r := Strip(isSpace, s[1..]);
      TrimmedFront(isSpace, s, r);
      r
    else if isSpace(s[|s| - 1]) then
      var r := Strip(isSpace, s[..|s| - 1]);
      TrimmedBack(isSpace, s, r);
      r
    else
      TrimmedWhole(isSpace, s);
      s
  }

  /** `re.match(r"^[A-Z']+$", word)` on a headword, which holds no line
      break. */
  predicate IsHeadword(w: string) {
    |w| > 0 && forall k :: 0 <= k < |w| ==> ('A' <= w[k] <= 'Z' || w[k] == '\'')
  }

  /** Headwords the table drops because they are usually spelled out. */
  const Dropped: set<string> := {"AI", "HUD"}

  /** What one line of the file contributes. */
  datatype Line = Comment | Malformed | Skipped | Entry(word: string, phones: seq<string>)

  /** One turn of the loop in `G2pEn.__init__`: comment lines are passed
      over; the stripped line must split into exactly two fields at a double
      space, or the unpacking raises `ValueError`; headwords outside
      `[A-Z']`, "AI" and "HUD" are dropped; the phones are the second
      field split at single spaces. */
  function ParseLine(isSpace: char -> bool, line: string): (r: Line)
    ensures r == Comment <==> IsPrefix(";;;", line)
    ensures r.Entry? ==> IsHeadword(r.word) && r.word !in Dropped && |r.phones| > 0
    ensures r.Entry? ==> Strip(isSpace, line) == r.word + "  " + Join(r.phones, " ")
    ensures r.Entry? ==> forall k :: 0 <= k < |r.phones| ==> Free(r.phones[k], " ")
    ensures !IsPrefix(";;;", line) ==> (r == Malformed <==> |Split(Strip(isSpace, line), "  ")| != 2)
    ensures !IsPrefix(";;;", line) && |Split(Strip(isSpace, line), "  ")| == 2 ==>
              (r.Entry? <==> IsHeadword(Split(Strip(isSpace, line), "  ")[0])
                             && Split(Strip(isSpace, line), "  ")[0] !in Dropped)
  {
    if IsPrefix(";;;", line) then Comment
    else
      var fields := Split(Strip(isSpace, line), "  ");
      if |fields| != 2 then Malformed
      else if !IsHeadword(fields[0]) || fields[0] in Dropped then Skipped
      else
        SplitJoin(Strip(isSpace, line), "  ");
        SplitJoin(fields[1], " ");
        SplitPiecesFree(fields[1], " ");
        assert fields[1..] == [fields[1]];
        Entry(fields[0], Split(fields[1], " "))
  }

  /** The table `G2pEn.__init__` builds, line by line; a malformed line
      aborts the whole load (`None`), and a later entry for the same
      headword replaces an earlier one. */
  function Load(isSpace: char -> bool, table: map<string, seq<string>>, lines: seq<string>): (r: Option<map<string, seq<string>>>)
    ensures r.Some? ==> forall w :: w in table ==> w in r.value
    decreases |lines|
  {
    if |lines| == 0 then Some(table)
    else
      match ParseLine(isSpace, lines[0])
      case Malformed => None
      case Entry(w, phones) => Load(isSpace, table[w := phones], lines[1..])
      case _ => Load(isSpace, table, lines[1..])
  }

  /** Every key of a table is a headword of `[A-Z']` other than "AI" and
      "HUD", and every value has at least one phone. */
  predicate CleanTable(table: map<string, seq<string>>) {
    forall w :: w in table ==> IsHeadword(w) && w !in Dropped && |table[w]| > 0
  }

  /** Loading keeps the table clean. */
  lemma {:induction false} LoadIsClean(isSpace: char -> bool, table: map<string, seq<string>>, lines: seq<string>)
    requires CleanTable(table)
    ensures Load(isSpace, table, lines).Some? ==> CleanTable(Load(isSpace, table, lines).value)
    decreases |lines|
  {
    if |lines| > 0 {
      var line := ParseLine(isSpace, lines[0]);
      LoadIsClean(isSpace, if line.Entry? then table[line.word := line.phones] else table, lines[1..]);
    }
  }

  /** Loading fails exactly when some line is malformed. */
  lemma {:induction false} LoadFailsIff(isSpace: char -> bool, table: map<string, seq<string>>, lines: seq<string>)
    ensures Load(isSpace, table, lines).None? <==>
              exists k :: 0 <= k < |lines| && ParseLine(isSpace, lines[k]) == Malformed
    decreases |lines|
  {
    if |lines| > 0 {
      var line := ParseLine(isSpace, lines[0]);
      LoadFailsIff(isSpace, if line.Entry? then table[line.word := line.phones] else table, lines[1..]);
      if exists k :: 0 <= k < |lines[1..]| && ParseLine(isSpace, lines[1..][k]) == Malformed {
        var k :| 0 <= k < |lines[1..]| && ParseLine(isSpace, lines[1..][k]) == Malformed;
        assert ParseLine(isSpace, lines[k + 1]) == Malformed;
      }
      if exists k :: 0 <= k < |lines| && ParseLine(isSpace, lines[k]) == Malformed {
        var k :| 0 <= k < |lines| && ParseLine(isSpace, lines[k]) == Malformed;
        if k > 0 {
          assert ParseLine(isSpace, lines[1..][k - 1]) == Malformed;
        }
      }
    }
  }

  /** The entry of the last line that names a headword is the one kept. */
  lemma {:induction false} LaterLineWins(isSpace: char -> bool, table: map<string, seq<string>>, lines: seq<string>, w: string, phones: seq<string>)
    requires |lines| > 0 && ParseLine(isSpace, Last(lines)) == Entry(w, phones)
    ensures Load(isSpace, table, lines).Some? ==>
              w in Load(isSpace, table, lines).value && Load(isSpace, table, lines).value[w] == phones
    decreases |lines|
  {
    if |lines| > 1 {
      var line := ParseLine(isSpace, lines[0]);
      var next := if line.Entry? then table[line.word := line.phones] else table;
      assert Last(lines[1..]) == Last(lines);
      LaterLineWins(isSpace, next, lines[1..], w, phones);
    }
  }

  /** Python's case operations, taken from the Unicode tables: `str.upper`
      and whether one character is upper or lower case. */
  datatype CaseOps = CaseOps(upper: string -> string, isUpperChar: char -> bool, isLowerChar: char -> bool)

  /** `str.isupper()`: some cased character, and no lower-case one. */
  predicate StrIsUpper(co: CaseOps, w: string) {
    (exists k :: 0 <= k < |w| && co.isUpperChar(w[k])) && forall k :: 0 <= k < |w| ==> !co.isLowerChar(w[k])
  }

  /** `str.islower()`: some cased character, and no upper-case one. */
  predicate StrIsLower(co: CaseOps, w: string) {
    (exists k :: 0 <= k < |w| && co.isLowerChar(w[k])) && forall k :: 0 <= k < |w| ==> !co.isUpperChar(w[k])
  }

  /** `is_abbr`: all upper case and at most four characters, or all lower
      case and at most three. */
  predicate IsAbbreviation(co: CaseOps, w: string): (b: bool)
    ensures StrIsUpper(co, w) ==> (b <==> |w| <= 4)
    ensures StrIsLower(co, w) ==> (b <==> |w| <= 3)
  {
    (StrIsUpper(co, w) && |w| <= 4) || (StrIsLower(co, w) && |w| <= 3)
  }

  /** The phones one character of an abbreviation contributes: "EY1" for a
      character whose upper case is "A", otherwise what the neural
      converter says for it. */
  function LetterPhones(co: CaseOps, neural: string -> seq<string>, c: char): seq<string> {
    if co.upper([c]) == "A" then ["EY1"] else neural([c])
  }

  /** The spelling loop of `G2pEn.g2p`: a word of A's reads as one "EY1"
      per letter. */
  function Spell(co: CaseOps, neural: string -> seq<string>, w: string): (r: seq<string>)
    ensures (forall k :: 0 <= k < |w| ==> co.upper([w[k]]) == "A") ==> r == seq(|w|, _ => "EY1")
  {
    if |w| == 0 then []
    else
      assert forall k :: 0 <= k < |w[1..]| ==> w[1..][k] == w[k + 1];
      LetterPhones(co, neural, w[0]) + Spell(co, neural, w[1..])
  }

  /** Spelling is letter by letter: the spelling of a word is the
      concatenation of its characters' phones, in order. */
  lemma {:induction false} SpellIsPerLetter(co: CaseOps, neural: string -> seq<string>, w: string)
    ensures Spell(co, neural, w) == Flatten(seq(|w|, k requires 0 <= k < |w| => LetterPhones(co, neural, w[k])))
  {
    var parts := seq(|w|, k requires 0 <= k < |w| => LetterPhones(co, neural, w[k]));
    if |w| > 0 {
      var tail := seq(|w[1..]|, k requires 0 <= k < |w[1..]| => LetterPhones(co, neural, w[1..][k]));
      SpellIsPerLetter(co, neural, w[1..]);
      assert parts[1..] == tail;
      assert parts == [parts[0]] + parts[1..];
      FlattenAppend([LetterPhones(co, neural, w[0])], parts[1..]);
      FlattenSingleton(LetterPhones(co, neural, w[0]));
    }
  }

  /** Spelling two pieces spells their concatenation. */
  lemma {:induction false} SpellAppend(co: CaseOps, neural: string -> seq<string>, a: string, b: string)
    ensures Spell(co, neural, a + b) == Spell(co, neural, a) + Spell(co, neural, b)
    decreases |a|
  {
    if |a| == 0 {
      assert a + b == b;
    } else {
      assert (a + b)[1..] == a[1..] + b;
      SpellAppend(co, neural, a[1..], b);
      AppendAssoc(LetterPhones(co, neural, a[0]), Spell(co, neural, a[1..]), Spell(co, neural, b));
    }
  }

  /** `G2pEn.g2p`: the table entry of the upper-cased word wins; otherwise a
      word that is not an abbreviation goes to the neural converter whole,
      and an abbreviation is spelled. */
  function G2p(table: map<string, seq<string>>, co: CaseOps, neural: string -> seq<string>, word: string): (r: seq<string>)
    ensures co.upper(word) in table ==> r == table[co.upper(word)]
    ensures co.upper(word) !in table ==>
              r == if IsAbbreviation(co, word) then Spell(co, neural, word) else neural(word)
  {
    if co.upper(word) in table then table[co.upper(word)]
    else if !IsAbbreviation(co, word) then neural(word)
    else Spell(co, neural, word)
  }

  /** An abbreviation has one to four characters. */
  lemma {:induction false} AbbreviationsAreShort(co: CaseOps, w: string)
    requires IsAbbreviation(co, w)
    ensures 0 < |w| <= 4
  {
  }

  /** "AI" never reaches the table, so any table the loader builds leaves
      it to be spelled: "EY1" for the A, the neural converter for the I. */
  lemma {:induction false} AiIsSpelled(isSpace: char -> bool, lines: seq<string>, co: CaseOps, neural: string -> seq<string>)
    requires Load(isSpace, map[], lines).Some?
    requires co.upper("AI") == "AI" && co.upper("A") == "A" && co.upper("I") == "I"
    requires co.isUpperChar('A') && !co.isLowerChar('A') && !co.isLowerChar('I')
    ensures G2p(Load(isSpace, map[], lines).value, co, neural, "AI") == ["EY1"] + neural("I")
  {
    LoadIsClean(isSpace, map[], lines);
    assert "AI"[0] == 'A' && "AI"[1..] == "I" && "I"[1..] == [];
    assert ["A"[0]] == "A" && ["I"[0]] == "I";
    assert StrIsUpper(co, "AI");
    assert "AI" !in Load(isSpace, map[], lines).value;
    assert LetterPhones(co, neural, 'A') == ["EY1"];
    assert LetterPhones(co, neural, 'I') == neural("I");
    assert Spell(co, neural, "I") == neural("I") + [];
  }
}

=== FILE: g2p_han.dfy ===
/** `get_initials_finals` of g2p_mix/g2p_han.py: pypinyin's readings of a
    word split into initials and tone-carrying finals, with syllabic nasals
    renamed through a table of their own. */
module G2pHan {
  import opened Common
  import opened Utils
  import Constants

  /** The syllabic nasals this file renames, tone included: n→ng, m→mg. */
  const HanPostnasals: map<string, string> :=
    map["n1" := "ng1", "n2" := "ng2", "n4" := "ng4", "m2" := "mg2", "m3" := "mg3", "m4" := "mg4"]

  /** The initial and final of one reading: the table's entry for a syllabic
      nasal, otherwise pypinyin's split with the tone digit appended to the
      final.  An empty reading would raise an `IndexError` on `pinyin[-1]`. */
  function InitialFinal(ps: PinyinSplitters, pinyin: string, strict: bool): (r: (string, string))
    requires |pinyin| > 0
    ensures pinyin in HanPostnasals ==> r == ("", HanPostnasals[pinyin])
    ensures pinyin !in HanPostnasals ==> r.0 == ps.toInitials(pinyin, strict)
    ensures pinyin !in HanPostnasals ==> r.1 == ps.toFinals(pinyin, strict) + [Last(pinyin)]
    ensures |r.1| > 0 && Last(r.1) == Last(pinyin)
  {
    if pinyin in HanPostnasals then ("", HanPostnasals[pinyin])
    else (ps.toInitials(pinyin, strict), ps.toFinals(pinyin, strict) + [Last(pinyin)])
  }

  /** Every reading pypinyin gives is non-empty. */
  predicate Readable(pinyins: seq<string>) {
    forall k :: 0 <= k < |pinyins| ==> |pinyins[k]| > 0
  }

  /** `get_initials_finals`: two lists as long as the readings, position by
      position, each final ending in its syllable's tone. */
  function GetInitialsFinals(lazyPinyin: string -> seq<string>, ps: PinyinSplitters, word: string, strict: bool): (r: (seq<string>, seq<string>))
    requires Readable(lazyPinyin(word))
    ensures |r.0| == |lazyPinyin(word)| && |r.1| == |lazyPinyin(word)|
    ensures forall k :: 0 <= k < |r.0| ==> (r.0[k], r.1[k]) == InitialFinal(ps, lazyPinyin(word)[k], strict)
    ensures forall k :: 0 <= k < |r.1| ==> |r.1[k]| > 0 && Last(r.1[k]) == Last(lazyPinyin(word)[k])
  {
    var pinyins := lazyPinyin(word);
    var pairs := seq(|pinyins|, k requires 0 <= k < |pinyins| => InitialFinal(ps, pinyins[k], strict));
    (seq(|pairs|, k requires 0 <= k < |pairs| => pairs[k].0), seq(|pairs|, k requires 0 <= k < |pairs| => pairs[k].1))
  }

  /** The table renames n to ng and m to mg and keeps the tone; n3 and m1
      are not in it and go through pypinyin like any other reading. */
  lemma {:induction false} HanPostnasalsShape()
    ensures forall p :: p in HanPostnasals ==>
              |p| == 2 && HanPostnasals[p] == [p[0]] + "g" + [p[1]]
    ensures "n3" !in HanPostnasals && "m1" !in HanPostnasals
  {
  }

  /** `utils.parse_pinyin` reads its syllabic nasals from a table it imports
      as `POSTNASALS_MAP`, which g2p_mix/constants.py does not define; with
      that table filled by the `POSTNASALS` of g2p_mix/constants.py, it reads
      every syllabic nasal of this file's table the same way, with the tone
      kept apart instead of appended. */
  lemma {:induction false} PostnasalsAgree(ps: PinyinSplitters, pinyin: string, strict: bool)
    requires pinyin in HanPostnasals
    ensures ParsePinyin(Constants.Postnasals, ps, pinyin, strict).initial == InitialFinal(ps, pinyin, strict).0
    ensures ParsePinyin(Constants.Postnasals, ps, pinyin, strict).final + [Last(pinyin)]
         == InitialFinal(ps, pinyin, strict).1
  {
    assert DropLast(pinyin) == [pinyin[0]];
  }

  /** The two tables disagree on tones missing from this one: "n3" is a
      syllabic nasal to `parse_pinyin` but is handed to pypinyin here. */
  lemma {:induction false} PostnasalsDisagreeOnN3(ps: PinyinSplitters, strict: bool)
    ensures ParsePinyin(Constants.Postnasals, ps, "n3", strict) == Syllable("", "ng", '3')
    ensures InitialFinal(ps, "n3", strict) == (ps.toInitials("n3", strict), ps.toFinals("n3", strict) + "3")
  {
    assert DropLast("n3") == "n";
  }
}

=== FILE: g2p_mix.dfy ===
/** `G2pMix` of g2p_mix/g2p_mix.py: `retokenize` re-joins English
    contractions that the Chinese front end split at the apostrophe, and
    `g2p` tags every resulting token with its language. */
module G2pMix {
  import opened Common
  import opened Tokens
  import opened Tokenizer

  /** One `{"word": ..., "phones": ...}` dictionary built by `retokenize`. */
  datatype Piece = Piece(word: string, phones: string)

  /** The words that may follow an apostrophe in an English contraction. */
  const Suffixes: set<string> := {"d", "s", "m", "re", "ve", "t", "clock", "em", "cause"}

  function Words(ps: seq<Piece>): (r: seq<string>)
    ensures |r| == |ps|
    ensures forall k :: 0 <= k < |ps| ==> r[k] == ps[k].word
  {
    seq(|ps|, k requires 0 <= k < |ps| => ps[k].word)
  }

  function PhonesOf(ps: seq<Piece>): (r: seq<string>)
    ensures |r| == |ps|
    ensures forall k :: 0 <= k < |ps| ==> r[k] == ps[k].phones
  {
    seq(|ps|, k requires 0 <= k < |ps| => ps[k].phones)
  }

  /** Entry `i` is an apostrophe followed by a contraction suffix. */
  predicate JoinsAt(words: seq<string>, pinyins: seq<string>, i: nat)
    requires |pinyins| <= |words|
  {
    i + 1 < |pinyins| && pinyins[i] == "'" && words[i + 1] in Suffixes
  }

  /** What the loop does with one entry. */
  datatype Action = Skip | Join | Keep

  /** A space entry is skipped, an apostrophe before a suffix is joined to
      the last token, any other entry is kept as a token of its own. */
  function ActionAt(words: seq<string>, pinyins: seq<string>, i: nat): (a: Action)
    requires |pinyins| <= |words| && i < |pinyins|
    ensures a == Skip <==> pinyins[i] == " "
    ensures a == Join <==> pinyins[i] != " " && JoinsAt(words, pinyins, i)
  {
    if pinyins[i] == " " then Skip
    else if JoinsAt(words, pinyins, i) then Join
    else Keep
  }

  /** The last token extended by an apostrophe entry and the suffix entry
      after it. */
  function Joined(words: seq<string>, pinyins: seq<string>, i: nat, acc: seq<Piece>): seq<Piece>
    requires |pinyins| <= |words| && i + 1 < |pinyins| && |acc| > 0
  {
    DropLast(acc) + [Piece(Last(acc).word + words[i] + words[i + 1], Last(acc).phones + pinyins[i] + pinyins[i + 1])]
  }

  /** The `while` loop of `retokenize` from entry `i` with the tokens built
      so far.  A join with no token yet raises an `IndexError` on
      `tokens[-1]`, here `None`. */
  function Loop(words: seq<string>, pinyins: seq<string>, i: nat, acc: seq<Piece>): (r: Option<seq<Piece>>)
    requires |pinyins| <= |words| && i <= |pinyins|
    ensures r.Some? ==> |acc| <= |r.value| <= |acc| + (|pinyins| - i)
    decreases |pinyins| - i
  {
    if i == |pinyins| then Some(acc)
    else
      match ActionAt(words, pinyins, i)
      case Skip => Loop(words, pinyins, i + 1, acc)
      case Join => if |acc| == 0 then None else Loop(words, pinyins, i + 2, Joined(words, pinyins, i, acc))
      case Keep => Loop(words, pinyins, i + 1, acc + [Piece(words[i], pinyins[i])])
  }

  /** The first entry from `i` that is not a space joins a contraction: there
      is no token yet for it to extend. */
  predicate LeadingJoin(words: seq<string>, pinyins: seq<string>, i: nat)
    requires |pinyins| <= |words|
  {
    exists j :: i <= j < |pinyins| && JoinsAt(words, pinyins, j) && forall k :: i <= k < j ==> pinyins[k] == " "
  }

  /** Once a token exists the loop cannot fail. */
  lemma {:induction false} LoopSucceedsWithToken(words: seq<string>, pinyins: seq<string>, i: nat, acc: seq<Piece>)
    requires |pinyins| <= |words| && i <= |pinyins| && |acc| > 0
    ensures Loop(words, pinyins, i, acc).Some?
    decreases |pinyins| - i
  {
    if i < |pinyins| {
      match ActionAt(words, pinyins, i)
      case Skip => LoopSucceedsWithToken(words, pinyins, i + 1, acc);
      case Join => LoopSucceedsWithToken(words, pinyins, i + 2, Joined(words, pinyins, i, acc));
      case Keep => LoopSucceedsWithToken(words, pinyins, i + 1, acc + [Piece(words[i], pinyins[i])]);
    }
  }

  /** The loop fails exactly when it starts with no token and the first
      non-space entry is an apostrophe before a suffix. */
  lemma {:induction false} LoopFailsIff(words: seq<string>, pinyins: seq<string>, i: nat, acc: seq<Piece>)
    requires |pinyins| <= |words| && i <= |pinyins|
    ensures Loop(words, pinyins, i, acc).None? <==> |acc| == 0 && LeadingJoin(words, pinyins, i)
    decreases |pinyins| - i
  {
    if |acc| > 0 {
      LoopSucceedsWithToken(words, pinyins, i, acc);
    } else if i < |pinyins| {
      match ActionAt(words, pinyins, i)
      case Skip =>
        LoopFailsIff(words, pinyins, i + 1, acc);
        if LeadingJoin(words, pinyins, i + 1) {
          var j :| i + 1 <= j < |pinyins| && JoinsAt(words, pinyins, j) && forall k :: i + 1 <= k < j ==> pinyins[k] == " ";
          assert forall k :: i <= k < j ==> pinyins[k] == " ";
        }
        if LeadingJoin(words, pinyins, i) {
          var j :| i <= j < |pinyins| && JoinsAt(words, pinyins, j) && forall k :: i <= k < j ==> pinyins[k] == " ";
          assert pinyins[j] == "'";
          assert forall k :: i + 1 <= k < j ==> pinyins[k] == " ";
        }
      case Join =>
      case Keep =>
        LoopSucceedsWithToken(words, pinyins, i + 1, acc + [Piece(words[i], pinyins[i])]);
        forall j | i <= j < |pinyins| && JoinsAt(words, pinyins, j)
          ensures exists k :: i <= k < j && pinyins[k] != " "
        {
          assert i < j && pinyins[i] != " ";
        }
    }
  }

  /** No space entry carries a contraction suffix as its word, so a joined
      suffix is never a space. */
  predicate SpacesAreNotSuffixes(words: seq<string>, pinyins: seq<string>)
    requires |pinyins| <= |words|
  {
    forall j :: 0 <= j < |pinyins| && pinyins[j] == " " ==> words[j] !in Suffixes
  }

  /** The entries of `xs` at the positions whose pinyin is not a space,
      joined in order. */
  function Spoken(xs: seq<string>, pinyins: seq<string>, i: nat): string
    requires |pinyins| <= |xs| && i <= |pinyins|
    decreases |pinyins| - i
  {
    if i == |pinyins| then ""
    else (if pinyins[i] == " " then "" else xs[i]) + Spoken(xs, pinyins, i + 1)
  }

  /** Extending the last token by `a` and its phones by `b` extends the
      joined words by `a` and the joined phones by `b`. */
  lemma {:induction false} ExtendLastToken(acc: seq<Piece>, a: string, b: string)
    requires |acc| > 0
    ensures var acc' := DropLast(acc) + [Piece(Last(acc).word + a, Last(acc).phones + b)];
            && Flatten(Words(acc')) == Flatten(Words(acc)) + a
            && Flatten(PhonesOf(acc')) == Flatten(PhonesOf(acc)) + b
  {
    var n := |acc| - 1;
    var acc' := DropLast(acc) + [Piece(Last(acc).word + a, Last(acc).phones + b)];
    assert Words(acc') == DropLast(Words(acc)) + [Last(Words(acc)) + a] by {
      assert Words(acc')[n] == Last(Words(acc)) + a;
      assert forall k :: 0 <= k < n ==> Words(acc')[k] == DropLast(Words(acc))[k];
    }
    assert PhonesOf(acc') == DropLast(PhonesOf(acc)) + [Last(PhonesOf(acc)) + b] by {
      assert PhonesOf(acc')[n] == Last(PhonesOf(acc)) + b;
      assert forall k :: 0 <= k < n ==> PhonesOf(acc')[k] == DropLast(PhonesOf(acc))[k];
    }
    FlattenExtendBy(Words(acc), a);
    FlattenExtendBy(PhonesOf(acc), b);
  }

  /** Adding a token adds its word and its phones at the end. */
  lemma {:induction false} AddToken(acc: seq<Piece>, p: Piece)
    ensures Flatten(Words(acc + [p])) == Flatten(Words(acc)) + p.word
    ensures Flatten(PhonesOf(acc + [p])) == Flatten(PhonesOf(acc)) + p.phones
  {
    assert Words(acc + [p]) == Words(acc) + [p.word];
    assert PhonesOf(acc + [p]) == PhonesOf(acc) + [p.phones];
    FlattenAppend(Words(acc), [p.word]);
    FlattenAppend(PhonesOf(acc), [p.phones]);
    FlattenSingleton(p.word);
    FlattenSingleton(p.phones);
  }

  /** A join moves two non-space entries from what is left to spell into
      the last token. */
  lemma {:induction false} JoinKeepsText(words: seq<string>, pinyins: seq<string>, i: nat, acc: seq<Piece>)
    requires |pinyins| <= |words| && i + 1 < |pinyins| && |acc| > 0
    requires pinyins[i] != " " && pinyins[i + 1] != " "
    ensures Flatten(Words(Joined(words, pinyins, i, acc))) + Spoken(words, pinyins, i + 2)
         == Flatten(Words(acc)) + Spoken(words, pinyins, i)
    ensures Flatten(PhonesOf(Joined(words, pinyins, i, acc))) + Spoken(pinyins, pinyins, i + 2)
         == Flatten(PhonesOf(acc)) + Spoken(pinyins, pinyins, i)
  {
    var last := Last(acc);
    AppendAssoc(last.word, words[i], words[i + 1]);
    AppendAssoc(last.phones, pinyins[i], pinyins[i + 1]);
    ExtendLastToken(acc, words[i] + words[i + 1], pinyins[i] + pinyins[i + 1]);
    SpokenTwo(words, pinyins, i);
    SpokenTwo(pinyins, pinyins, i);
    AppendAssoc4(Flatten(Words(acc)), words[i], words[i + 1], Spoken(words, pinyins, i + 2));
    AppendAssoc4(Flatten(PhonesOf(acc)), pinyins[i], pinyins[i + 1], Spoken(pinyins, pinyins, i + 2));
  }

  /** Two non-space entries open what is left to spell. */
  lemma {:induction false} SpokenTwo(xs: seq<string>, pinyins: seq<string>, i: nat)
    requires |pinyins| <= |xs| && i + 1 < |pinyins| && pinyins[i] != " " && pinyins[i + 1] != " "
    ensures Spoken(xs, pinyins, i) == xs[i] + (xs[i + 1] + Spoken(xs, pinyins, i + 2))
  {
  }

  lemma {:induction false} AppendAssoc4<T>(a: seq<T>, b: seq<T>, c: seq<T>, d: seq<T>)
    ensures (a + (b + c)) + d == a + (b + (c + d))
  {
    AppendAssoc(a, b + c, d);
    AppendAssoc(b, c, d);
  }

  /** A fresh token moves one non-space entry from what is left to spell
      into the tokens. */
  lemma {:induction false} FreshKeepsText(words: seq<string>, pinyins: seq<string>, i: nat, acc: seq<Piece>)
    requires |pinyins| <= |words| && i < |pinyins| && pinyins[i] != " "
    ensures Flatten(Words(acc + [Piece(words[i], pinyins[i])])) + Spoken(words, pinyins, i + 1)
         == Flatten(Words(acc)) + Spoken(words, pinyins, i)
    ensures Flatten(PhonesOf(acc + [Piece(words[i], pinyins[i])])) + Spoken(pinyins, pinyins, i + 1)
         == Flatten(PhonesOf(acc)) + Spoken(pinyins, pinyins, i)
  {
    AddToken(acc, Piece(words[i], pinyins[i]));
    AppendAssoc(Flatten(Words(acc)), words[i], Spoken(words, pinyins, i + 1));
    AppendAssoc(Flatten(PhonesOf(acc)), pinyins[i], Spoken(pinyins, pinyins, i + 1));
  }

  /** The loop from entry `i` with tokens `acc`, if it succeeds, ends with
      tokens whose words spell those of `acc` followed by the non-space
      entries' words, and likewise for the phones. */
  predicate Spells(words: seq<string>, pinyins: seq<string>, i: nat, acc: seq<Piece>)
    requires |pinyins| <= |words| && i <= |pinyins|
  {
    Loop(words, pinyins, i, acc).Some? ==>
      && Flatten(Words(Loop(words, pinyins, i, acc).value)) == Flatten(Words(acc)) + Spoken(words, pinyins, i)
      && Flatten(PhonesOf(Loop(words, pinyins, i, acc).value)) == Flatten(PhonesOf(acc)) + Spoken(pinyins, pinyins, i)
  }

  lemma {:induction false} SpellsAtEnd(words: seq<string>, pinyins: seq<string>, acc: seq<Piece>)
    requires |pinyins| <= |words|
    ensures Spells(words, pinyins, |pinyins|, acc)
  {
    assert Flatten(Words(acc)) + "" == Flatten(Words(acc));
    assert Flatten(PhonesOf(acc)) + "" == Flatten(PhonesOf(acc));
  }

  lemma {:induction false} SpellsSkip(words: seq<string>, pinyins: seq<string>, i: nat, acc: seq<Piece>)
    requires |pinyins| <= |words| && i < |pinyins| && pinyins[i] == " "
    requires Spells(words, pinyins, i + 1, acc)
    ensures Spells(words, pinyins, i, acc)
  {
    assert Loop(words, pinyins, i, acc) == Loop(words, pinyins, i + 1, acc);
    assert Spoken(words, pinyins, i) == "" + Spoken(words, pinyins, i + 1) == Spoken(words, pinyins, i + 1);
    assert Spoken(pinyins, pinyins, i) == "" + Spoken(pinyins, pinyins, i + 1) == Spoken(pinyins, pinyins, i + 1);
  }

  lemma {:induction false} SpellsJoin(words: seq<string>, pinyins: seq<string>, i: nat, acc: seq<Piece>)
    requires |pinyins| <= |words| && i < |pinyins| && pinyins[i] != " " && JoinsAt(words, pinyins, i)
    requires pinyins[i + 1] != " "
    requires |acc| > 0 ==> Spells(words, pinyins, i + 2, Joined(words, pinyins, i, acc))
    ensures Spells(words, pinyins, i, acc)
  {
    if |acc| > 0 {
      assert Loop(words, pinyins, i, acc) == Loop(words, pinyins, i + 2, Joined(words, pinyins, i, acc));
      JoinKeepsText(words, pinyins, i, acc);
    } else {
      assert Loop(words, pinyins, i, acc).None?;
    }
  }

  lemma {:induction false} SpellsKeep(words: seq<string>, pinyins: seq<string>, i: nat, acc: seq<Piece>)
    requires |pinyins| <= |words| && i < |pinyins| && pinyins[i] != " " && !JoinsAt(words, pinyins, i)
    requires Spells(words, pinyins, i + 1, acc + [Piece(words[i], pinyins[i])])
    ensures Spells(words, pinyins, i, acc)
  {
    assert Loop(words, pinyins, i, acc) == Loop(words, pinyins, i + 1, acc + [Piece(words[i], pinyins[i])]);
    FreshKeepsText(words, pinyins, i, acc);
  }

  /** The loop neither drops nor duplicates text: the tokens' words spell
      the non-space entries' words, and their phones the non-space pinyins. */
  lemma {:induction false} LoopKeepsText(words: seq<string>, pinyins: seq<string>, i: nat, acc: seq<Piece>)
    requires |pinyins| <= |words| && i <= |pinyins|
    ensures SpacesAreNotSuffixes(words, pinyins) ==> Spells(words, pinyins, i, acc)
    decreases |pinyins| - i
  {
    if i == |pinyins| {
      SpellsAtEnd(words, pinyins, acc);
    } else if SpacesAreNotSuffixes(words, pinyins) {
      match ActionAt(words, pinyins, i)
      case Skip =>
        LoopKeepsText(words, pinyins, i + 1, acc);
        SpellsSkip(words, pinyins, i, acc);
      case Join =>
        assert pinyins[i + 1] != " ";
        if |acc| > 0 {
          LoopKeepsText(words, pinyins, i + 2, Joined(words, pinyins, i, acc));
        }
        SpellsJoin(words, pinyins, i, acc);
      case Keep =>
        LoopKeepsText(words, pinyins, i + 1, acc + [Piece(words[i], pinyins[i])]);
        SpellsKeep(words, pinyins, i, acc);
    }
  }

  /** One token per non-space entry, in order: what `retokenize` builds when
      nothing is joined. */
  function Fresh(words: seq<string>, pinyins: seq<string>, i: nat): seq<Piece>
    requires |pinyins| <= |words| && i <= |pinyins|
    decreases |pinyins| - i
  {
    if i == |pinyins| then []
    else (if pinyins[i] == " " then [] else [Piece(words[i], pinyins[i])]) + Fresh(words, pinyins, i + 1)
  }

  /** No apostrophe entry from `i` on. */
  predicate NoApostrophes(pinyins: seq<string>, i: nat) {
    forall j :: i <= j < |pinyins| ==> pinyins[j] != "'"
  }

  /** Without apostrophe entries the loop only drops the spaces. */
  lemma {:induction false} LoopWithoutApostrophes(words: seq<string>, pinyins: seq<string>, i: nat, acc: seq<Piece>)
    requires |pinyins| <= |words| && i <= |pinyins| && NoApostrophes(pinyins, i)
    ensures Loop(words, pinyins, i, acc) == Some(acc + Fresh(words, pinyins, i))
    decreases |pinyins| - i
  {
    if i == |pinyins| {
      assert acc + [] == acc;
    } else {
      assert pinyins[i] != "'";
      assert NoApostrophes(pinyins, i + 1);
      match ActionAt(words, pinyins, i)
      case Skip =>
        assert Fresh(words, pinyins, i) == Fresh(words, pinyins, i + 1);
        LoopWithoutApostrophes(words, pinyins, i + 1, acc);
      case Keep =>
        var p := Piece(words[i], pinyins[i]);
        assert Fresh(words, pinyins, i) == [p] + Fresh(words, pinyins, i + 1);
        LoopWithoutApostrophes(words, pinyins, i + 1, acc + [p]);
        AppendAssoc(acc, [p], Fresh(words, pinyins, i + 1));
    }
  }

  /** `G2pMix.retokenize`.  It reads `words[i]` for every pinyin entry, so
      there must be at least as many words as pinyins. */
  function Retokenize(words: seq<string>, pinyins: seq<string>): (r: Option<seq<Piece>>)
    requires |pinyins| <= |words|
    ensures r.None? <==> LeadingJoin(words, pinyins, 0)
    ensures r.Some? && SpacesAreNotSuffixes(words, pinyins) ==>
              Flatten(Words(r.value)) == Spoken(words, pinyins, 0)
              && Flatten(PhonesOf(r.value)) == Spoken(pinyins, pinyins, 0)
  {
    LoopFailsIff(words, pinyins, 0, []);
    LoopKeepsText(words, pinyins, 0, []);
    Loop(words, pinyins, 0, [])
  }

  /** Without apostrophes there is nothing to join: `retokenize` makes one
      token per non-space entry, in order. */
  lemma {:induction false} RetokenizeWithoutApostrophes(words: seq<string>, pinyins: seq<string>)
    requires |pinyins| <= |words|
    requires NoApostrophes(pinyins, 0)
    ensures Retokenize(words, pinyins) == Some(Fresh(words, pinyins, 0))
  {
    LoopWithoutApostrophes(words, pinyins, 0, []);
    assert [] + Fresh(words, pinyins, 0) == Fresh(words, pinyins, 0);
  }

  /** "he", "'", "ve" becomes the single token "he've". */
  lemma {:induction false} ContractionJoins()
    ensures Retokenize(["he", "'", "ve"], ["he", "'", "ve"]) == Some([Piece("he've", "he've")])
  {
    var w := ["he", "'", "ve"];
    assert !JoinsAt(w, w, 0);
    assert JoinsAt(w, w, 1);
    assert "he" + "'" + "ve" == "he've";
    assert Joined(w, w, 1, [Piece("he", "he")]) == [Piece("he've", "he've")];
    assert Loop(w, w, 0, []) == Loop(w, w, 1, [Piece("he", "he")]);
    assert Loop(w, w, 1, [Piece("he", "he")]) == Loop(w, w, 3, [Piece("he've", "he've")]);
  }

  /** A text that opens with "'s" has no token to join to. */
  lemma {:induction false} LeadingContractionFails()
    ensures Retokenize([" ", "'", "s"], [" ", "'", "s"]).None?
  {
    var w := [" ", "'", "s"];
    assert JoinsAt(w, w, 1);
    assert LeadingJoin(w, w, 0);
  }

  /** What a token's phones end up as: its pinyin string, or the English
      converter's phone list. */
  datatype MixPhones = Romanised(text: string) | Arpabet(phones: seq<string>)

  /** A tagged token of `G2pMix.g2p`; `lang` is absent when no rule applies. */
  datatype MixToken = MixToken(word: string, phones: MixPhones, lang: Option<Lang>)

  predicate IsAsciiAlnum(c: char) {
    IsAsciiLetter(c) || '0' <= c <= '9'
  }

  /** `w.encode("UTF-8").isalnum()`: every byte of a non-ASCII character is
      at least 0x80, so this holds exactly for non-empty ASCII letters and
      digits. */
  predicate BytesAreAlnum(w: string) {
    |w| > 0 && AllSatisfy(w, IsAsciiAlnum)
  }

  /** The tagging loop of `G2pMix.g2p` on one token: a word whose pinyin
      differs from it is Chinese; otherwise digits are a number; otherwise a
      word of ASCII letters and digits, apostrophes aside, is English and
      gets the English converter's phones; anything else stays untagged. */
  function Tag(cc: CharClasses, g2pEn: string -> seq<string>, p: Piece): (t: MixToken)
    ensures t.word == p.word && t.lang != Some(SYM)
    ensures t.lang == Some(ZH) <==> p.word != p.phones
    ensures t.lang == Some(NUM) <==> p.word == p.phones && StrIsDigit(cc, p.word)
    ensures t.lang == Some(EN) <==>
              p.word == p.phones && !StrIsDigit(cc, p.word) && BytesAreAlnum(RemoveApostrophes(p.word))
    ensures t.phones == if t.lang == Some(EN) then Arpabet(g2pEn(p.phones)) else Romanised(p.phones)
  {
    if p.word != p.phones then MixToken(p.word, Romanised(p.phones), Some(ZH))
    else if StrIsDigit(cc, p.word) then MixToken(p.word, Romanised(p.phones), Some(NUM))
    else if BytesAreAlnum(RemoveApostrophes(p.word)) then MixToken(p.word, Arpabet(g2pEn(p.phones)), Some(EN))
    else MixToken(p.word, Romanised(p.phones), None)
  }

  /** For a token that is its own pinyin and not Chinese script, the tagger
      agrees with `Tokenizer.get_language` on numbers, and whatever it calls
      English is English there too; it only leaves untagged words that
      `get_language` calls English or a symbol. */
  lemma {:induction false} TagAgreesWithGetLanguage(cc: CharClasses, isHans: string -> bool, g2pEn: string -> seq<string>, w: string)
    requires WellFormed(cc) && !isHans(w)
    ensures Tag(cc, g2pEn, Piece(w, w)).lang == Some(NUM) <==> GetLanguage(cc, isHans, w) == NUM
    ensures Tag(cc, g2pEn, Piece(w, w)).lang == Some(EN) ==> GetLanguage(cc, isHans, w) == EN
    ensures Tag(cc, g2pEn, Piece(w, w)).lang == None ==> GetLanguage(cc, isHans, w) in {EN, SYM}
  {
    var v := RemoveApostrophes(w);
    if BytesAreAlnum(v) {
      forall k | 0 <= k < |v|
        ensures cc.isAlnum(v[k])
      {
        assert IsAsciiAlnum(v[k]);
        if !IsAsciiLetter(v[k]) {
          assert cc.isDecimal(v[k]);
        }
      }
    }
  }

  /** A letter outside ASCII is English to `get_language` (it is
      alphanumeric) but gets no tag here (its UTF-8 bytes are not). */
  lemma {:induction false} NonAsciiLetterIsUntagged(cc: CharClasses, isHans: string -> bool, g2pEn: string -> seq<string>)
    requires WellFormed(cc) && !isHans("é") && cc.isAlnum('é') && !cc.isDigit('é')
    ensures GetLanguage(cc, isHans, "é") == EN
    ensures Tag(cc, g2pEn, Piece("é", "é")).lang == None
  {
    assert RemoveApostrophes("é") == "é" by {
      RemoveApostrophesKeeps("é");
    }
    assert !IsAsciiAlnum("é"[0]);
  }

  /** `G2pMix.g2p` after the Chinese front end: `words` and `pinyins` are
      what `g2p_han.g2p` returns (not part of this model). */
  function G2p(cc: CharClasses, g2pEn: string -> seq<string>, words: seq<string>, pinyins: seq<string>): (r: Option<seq<MixToken>>)
    requires |pinyins| <= |words|
    ensures r.None? <==> LeadingJoin(words, pinyins, 0)
    ensures r.Some? ==> |r.value| == |Retokenize(words, pinyins).value|
    ensures r.Some? ==> forall k :: 0 <= k < |r.value| ==> r.value[k] == Tag(cc, g2pEn, Retokenize(words, pinyins).value[k])
    ensures r.Some? && SpacesAreNotSuffixes(words, pinyins) ==>
              Flatten(seq(|r.value|, k requires 0 <= k < |r.value| => r.value[k].word)) == Spoken(words, pinyins, 0)
  {
    match Retokenize(words, pinyins)
    case None => None
    case Some(pieces) =>
      var tokens := seq(|pieces|, k requires 0 <= k < |pieces| => Tag(cc, g2pEn, pieces[k]));
      assert seq(|tokens|, k requires 0 <= k < |tokens| => tokens[k].word) == Words(pieces);
      Some(tokens)
  }
}

=== FILE: g2p_pth.dfy ===
/** `G2pPth.g2p` of g2p_mix/g2p_pth.py: the words of `utils.posseg_cut`
    paired with their readings, taken in order from the flat list of
    syllables that the pinyin converter returns for the Chinese text. */
module G2pPth {
  import opened Common
  import opened Tokenizer
  import Utils

  /** What `g2p` yields for a word: the word itself for English, numbers
      and symbols, otherwise the syllables it consumed. */
  datatype Reading = Text(text: string) | Syllables(syllables: seq<string>)

  datatype Entry = Entry(word: string, pos: string, reading: Reading)

  /** The test the source uses to pass a word through: its tag is one the
      scanner gives to non-Chinese spans. */
  predicate TaggedPassThrough(w: Pair) {
    w.tag in {"eng", "m", "x"}
  }

  /** The corrected test: a word passes through when it holds no Chinese
      character, whatever its tag. */
  predicate NotChinese(w: Pair) {
    HanChars(w.text) == ""
  }

  /** How many converter entries the words consume: one per character of
      every word that does not pass through. */
  function Demand(skip: Pair -> bool, words: seq<Pair>): nat {
    if |words| == 0 then 0
    else (if skip(words[0]) then 0 else |words[0].text|) + Demand(skip, words[1..])
  }

  /** Every converter entry holds one reading. */
  predicate SingleReadings(pinyins: seq<seq<string>>) {
    forall k :: 0 <= k < |pinyins| ==> |pinyins[k]| == 1
  }

  /** The loop of `g2p`: a word that passes through yields its own text and
      consumes nothing; any other word yields `sum(pinyins[:len(word)], [])`
      and then `del pinyins[:len(word)]` drops what it used.  When the
      converter gave one reading per character and enough of them, every
      such word gets one syllable per character. */
  function ReadWords(skip: Pair -> bool, words: seq<Pair>, pinyins: seq<seq<string>>): (r: seq<Entry>)
    ensures |r| == |words|
    ensures forall k :: 0 <= k < |r| ==> r[k].word == words[k].text && r[k].pos == words[k].tag
    ensures forall k :: 0 <= k < |r| ==> (skip(words[k]) <==> r[k].reading == Text(words[k].text))
    ensures forall k :: 0 <= k < |r| && !skip(words[k]) ==> r[k].reading.Syllables?
    ensures SingleReadings(pinyins) && Demand(skip, words) <= |pinyins| ==>
              forall k :: 0 <= k < |r| && !skip(words[k]) ==> |r[k].reading.syllables| == |words[k].text|
  {
    if |words| == 0 then []
    else
      var w := words[0];
      var rest := words[1..];
      if skip(w) then
        var tail := ReadWords(skip, rest, pinyins);
        assert forall k :: 0 < k < |words| ==> words[k] == rest[k - 1];
        [Entry(w.text, w.tag, Text(w.text))] + tail
      else
        var n := Min(|w.text|, |pinyins|);
        var tail := ReadWords(skip, rest, pinyins[n..]);
        assert forall k :: 0 < k < |words| ==> words[k] == rest[k - 1];
        assert SingleReadings(pinyins) ==> SingleReadings(pinyins[n..]);
        SingleFlatten(pinyins[..n]);
        [Entry(w.text, w.tag, Syllables(Flatten(pinyins[..n])))] + tail
  }

  /** One reading per entry: flattening keeps the count. */
  lemma {:induction false} SingleFlatten(xs: seq<seq<string>>)
    ensures SingleReadings(xs) ==> |Flatten(xs)| == |xs|
  {
    if |xs| > 0 && SingleReadings(xs) {
      assert SingleReadings(xs[1..]);
      SingleFlatten(xs[1..]);
    }
  }

  /** The syllables handed out, in order. */
  function AllSyllables(entries: seq<Entry>): seq<string> {
    if |entries| == 0 then []
    else (if entries[0].reading.Syllables? then entries[0].reading.syllables else []) + AllSyllables(entries[1..])
  }

  /** With enough converter output, the words consume exactly its first
      `Demand` entries, in order, none skipped and none repeated. */
  lemma {:induction false} ReadWordsConsumesInOrder(skip: Pair -> bool, words: seq<Pair>, pinyins: seq<seq<string>>)
    requires Demand(skip, words) <= |pinyins|
    ensures AllSyllables(ReadWords(skip, words, pinyins)) == Flatten(pinyins[..Demand(skip, words)])
    decreases |words|, 1
  {
    if |words| == 0 {
      assert pinyins[..0] == [];
    } else if skip(words[0]) {
      var r := ReadWords(skip, words, pinyins);
      ReadWordsConsumesInOrder(skip, words[1..], pinyins);
      assert r[1..] == ReadWords(skip, words[1..], pinyins);
    } else {
      ConsumesFirstWord(skip, words, pinyins);
    }
  }

  /** The step of `ReadWordsConsumesInOrder` for a word that is read: it
      takes the first `len(word)` entries and the rest start after them. */
  lemma {:induction false} ConsumesFirstWord(skip: Pair -> bool, words: seq<Pair>, pinyins: seq<seq<string>>)
    requires Demand(skip, words) <= |pinyins| && |words| > 0 && !skip(words[0])
    ensures AllSyllables(ReadWords(skip, words, pinyins)) == Flatten(pinyins[..Demand(skip, words)])
    decreases |words|, 0
  {
    var r := ReadWords(skip, words, pinyins);
    var rest := words[1..];
    var n := |words[0].text|;
    var d := Demand(skip, rest);
    ReadWordsConsumesInOrder(skip, rest, pinyins[n..]);
    assert r[1..] == ReadWords(skip, rest, pinyins[n..]);
    assert pinyins[..n + d] == pinyins[..n] + pinyins[n..][..d];
    FlattenAppend(pinyins[..n], pinyins[n..][..d]);
  }

  lemma {:induction false} DemandAppend(skip: Pair -> bool, a: seq<Pair>, b: seq<Pair>)
    ensures Demand(skip, a + b) == Demand(skip, a) + Demand(skip, b)
    decreases |a|
  {
    if |a| == 0 {
      assert a + b == b;
    } else {
      assert (a + b)[1..] == a[1..] + b;
      DemandAppend(skip, a[1..], b);
    }
  }

  /** Pieces of an all-Chinese string are all Chinese. */
  lemma {:induction false} FlattenAllHan(xs: seq<string>, k: nat)
    requires AllSatisfy(Flatten(xs), IsHan) && k < |xs|
    ensures AllSatisfy(xs[k], IsHan)
  {
    FlattenAppend(xs[..k], xs[k..]);
    assert xs == xs[..k] + xs[k..];
    FlattenAppend([xs[k]], xs[k + 1..]);
    assert xs[k..] == [xs[k]] + xs[k + 1..];
    FlattenSingleton(xs[k]);
    var pre := Flatten(xs[..k]);
    forall i | 0 <= i < |xs[k]|
      ensures IsHan(xs[k][i])
    {
      assert Flatten(xs)[|pre| + i] == xs[k][i];
    }
  }

  /** Words cut from Chinese text ask for one entry per character. */
  lemma {:induction false} DemandOfChineseWords(ws: seq<Pair>)
    requires AllSatisfy(Flatten(Texts(ws)), IsHan)
    ensures Demand(NotChinese, ws) == |Flatten(Texts(ws))|
  {
    if |ws| > 0 {
      var head := ws[0].text;
      assert Texts(ws) == [head] + Texts(ws[1..]);
      FlattenAppend([head], Texts(ws[1..]));
      FlattenSingleton(head);
      FlattenAllHan(Texts(ws), 0);
      HanCharsKeeps(head);
      var tail := Flatten(Texts(ws[1..]));
      forall i | 0 <= i < |tail|
        ensures IsHan(tail[i])
      {
        assert Flatten(Texts(ws))[|head| + i] == tail[i];
      }
      DemandOfChineseWords(ws[1..]);
    }
  }

  /** The pairs of a scan: Chinese spans all Chinese, the others with none. */
  predicate ScannedPairs(pairs: seq<Pair>) {
    forall k :: 0 <= k < |pairs| ==>
      (pairs[k].tag == "zh" ==> AllSatisfy(pairs[k].text, IsHan)) && (pairs[k].tag != "zh" ==> HanChars(pairs[k].text) == "")
  }

  lemma {:induction false} SegmentIsScanned(cc: CharClasses, text: string)
    requires WellFormed(cc)
    ensures ScannedPairs(Utils.Segment(cc, text))
  {
    var spans := Scan(cc, text, 0);
    var pairs := Utils.Segment(cc, text);
    forall k | 0 <= k < |pairs|
      ensures (pairs[k].tag == "zh" ==> AllSatisfy(pairs[k].text, IsHan)) && (pairs[k].tag != "zh" ==> HanChars(pairs[k].text) == "")
    {
      SpanHanChars(cc, text, spans[k]);
    }
  }

  /** With the corrected test, the words of `posseg_cut` ask for exactly one
      converter entry per Chinese character, whatever tags the segmenter
      gives. */
  lemma {:induction false} DemandIsChineseLength(sg: Segmenters, pairs: seq<Pair>)
    requires ScannedPairs(pairs)
    requires forall w :: Flatten(sg.seg(w)) == w
    requires forall t :: Flatten(Texts(sg.cut(t))) == t
    ensures Demand(NotChinese, CutWords(sg, pairs, false, "universal", 0)) == |ChineseText(pairs)|
  {
    if |pairs| > 0 {
      var p := pairs[0];
      var head := SpanWords(sg, p, false, "universal", 0);
      assert ScannedPairs(pairs[1..]);
      DemandIsChineseLength(sg, pairs[1..]);
      DemandAppend(NotChinese, head, CutWords(sg, pairs[1..], false, "universal", 0));
      if p.tag == "zh" {
        ResplitAllKeepsText(sg, sg.cut(p.text), 0);
        DemandOfChineseWords(head);
      }
    }
  }

  /** `G2pPth.g2p` with the corrected pass-through test: the Cantonese
      switch is off and the tag set is the default, as in the source. */
  function G2p(cc: CharClasses, sg: Segmenters, convert: string -> seq<seq<string>>, text: string): (r: seq<Entry>)
    requires WellFormed(cc)
    ensures |r| == |Utils.PossegCut(cc, sg, text, false, "universal").1|
  {
    var cut := Utils.PossegCut(cc, sg, text, false, "universal");
    ReadWords(NotChinese, cut.1, convert(cut.0))
  }

  /** When the segmenters only cut and the converter reads every Chinese
      character, the readings handed out are exactly the converter's, in
      order, and each Chinese word gets one syllable per character. */
  lemma {:induction false} G2pReadsEveryCharacter(cc: CharClasses, sg: Segmenters, convert: string -> seq<seq<string>>, text: string)
    requires WellFormed(cc) && KeepsText(sg, "universal")
    requires |convert(HanChars(text))| == |HanChars(text)|
    ensures AllSyllables(G2p(cc, sg, convert, text)) == Flatten(convert(HanChars(text)))
    ensures SingleReadings(convert(HanChars(text))) ==>
              var words := Utils.PossegCut(cc, sg, text, false, "universal").1;
              forall k :: 0 <= k < |words| && !NotChinese(words[k]) ==>
                |G2p(cc, sg, convert, text)[k].reading.syllables| == |words[k].text|
  {
    var pairs := Utils.Segment(cc, text);
    var cut := Utils.PossegCut(cc, sg, text, false, "universal");
    SegmentIsScanned(cc, text);
    ScanChineseText(cc, text, 0, "eng");
    assert text[0..] == text;
    DemandIsChineseLength(sg, pairs);
    var pinyins := convert(cut.0);
    assert pinyins[..|pinyins|] == pinyins;
    ReadWordsConsumesInOrder(NotChinese, cut.1, pinyins);
  }

  /** `G2pPth.g2p` as written: the pass-through test looks at the tag. */
  function G2pAsWritten(cc: CharClasses, sg: Segmenters, convert: string -> seq<seq<string>>, text: string): (r: seq<Entry>)
    requires WellFormed(cc)
    ensures |r| == |Utils.PossegCut(cc, sg, text, false, "universal").1|
  {
    var cut := Utils.PossegCut(cc, sg, text, false, "universal");
    ReadWords(TaggedPassThrough, cut.1, convert(cut.0))
  }

  /** jieba tags Chinese numerals "m", the scanner's tag for digits.  As
      written, such a word keeps its text as its reading and consumes no
      syllables, so the next word is read with the numeral's syllables. */
  lemma {:induction false} NumeralShiftsReadings()
    ensures var words := [Pair("三个", "m"), Pair("苹果", "n")];
            var pinyins := [["san1"], ["ge4"], ["ping2"], ["guo3"]];
            && ReadWords(TaggedPassThrough, words, pinyins)
               == [Entry("三个", "m", Text("三个")), Entry("苹果", "n", Syllables(["san1", "ge4"]))]
            && ReadWords(NotChinese, words, pinyins)
               == [Entry("三个", "m", Syllables(["san1", "ge4"])), Entry("苹果", "n", Syllables(["ping2", "guo3"]))]
  {
    NumeralTaggedM();
    NumeralRead();
  }

  /** Converter output for two one-syllable characters, flattened. */
  lemma {:induction false} FlattenTwo(a: string, b: string)
    ensures Flatten([[a], [b]]) == [a, b]
  {
    FlattenAppend([[a]], [[b]]);
    FlattenSingleton([a]);
    FlattenSingleton([b]);
  }

  /** The source's test on 三个/m and 苹果/n. */
  lemma {:induction false} NumeralTaggedM()
    ensures ReadWords(TaggedPassThrough, [Pair("三个", "m"), Pair("苹果", "n")], [["san1"], ["ge4"], ["ping2"], ["guo3"]])
            == [Entry("三个", "m", Text("三个")), Entry("苹果", "n", Syllables(["san1", "ge4"]))]
  {
    var words := [Pair("三个", "m"), Pair("苹果", "n")];
    var pinyins := [["san1"], ["ge4"], ["ping2"], ["guo3"]];
    assert words[1..] == [Pair("苹果", "n")];
    assert words[1..][1..] == [];
    assert pinyins[..2] == [["san1"], ["ge4"]];
    FlattenTwo("san1", "ge4");
  }

  /** The corrected test on 三个/m and 苹果/n. */
  lemma {:induction false} NumeralRead()
    ensures ReadWords(NotChinese, [Pair("三个", "m"), Pair("苹果", "n")], [["san1"], ["ge4"], ["ping2"], ["guo3"]])
            == [Entry("三个", "m", Syllables(["san1", "ge4"])), Entry("苹果", "n", Syllables(["ping2", "guo3"]))]
  {
    var words := [Pair("三个", "m"), Pair("苹果", "n")];
    var pinyins := [["san1"], ["ge4"], ["ping2"], ["guo3"]];
    HanCharsKeeps("三个");
    HanCharsKeeps("苹果");
    assert words[1..] == [Pair("苹果", "n")];
    assert words[1..][1..] == [];
    assert pinyins[..2] == [["san1"], ["ge4"]];
    assert pinyins[2..] == [["ping2"], ["guo3"]];
    assert pinyins[2..][..2] == [["ping2"], ["guo3"]];
    FlattenTwo("san1", "ge4");
    FlattenTwo("ping2", "guo3");
  }
}

=== FILE: legacy.dfy ===
/** `g2p` of the top-level g2p_mix.py, the earlier front end: one pinyin
    entry per character, runs of single letters and apostrophes grouped into
    one item, and the English converter applied to every item that is not a
    lone Chinese character. */
module Legacy {
  import opened Common
  import Tokenizer

  /** One entry of `pinyins`: the character itself when pypinyin's initial
      and final agree (anything that is not Chinese), otherwise the list
      `[initial, final]`. */
  datatype Entry = Plain(s: string) | Pair(initial: string, final: string)

  /** One `{"token": ..., "phones": ...}` dictionary. */
  datatype Item = Item(token: string, phones: Entry)

  /** Lines 15-19: equal initial and final become a plain entry. */
  function Combine(initial: string, final: string): (e: Entry)
    ensures e.Plain? <==> initial == final
    ensures e.Plain? ==> e.s == initial
    ensures e.Pair? ==> e == Pair(initial, final)
  {
    if initial == final then Plain(initial) else Pair(initial, final)
  }

  /** `zip(initials, finals)` stops at the shorter list. */
  function Pinyins(initials: seq<string>, finals: seq<string>): (r: seq<Entry>)
    ensures |r| == Min(|initials|, |finals|)
    ensures forall k :: 0 <= k < |r| ==> r[k] == Combine(initials[k], finals[k])
  {
    seq(Min(|initials|, |finals|), k requires 0 <= k < Min(|initials|, |finals|) => Combine(initials[k], finals[k]))
  }

  /** `len(pinyin) == 1`: a one-character string (a list has length 2). */
  predicate Single(e: Entry) {
    e.Plain? && |e.s| == 1
  }

  /** The text an entry stands for in the phones: the string, or the
      initial followed by the final. */
  function Render(e: Entry): string {
    match e
    case Plain(s) => s
    case Pair(i, f) => i + f
  }

  /** The last item grown by one character and its pinyin string. */
  function Grow(items: seq<Item>, c: char, s: string): (r: seq<Item>)
    requires |items| > 0 && Last(items).phones.Plain?
  {
    DropLast(items) + [Item(Last(items).token + [c], Plain(Last(items).phones.s + s))]
  }

  /** A one-character entry that keeps a run going: a letter or an
      apostrophe. */
  predicate Continues(isAlpha: char -> bool, e: Entry)
    requires Single(e)
  {
    isAlpha(e.s[0]) || e == Plain("'")
  }

  /** What the inner loop does after entry `i`: stop before an entry that is
      not one character long (or at the end), stop on a space, stop after
      giving any other non-letter its own item, or extend the run. */
  datatype Next = Stop | Space | Break | Extend

  function NextAt(pinyins: seq<Entry>, isAlpha: char -> bool, i: nat): (n: Next)
    requires i < |pinyins|
    ensures n == Stop <==> !(i + 1 < |pinyins| && Single(pinyins[i + 1]))
    ensures n == Space <==> i + 1 < |pinyins| && pinyins[i + 1] == Plain(" ")
    ensures n == Break || n == Extend ==> i + 1 < |pinyins| && Single(pinyins[i + 1]) && pinyins[i + 1] != Plain(" ")
    ensures n == Extend <==> i + 1 < |pinyins| && Single(pinyins[i + 1]) && pinyins[i + 1] != Plain(" ")
                             && Continues(isAlpha, pinyins[i + 1])
  {
    if !(i + 1 < |pinyins| && Single(pinyins[i + 1])) then Stop
    else if pinyins[i + 1] == Plain(" ") then Space
    else if Continues(isAlpha, pinyins[i + 1]) then Extend
    else Break
  }

  /** The inner `while` of lines 29-39, entered at entry `i`: absorb the
      following one-character entries into the last item until a space
      (ends the run, no item) or a character that is neither a letter nor an
      apostrophe (ends the run as an item of its own).  Returns the index the
      loop stopped at and the items. */
  function Absorb(text: string, pinyins: seq<Entry>, isAlpha: char -> bool, i: nat, items: seq<Item>): (r: (nat, seq<Item>))
    requires |pinyins| <= |text| && i < |pinyins| && |items| > 0 && Last(items).phones.Plain?
    ensures i <= r.0 < |pinyins|
    decreases |pinyins| - i, 1
  {
    AbsorbAt(text, pinyins, isAlpha, i, items, NextAt(pinyins, isAlpha, i))
  }

  /** The inner loop's step at entry `i`, once `NextAt` has decided it. */
  function AbsorbAt(text: string, pinyins: seq<Entry>, isAlpha: char -> bool, i: nat, items: seq<Item>, n: Next): (r: (nat, seq<Item>))
    requires |pinyins| <= |text| && i < |pinyins| && |items| > 0 && Last(items).phones.Plain?
    requires n == NextAt(pinyins, isAlpha, i)
    ensures i <= r.0 < |pinyins|
    decreases |pinyins| - i, 0
  {
    match n
    case Stop => (i, items)
    case Space => (i + 1, items)
    case Break => (i + 1, items + [Item([text[i + 1]], pinyins[i + 1])])
    case Extend => Absorb(text, pinyins, isAlpha, i + 1, Grow(items, text[i + 1], pinyins[i + 1].s))
  }

  /** The inner loop, returning `out`, changes only the last item and
      appends after it: the items before the last one stay in front. */
  lemma {:induction false} AbsorbKeepsPrefix(text: string, pinyins: seq<Entry>, isAlpha: char -> bool, i: nat, items: seq<Item>, out: seq<Item>)
    requires |pinyins| <= |text| && i < |pinyins| && |items| > 0 && Last(items).phones.Plain?
    requires out == Absorb(text, pinyins, isAlpha, i, items).1
    ensures |out| >= |items| && out[..|items| - 1] == DropLast(items)
    decreases |pinyins| - i
  {
    match NextAt(pinyins, isAlpha, i)
    case Stop =>
    case Space =>
    case Break =>
    case Extend =>
      var grown := Grow(items, text[i + 1], pinyins[i + 1].s);
      assert DropLast(grown) == DropLast(items);
      AbsorbKeepsPrefix(text, pinyins, isAlpha, i + 1, grown, out);
  }

  /** One pass of the outer `while` of lines 24-40 at entry `i`: a
      non-space entry starts an item, and a one-letter entry then runs the
      inner loop.  Returns the next entry to look at and the items. */
  function OuterStep(text: string, pinyins: seq<Entry>, isAlpha: char -> bool, i: nat, items: seq<Item>): (r: (nat, seq<Item>))
    requires |pinyins| <= |text| && i < |pinyins| && !isAlpha(' ')
    ensures i < r.0 <= |pinyins|
    ensures |r.1| >= |items| && r.1[..|items|] == items
  {
    var p := pinyins[i];
    var started := if p == Plain(" ") then items else items + [Item([text[i]], p)];
    if Single(p) && isAlpha(p.s[0]) then
      var next := Absorb(text, pinyins, isAlpha, i, started);
      AbsorbKeepsPrefix(text, pinyins, isAlpha, i, started, next.1);
      (next.0 + 1, next.1)
    else (i + 1, started)
  }

  /** The outer `while` from entry `i`, until the entries run out. */
  function Group(text: string, pinyins: seq<Entry>, isAlpha: char -> bool, i: nat, items: seq<Item>): (r: seq<Item>)
    requires |pinyins| <= |text| && i <= |pinyins| && !isAlpha(' ')
    ensures |r| >= |items| && r[..|items|] == items
    decreases |pinyins| - i
  {
    if i == |pinyins| then items
    else
      var next := OuterStep(text, pinyins, isAlpha, i, items);
      Group(text, pinyins, isAlpha, next.0, next.1)
  }

  /** The items' tokens, concatenated. */
  function TokenText(items: seq<Item>): string {
    if |items| == 0 then "" else TokenText(DropLast(items)) + Last(items).token
  }

  /** The items' phones, rendered and concatenated. */
  function PhoneText(items: seq<Item>): string {
    if |items| == 0 then "" else PhoneText(DropLast(items)) + Render(Last(items).phones)
  }

  /** The characters of the non-space entries from `i` on. */
  function Kept(text: string, pinyins: seq<Entry>, i: nat): string
    requires |pinyins| <= |text| && i <= |pinyins|
    decreases |pinyins| - i
  {
    if i == |pinyins| then ""
    else (if pinyins[i] == Plain(" ") then "" else [text[i]]) + Kept(text, pinyins, i + 1)
  }

  /** The rendered non-space entries from `i` on. */
  function Rendered(pinyins: seq<Entry>, i: nat): string
    requires i <= |pinyins|
    decreases |pinyins| - i
  {
    if i == |pinyins| then ""
    else (if pinyins[i] == Plain(" ") then "" else Render(pinyins[i])) + Rendered(pinyins, i + 1)
  }

  /** How many entries from `i` on are `[initial, final]` lists. */
  function PairsFrom(pinyins: seq<Entry>, i: nat): nat
    requires i <= |pinyins|
    decreases |pinyins| - i
  {
    if i == |pinyins| then 0 else (if pinyins[i].Pair? then 1 else 0) + PairsFrom(pinyins, i + 1)
  }

  /** How many items carry an `[initial, final]` list as phones. */
  function PairItems(items: seq<Item>): nat {
    if |items| == 0 then 0 else PairItems(DropLast(items)) + (if Last(items).phones.Pair? then 1 else 0)
  }

  /** Every item has a non-empty token, and one whose phones are a list has
      a one-character token. */
  predicate WellShaped(items: seq<Item>) {
    forall k :: 0 <= k < |items| ==> |items[k].token| > 0 && (items[k].phones.Pair? ==> |items[k].token| == 1)
  }

  /** The tokens, the phones and the number of `[initial, final]` pairs
      that some items and the entries still to come make up together. */
  datatype Ledger = Ledger(tokens: string, phones: string, pairs: nat)

  function LedgerOf(text: string, pinyins: seq<Entry>, i: nat, items: seq<Item>): Ledger
    requires |pinyins| <= |text| && i <= |pinyins|
  {
    Ledger(TokenText(items) + Kept(text, pinyins, i), PhoneText(items) + Rendered(pinyins, i), PairItems(items) + PairsFrom(pinyins, i))
  }

  lemma {:induction false} AddItem(items: seq<Item>, it: Item)
    ensures TokenText(items + [it]) == TokenText(items) + it.token
    ensures PhoneText(items + [it]) == PhoneText(items) + Render(it.phones)
    ensures PairItems(items + [it]) == PairItems(items) + (if it.phones.Pair? then 1 else 0)
  {
    DropLastSnoc(items, it);
  }

  lemma {:induction false} GrowText(items: seq<Item>, c: char, s: string)
    requires |items| > 0 && Last(items).phones.Plain?
    ensures TokenText(Grow(items, c, s)) == TokenText(items) + [c]
    ensures PhoneText(Grow(items, c, s)) == PhoneText(items) + s
  {
    var g := Grow(items, c, s);
    DropLastSnoc(DropLast(items), Last(g));
    AppendAssoc(TokenText(DropLast(items)), Last(items).token, [c]);
    AppendAssoc(PhoneText(DropLast(items)), Last(items).phones.s, s);
  }

  lemma {:induction false} GrowShape(items: seq<Item>, c: char, s: string)
    requires |items| > 0 && Last(items).phones.Plain?
    ensures PairItems(Grow(items, c, s)) == PairItems(items)
    ensures |Grow(items, c, s)| == |items| && Last(Grow(items, c, s)).phones.Plain?
    ensures WellShaped(items) ==> WellShaped(Grow(items, c, s))
  {
    var g := Grow(items, c, s);
    DropLastSnoc(DropLast(items), Last(g));
    DropLastSplit(items);
    assert forall k :: 0 <= k < |items| - 1 ==> g[k] == items[k];
  }

  lemma {:induction false} KeptStep(text: string, pinyins: seq<Entry>, i: nat)
    requires |pinyins| <= |text| && i < |pinyins| && pinyins[i] != Plain(" ")
    ensures Kept(text, pinyins, i) == [text[i]] + Kept(text, pinyins, i + 1)
    ensures Rendered(pinyins, i) == Render(pinyins[i]) + Rendered(pinyins, i + 1)
  {
  }

  /** Passing over a space changes nothing. */
  lemma {:induction false} LedgerSkip(text: string, pinyins: seq<Entry>, i: nat, items: seq<Item>)
    requires |pinyins| <= |text| && i < |pinyins| && pinyins[i] == Plain(" ")
    ensures LedgerOf(text, pinyins, i + 1, items) == LedgerOf(text, pinyins, i, items)
  {
    assert Kept(text, pinyins, i) == "" + Kept(text, pinyins, i + 1);
    assert Rendered(pinyins, i) == "" + Rendered(pinyins, i + 1);
  }

  /** Moving a non-space entry into a new item of its own. */
  lemma {:induction false} LedgerAdd(text: string, pinyins: seq<Entry>, i: nat, items: seq<Item>)
    requires |pinyins| <= |text| && i < |pinyins| && pinyins[i] != Plain(" ")
    ensures LedgerOf(text, pinyins, i + 1, items + [Item([text[i]], pinyins[i])]) == LedgerOf(text, pinyins, i, items)
    ensures WellShaped(items) ==> WellShaped(items + [Item([text[i]], pinyins[i])])
  {
    var it := Item([text[i]], pinyins[i]);
    AddItem(items, it);
    KeptStep(text, pinyins, i);
    AppendAssoc(TokenText(items), [text[i]], Kept(text, pinyins, i + 1));
    AppendAssoc(PhoneText(items), Render(pinyins[i]), Rendered(pinyins, i + 1));
    assert forall k :: 0 <= k < |items| ==> (items + [it])[k] == items[k];
  }

  /** Moving a one-character entry into the last item. */
  lemma {:induction false} LedgerGrow(text: string, pinyins: seq<Entry>, i: nat, items: seq<Item>)
    requires |pinyins| <= |text| && i < |pinyins| && Single(pinyins[i]) && pinyins[i] != Plain(" ")
    requires |items| > 0 && Last(items).phones.Plain?
    ensures |Grow(items, text[i], pinyins[i].s)| > 0 && Last(Grow(items, text[i], pinyins[i].s)).phones.Plain?
    ensures LedgerOf(text, pinyins, i + 1, Grow(items, text[i], pinyins[i].s)) == LedgerOf(text, pinyins, i, items)
    ensures WellShaped(items) ==> WellShaped(Grow(items, text[i], pinyins[i].s))
  {
    GrowText(items, text[i], pinyins[i].s);
    GrowShape(items, text[i], pinyins[i].s);
    KeptStep(text, pinyins, i);
    AppendAssoc(TokenText(items), [text[i]], Kept(text, pinyins, i + 1));
    AppendAssoc(PhoneText(items), pinyins[i].s, Rendered(pinyins, i + 1));
  }

  /** One step of the inner loop, case by case. */
  lemma {:induction false} AbsorbStep(text: string, pinyins: seq<Entry>, isAlpha: char -> bool, i: nat, items: seq<Item>)
    requires |pinyins| <= |text| && i < |pinyins| && |items| > 0 && Last(items).phones.Plain?
    ensures NextAt(pinyins, isAlpha, i) == Stop ==> Absorb(text, pinyins, isAlpha, i, items) == (i, items)
    ensures NextAt(pinyins, isAlpha, i) == Space ==> Absorb(text, pinyins, isAlpha, i, items) == (i + 1, items)
    ensures NextAt(pinyins, isAlpha, i) == Break ==>
              Absorb(text, pinyins, isAlpha, i, items) == (i + 1, items + [Item([text[i + 1]], pinyins[i + 1])])
    ensures NextAt(pinyins, isAlpha, i) == Extend ==>
              Absorb(text, pinyins, isAlpha, i, items) == Absorb(text, pinyins, isAlpha, i + 1, Grow(items, text[i + 1], pinyins[i + 1].s))
  {
  }

  /** The inner loop, returning `(j, out)`, moves the entries it passes over
      into the items: the ledger after entry `j` is the ledger after entry
      `i`. */
  lemma {:induction false} AbsorbKeepsLedger(text: string, pinyins: seq<Entry>, isAlpha: char -> bool, i: nat, items: seq<Item>, j: nat, out: seq<Item>)
    requires |pinyins| <= |text| && i < |pinyins| && |items| > 0 && Last(items).phones.Plain?
    requires (j, out) == Absorb(text, pinyins, isAlpha, i, items)
    ensures j < |pinyins|
    ensures LedgerOf(text, pinyins, j + 1, out) == LedgerOf(text, pinyins, i + 1, items)
    ensures WellShaped(items) ==> WellShaped(out)
    decreases |pinyins| - i, 1
  {
    if NextAt(pinyins, isAlpha, i) == Extend {
      AbsorbGoesOn(text, pinyins, isAlpha, i, items, j, out);
    } else {
      AbsorbEnds(text, pinyins, isAlpha, i, items, j, out);
    }
  }

  /** A step that extends the run, followed by the rest of the loop. */
  lemma {:induction false} AbsorbGoesOn(text: string, pinyins: seq<Entry>, isAlpha: char -> bool, i: nat, items: seq<Item>, j: nat, out: seq<Item>)
    requires |pinyins| <= |text| && i < |pinyins| && |items| > 0 && Last(items).phones.Plain?
    requires (j, out) == Absorb(text, pinyins, isAlpha, i, items) && NextAt(pinyins, isAlpha, i) == Extend
    ensures j < |pinyins|
    ensures LedgerOf(text, pinyins, j + 1, out) == LedgerOf(text, pinyins, i + 1, items)
    ensures WellShaped(items) ==> WellShaped(out)
    decreases |pinyins| - i, 0
  {
    var grown := Grow(items, text[i + 1], pinyins[i + 1].s);
    AbsorbExtend(text, pinyins, isAlpha, i, items, grown);
    assert (j, out) == Absorb(text, pinyins, isAlpha, i + 1, grown);
    AbsorbKeepsLedger(text, pinyins, isAlpha, i + 1, grown, j, out);
  }

  /** The inner loop's last step, which stops it. */
  lemma {:induction false} AbsorbEnds(text: string, pinyins: seq<Entry>, isAlpha: char -> bool, i: nat, items: seq<Item>, j: nat, out: seq<Item>)
    requires |pinyins| <= |text| && i < |pinyins| && |items| > 0 && Last(items).phones.Plain?
    requires (j, out) == Absorb(text, pinyins, isAlpha, i, items) && NextAt(pinyins, isAlpha, i) != Extend
    ensures j < |pinyins|
    ensures LedgerOf(text, pinyins, j + 1, out) == LedgerOf(text, pinyins, i + 1, items)
    ensures WellShaped(items) ==> WellShaped(out)
  {
    var n := NextAt(pinyins, isAlpha, i);
    if n == Stop {
      AbsorbStop(text, pinyins, isAlpha, i, items, j, out);
    } else if n == Space {
      AbsorbSpace(text, pinyins, isAlpha, i, items, j, out);
    } else {
      AbsorbBreak(text, pinyins, isAlpha, i, items, j, out);
    }
  }

  /** A letter or apostrophe joins the last item and the loop goes on. */
  lemma {:induction false} AbsorbExtend(text: string, pinyins: seq<Entry>, isAlpha: char -> bool, i: nat, items: seq<Item>, grown: seq<Item>)
    requires |pinyins| <= |text| && i < |pinyins| && |items| > 0 && Last(items).phones.Plain?
    requires NextAt(pinyins, isAlpha, i) == Extend && grown == Grow(items, text[i + 1], pinyins[i + 1].s)
    ensures |grown| > 0 && Last(grown).phones.Plain?
    ensures Absorb(text, pinyins, isAlpha, i, items) == Absorb(text, pinyins, isAlpha, i + 1, grown)
    ensures LedgerOf(text, pinyins, i + 2, grown) == LedgerOf(text, pinyins, i + 1, items)
    ensures WellShaped(items) ==> WellShaped(grown)
  {
    LedgerGrow(text, pinyins, i + 1, items);
  }

  /** The next entry is not one character long, or there is none. */
  lemma {:induction false} AbsorbStop(text: string, pinyins: seq<Entry>, isAlpha: char -> bool, i: nat, items: seq<Item>, j: nat, out: seq<Item>)
    requires |pinyins| <= |text| && i < |pinyins| && |items| > 0 && Last(items).phones.Plain?
    requires (j, out) == Absorb(text, pinyins, isAlpha, i, items) && NextAt(pinyins, isAlpha, i) == Stop
    ensures j < |pinyins|
    ensures LedgerOf(text, pinyins, j + 1, out) == LedgerOf(text, pinyins, i + 1, items)
    ensures WellShaped(items) ==> WellShaped(out)
  {
    AbsorbStep(text, pinyins, isAlpha, i, items);
    assert j == i && out == items;
  }

  /** A space ends the run and makes no item. */
  lemma {:induction false} AbsorbSpace(text: string, pinyins: seq<Entry>, isAlpha: char -> bool, i: nat, items: seq<Item>, j: nat, out: seq<Item>)
    requires |pinyins| <= |text| && i < |pinyins| && |items| > 0 && Last(items).phones.Plain?
    requires (j, out) == Absorb(text, pinyins, isAlpha, i, items) && NextAt(pinyins, isAlpha, i) == Space
    ensures j < |pinyins|
    ensures LedgerOf(text, pinyins, j + 1, out) == LedgerOf(text, pinyins, i + 1, items)
    ensures WellShaped(items) ==> WellShaped(out)
  {
    AbsorbStep(text, pinyins, isAlpha, i, items);
    assert j == i + 1 && out == items;
    LedgerSkip(text, pinyins, i + 1, items);
  }

  /** Any other character ends the run as an item of its own. */
  lemma {:induction false} AbsorbBreak(text: string, pinyins: seq<Entry>, isAlpha: char -> bool, i: nat, items: seq<Item>, j: nat, out: seq<Item>)
    requires |pinyins| <= |text| && i < |pinyins| && |items| > 0 && Last(items).phones.Plain?
    requires (j, out) == Absorb(text, pinyins, isAlpha, i, items) && NextAt(pinyins, isAlpha, i) == Break
    ensures j < |pinyins|
    ensures LedgerOf(text, pinyins, j + 1, out) == LedgerOf(text, pinyins, i + 1, items)
    ensures WellShaped(items) ==> WellShaped(out)
  {
    AbsorbStep(text, pinyins, isAlpha, i, items);
    assert j == i + 1 && out == items + [Item([text[i + 1]], pinyins[i + 1])];
    LedgerAdd(text, pinyins, i + 1, items);
  }

  /** One pass of the outer loop, returning `(k, m)`, keeps the ledger. */
  lemma {:induction false} OuterStepKeepsLedger(text: string, pinyins: seq<Entry>, isAlpha: char -> bool, i: nat, items: seq<Item>, k: nat, m: seq<Item>)
    requires |pinyins| <= |text| && i < |pinyins| && !isAlpha(' ')
    requires (k, m) == OuterStep(text, pinyins, isAlpha, i, items)
    ensures k <= |pinyins| && LedgerOf(text, pinyins, k, m) == LedgerOf(text, pinyins, i, items)
    ensures WellShaped(items) ==> WellShaped(m)
  {
    var p := pinyins[i];
    if p == Plain(" ") {
      OuterSkip(text, pinyins, isAlpha, i, items, k, m);
    } else if Single(p) && isAlpha(p.s[0]) {
      OuterRun(text, pinyins, isAlpha, i, items, k, m);
    } else {
      OuterLone(text, pinyins, isAlpha, i, items, k, m);
    }
  }

  /** A space entry: no item. */
  lemma {:induction false} OuterSkip(text: string, pinyins: seq<Entry>, isAlpha: char -> bool, i: nat, items: seq<Item>, k: nat, m: seq<Item>)
    requires |pinyins| <= |text| && i < |pinyins| && !isAlpha(' ') && pinyins[i] == Plain(" ")
    requires (k, m) == OuterStep(text, pinyins, isAlpha, i, items)
    ensures k <= |pinyins| && LedgerOf(text, pinyins, k, m) == LedgerOf(text, pinyins, i, items)
    ensures WellShaped(items) ==> WellShaped(m)
  {
    assert k == i + 1 && m == items;
    LedgerSkip(text, pinyins, i, items);
  }

  /** An entry that starts no run: an item of its own. */
  lemma {:induction false} OuterLone(text: string, pinyins: seq<Entry>, isAlpha: char -> bool, i: nat, items: seq<Item>, k: nat, m: seq<Item>)
    requires |pinyins| <= |text| && i < |pinyins| && !isAlpha(' ') && pinyins[i] != Plain(" ")
    requires !(Single(pinyins[i]) && isAlpha(pinyins[i].s[0]))
    requires (k, m) == OuterStep(text, pinyins, isAlpha, i, items)
    ensures k <= |pinyins| && LedgerOf(text, pinyins, k, m) == LedgerOf(text, pinyins, i, items)
    ensures WellShaped(items) ==> WellShaped(m)
  {
    assert k == i + 1 && m == items + [Item([text[i]], pinyins[i])];
    LedgerAdd(text, pinyins, i, items);
  }

  /** A one-letter entry: an item, then the inner loop. */
  lemma {:induction false} OuterRun(text: string, pinyins: seq<Entry>, isAlpha: char -> bool, i: nat, items: seq<Item>, k: nat, m: seq<Item>)
    requires |pinyins| <= |text| && i < |pinyins| && !isAlpha(' ') && Single(pinyins[i]) && isAlpha(pinyins[i].s[0])
    requires (k, m) == OuterStep(text, pinyins, isAlpha, i, items)
    ensures k <= |pinyins| && LedgerOf(text, pinyins, k, m) == LedgerOf(text, pinyins, i, items)
    ensures WellShaped(items) ==> WellShaped(m)
  {
    var started := items + [Item([text[i]], pinyins[i])];
    assert (k - 1, m) == Absorb(text, pinyins, isAlpha, i, started);
    LedgerAdd(text, pinyins, i, items);
    AbsorbKeepsLedger(text, pinyins, isAlpha, i, started, k - 1, m);
  }

  /** The grouping loop from entry `i`, returning `out`, keeps the ledger:
      every non-space entry ends up in exactly one item. */
  lemma {:induction false} GroupKeepsLedger(text: string, pinyins: seq<Entry>, isAlpha: char -> bool, i: nat, items: seq<Item>, out: seq<Item>)
    requires |pinyins| <= |text| && i <= |pinyins| && !isAlpha(' ')
    requires out == Group(text, pinyins, isAlpha, i, items)
    ensures LedgerOf(text, pinyins, |pinyins|, out) == LedgerOf(text, pinyins, i, items)
    ensures WellShaped(items) ==> WellShaped(out)
    decreases |pinyins| - i
  {
    if i < |pinyins| {
      var next := OuterStep(text, pinyins, isAlpha, i, items);
      OuterStepKeepsLedger(text, pinyins, isAlpha, i, items, next.0, next.1);
      GroupKeepsLedger(text, pinyins, isAlpha, next.0, next.1, out);
    }
  }

  /** Items with non-empty tokens are no more than their characters. */
  lemma {:induction false} ItemsAtMostText(items: seq<Item>)
    requires WellShaped(items)
    ensures |items| <= |TokenText(items)|
  {
    if |items| > 0 {
      assert WellShaped(DropLast(items)) by {
        assert forall k :: 0 <= k < |items| - 1 ==> DropLast(items)[k] == items[k];
      }
      assert |Last(items).token| > 0;
      ItemsAtMostText(DropLast(items));
    }
  }

  lemma {:induction false} KeptAtMost(text: string, pinyins: seq<Entry>, i: nat)
    requires |pinyins| <= |text| && i <= |pinyins|
    ensures |Kept(text, pinyins, i)| <= |pinyins| - i
    decreases |pinyins| - i
  {
    if i < |pinyins| {
      KeptAtMost(text, pinyins, i + 1);
      var head := if pinyins[i] == Plain(" ") then "" else [text[i]];
      assert Kept(text, pinyins, i) == head + Kept(text, pinyins, i + 1);
    }
  }

  // ---------------------------------------------------------------------
  // Runs: a letter followed by letters and apostrophes becomes one item.

  /** Entries `i` to `j - 1` are one-character letters or apostrophes. */
  predicate LetterRun(pinyins: seq<Entry>, isAlpha: char -> bool, i: nat, j: nat) {
    && i <= j <= |pinyins|
    && forall k :: i <= k < j ==> Single(pinyins[k]) && pinyins[k] != Plain(" ") && Continues(isAlpha, pinyins[k])
  }

  /** The rendered entries `i` to `j - 1`, concatenated: for a run, their
      pinyin strings. */
  function RunPhones(pinyins: seq<Entry>, i: nat, j: nat): string
    decreases j - i
  {
    if i >= j || j > |pinyins| then "" else Render(pinyins[i]) + RunPhones(pinyins, i + 1, j)
  }

  /** The last item grown by some characters and their pinyin strings. */
  function Extended(items: seq<Item>, token: string, s: string): (r: seq<Item>)
    requires |items| > 0 && Last(items).phones.Plain?
    ensures |r| == |items| && Last(r).phones.Plain?
  {
    DropLast(items) + [Item(Last(items).token + token, Plain(Last(items).phones.s + s))]
  }

  /** Growing by one entry and then by more is growing by both at once. */
  lemma {:induction false} GrowThenExtend(items: seq<Item>, c: char, s: string, token: string, more: string, allToken: string, allMore: string)
    requires |items| > 0 && Last(items).phones.Plain?
    requires allToken == [c] + token && allMore == s + more
    ensures |Grow(items, c, s)| > 0 && Last(Grow(items, c, s)).phones.Plain?
    ensures Extended(Grow(items, c, s), token, more) == Extended(items, allToken, allMore)
  {
    var last := Last(items);
    DropLastSnoc(DropLast(items), Item(last.token + [c], Plain(last.phones.s + s)));
    AppendAssoc(last.token, [c], token);
    AppendAssoc(last.phones.s, s, more);
  }

  /** The inner loop runs over a whole run of letters and apostrophes,
      entries `i + 1` to `j`, and adds their characters and pinyin strings
      to the last item; it then goes on at `j` as it would have at `i`. */
  lemma {:induction false} AbsorbRun(text: string, pinyins: seq<Entry>, isAlpha: char -> bool, i: nat, j: nat, items: seq<Item>)
    requires InRun(text, pinyins, isAlpha, i, j, items)
    ensures Absorb(text, pinyins, isAlpha, i, items)
         == Absorb(text, pinyins, isAlpha, j, Extended(items, text[i + 1..j + 1], RunPhones(pinyins, i + 1, j + 1)))
    decreases j - i, 1
  {
    if i == j {
      ExtendedByNothing(items, text[i + 1..j + 1], RunPhones(pinyins, i + 1, j + 1));
    } else {
      AbsorbRunOn(text, pinyins, isAlpha, i, j, items);
    }
  }

  /** `AbsorbRun` for a run that is not empty: one step, then the rest. */
  lemma {:induction false} AbsorbRunOn(text: string, pinyins: seq<Entry>, isAlpha: char -> bool, i: nat, j: nat, items: seq<Item>)
    requires InRun(text, pinyins, isAlpha, i, j, items) && i < j
    ensures Absorb(text, pinyins, isAlpha, i, items)
         == Absorb(text, pinyins, isAlpha, j, Extended(items, text[i + 1..j + 1], RunPhones(pinyins, i + 1, j + 1)))
    decreases j - i, 0
  {
    var grown := RunHead(text, pinyins, isAlpha, i, j, items);
    AbsorbRun(text, pinyins, isAlpha, i + 1, j, grown);
  }

  /** The inner loop at entry `i`, with an open last item, about to pass
      over the run of letters and apostrophes at entries `i + 1` to `j`. */
  predicate InRun(text: string, pinyins: seq<Entry>, isAlpha: char -> bool, i: nat, j: nat, items: seq<Item>) {
    && |pinyins| <= |text| && i <= j < |pinyins| && |items| > 0 && Last(items).phones.Plain?
    && LetterRun(pinyins, isAlpha, i + 1, j + 1)
  }

  /** The first entry of a run grows the last item; the inner loop then
      goes on with the rest of the run. */
  lemma {:induction false} RunHead(text: string, pinyins: seq<Entry>, isAlpha: char -> bool, i: nat, j: nat, items: seq<Item>)
    returns (grown: seq<Item>)
    requires InRun(text, pinyins, isAlpha, i, j, items) && i < j
    ensures InRun(text, pinyins, isAlpha, i + 1, j, grown)
    ensures Absorb(text, pinyins, isAlpha, i, items) == Absorb(text, pinyins, isAlpha, i + 1, grown)
    ensures Extended(grown, text[i + 2..j + 1], RunPhones(pinyins, i + 2, j + 1))
         == Extended(items, text[i + 1..j + 1], RunPhones(pinyins, i + 1, j + 1))
  {
    grown := Grow(items, text[i + 1], pinyins[i + 1].s);
    RunHeadAbsorbed(text, pinyins, isAlpha, i, j, items);
    RunHeadExtended(text, pinyins, i, j, items);
  }

  /** Growing by nothing changes nothing. */
  lemma {:induction false} ExtendedByNothing(items: seq<Item>, token: string, s: string)
    requires |items| > 0 && Last(items).phones.Plain? && token == [] && s == []
    ensures Extended(items, token, s) == items
  {
    var last := Last(items);
    assert last.token + token == last.token;
    assert last.phones.s + s == last.phones.s;
    DropLastSplit(items);
  }

  /** The first entry of a run extends the last item, and the rest of the
      entries still form a run. */
  lemma {:induction false} RunHeadAbsorbed(text: string, pinyins: seq<Entry>, isAlpha: char -> bool, i: nat, j: nat, items: seq<Item>)
    requires |pinyins| <= |text| && i < j < |pinyins| && |items| > 0 && Last(items).phones.Plain?
    requires LetterRun(pinyins, isAlpha, i + 1, j + 1)
    ensures |Grow(items, text[i + 1], pinyins[i + 1].s)| > 0 && Last(Grow(items, text[i + 1], pinyins[i + 1].s)).phones.Plain?
    ensures Absorb(text, pinyins, isAlpha, i, items) == Absorb(text, pinyins, isAlpha, i + 1, Grow(items, text[i + 1], pinyins[i + 1].s))
    ensures LetterRun(pinyins, isAlpha, i + 2, j + 1)
  {
    assert Single(pinyins[i + 1]) && pinyins[i + 1] != Plain(" ") && Continues(isAlpha, pinyins[i + 1]);
    AbsorbStep(text, pinyins, isAlpha, i, items);
    GrowShape(items, text[i + 1], pinyins[i + 1].s);
  }

  /** Growing by the first entry of a run and then by the rest is growing by
      the whole run. */
  lemma {:induction false} RunHeadExtended(text: string, pinyins: seq<Entry>, i: nat, j: nat, items: seq<Item>)
    requires |pinyins| <= |text| && i < j < |pinyins| && |items| > 0 && Last(items).phones.Plain?
    requires pinyins[i + 1].Plain?
    ensures |Grow(items, text[i + 1], pinyins[i + 1].s)| > 0 && Last(Grow(items, text[i + 1], pinyins[i + 1].s)).phones.Plain?
    ensures Extended(Grow(items, text[i + 1], pinyins[i + 1].s), text[i + 2..j + 1], RunPhones(pinyins, i + 2, j + 1))
         == Extended(items, text[i + 1..j + 1], RunPhones(pinyins, i + 1, j + 1))
  {
    var tail, more := text[i + 2..j + 1], RunPhones(pinyins, i + 2, j + 1);
    assert [text[i + 1]] + tail == text[i + 1..j + 1];
    assert pinyins[i + 1].s + more == RunPhones(pinyins, i + 1, j + 1);
    GrowThenExtend(items, text[i + 1], pinyins[i + 1].s, tail, more, text[i + 1..j + 1], RunPhones(pinyins, i + 1, j + 1));
  }

  /** A letter entry opens an item and hands it to the inner loop. */
  lemma {:induction false} OuterStepAtLetter(text: string, pinyins: seq<Entry>, isAlpha: char -> bool, i: nat, items: seq<Item>)
    requires |pinyins| <= |text| && i < |pinyins| && !isAlpha(' ')
    requires Single(pinyins[i]) && isAlpha(pinyins[i].s[0])
    ensures var next := Absorb(text, pinyins, isAlpha, i, items + [Item([text[i]], pinyins[i])]);
            OuterStep(text, pinyins, isAlpha, i, items) == (next.0 + 1, next.1)
  {
    assert pinyins[i].s[0] != ' ';
  }

  /** The item a letter opens, grown by the rest of its run, holds the whole
      run. */
  lemma {:induction false} RunItem(text: string, pinyins: seq<Entry>, i: nat, j: nat, items: seq<Item>)
    requires |pinyins| <= |text| && i < j <= |pinyins| && Single(pinyins[i])
    ensures Extended(items + [Item([text[i]], pinyins[i])], text[i + 1..j], RunPhones(pinyins, i + 1, j))
         == items + [Item(text[i..j], Plain(RunPhones(pinyins, i, j)))]
  {
    DropLastSnoc(items, Item([text[i]], pinyins[i]));
    assert [text[i]] + text[i + 1..j] == text[i..j];
    assert RunPhones(pinyins, i, j) == pinyins[i].s + RunPhones(pinyins, i + 1, j);
  }

  /** The outer loop at a letter that starts a run up to entry `j - 1`:
      the run becomes one item, then the inner loop carries on from `j - 1`. */
  lemma {:induction false} OuterStepOverRun(text: string, pinyins: seq<Entry>, isAlpha: char -> bool, i: nat, j: nat, items: seq<Item>)
    requires |pinyins| <= |text| && i < j <= |pinyins| && !isAlpha(' ')
    requires Single(pinyins[i]) && isAlpha(pinyins[i].s[0]) && LetterRun(pinyins, isAlpha, i + 1, j)
    ensures var next := Absorb(text, pinyins, isAlpha, j - 1, items + [Item(text[i..j], Plain(RunPhones(pinyins, i, j)))]);
            OuterStep(text, pinyins, isAlpha, i, items) == (next.0 + 1, next.1)
  {
    var started := items + [Item([text[i]], pinyins[i])];
    OuterStepAtLetter(text, pinyins, isAlpha, i, items);
    assert InRun(text, pinyins, isAlpha, i, j - 1, started);
    AbsorbRun(text, pinyins, isAlpha, i, j - 1, started);
    RunItem(text, pinyins, i, j, items);
  }

  /** A letter at entry `i` followed by a maximal run of letters and
      apostrophes up to entry `j - 1` becomes one item holding the run's
      characters and pinyin strings.  The run ends before an entry that is
      not one character long (or at the end), at a space, which makes no
      item, or at any other character, which makes an item of its own. */
  lemma {:induction false} LetterRunIsOneItem(text: string, pinyins: seq<Entry>, isAlpha: char -> bool, i: nat, j: nat, items: seq<Item>)
    requires |pinyins| <= |text| && i < j <= |pinyins| && !isAlpha(' ')
    requires Single(pinyins[i]) && isAlpha(pinyins[i].s[0]) && LetterRun(pinyins, isAlpha, i + 1, j)
    requires NextAt(pinyins, isAlpha, j - 1) != Extend
    ensures var run := Item(text[i..j], Plain(RunPhones(pinyins, i, j)));
            && (NextAt(pinyins, isAlpha, j - 1) == Stop ==>
                  OuterStep(text, pinyins, isAlpha, i, items) == (j, items + [run]))
            && (NextAt(pinyins, isAlpha, j - 1) == Space ==>
                  OuterStep(text, pinyins, isAlpha, i, items) == (j + 1, items + [run]))
            && (NextAt(pinyins, isAlpha, j - 1) == Break ==>
                  OuterStep(text, pinyins, isAlpha, i, items) == (j + 1, items + [run, Item([text[j]], pinyins[j])]))
  {
    var run := Item(text[i..j], Plain(RunPhones(pinyins, i, j)));
    OuterStepOverRun(text, pinyins, isAlpha, i, j, items);
    AbsorbStep(text, pinyins, isAlpha, j - 1, items + [run]);
    if NextAt(pinyins, isAlpha, j - 1) == Break {
      assert items + [run] + [Item([text[j]], pinyins[j])] == items + [run, Item([text[j]], pinyins[j])];
    }
  }

  /** A text whose entries are all one-character letters becomes a single
      item. */
  lemma {:induction false} AllLettersOneItem(text: string, pinyins: seq<Entry>, isAlpha: char -> bool)
    requires |pinyins| <= |text| && 0 < |pinyins| && !isAlpha(' ')
    requires forall k :: 0 <= k < |pinyins| ==> pinyins[k].Plain? && |pinyins[k].s| == 1 && isAlpha(pinyins[k].s[0])
    ensures Group(text, pinyins, isAlpha, 0, []) == [Item(text[..|pinyins|], Plain(RunPhones(pinyins, 0, |pinyins|)))]
  {
    var n := |pinyins|;
    assert forall k :: 0 <= k < n ==> pinyins[k] != Plain(" ") by {
      forall k | 0 <= k < n ensures pinyins[k] != Plain(" ") {
        assert pinyins[k].s[0] != ' ';
      }
    }
    LetterRunIsOneItem(text, pinyins, isAlpha, 0, n, []);
    assert text[0..n] == text[..n];
  }

  /** The grouping loop of the top-level `g2p`, from the start. */
  function Items(text: string, pinyins: seq<Entry>, isAlpha: char -> bool): (r: seq<Item>)
    requires |pinyins| <= |text| && !isAlpha(' ')
    ensures TokenText(r) == Kept(text, pinyins, 0)
    ensures PhoneText(r) == Rendered(pinyins, 0)
    ensures PairItems(r) == PairsFrom(pinyins, 0)
    ensures WellShaped(r)
    ensures |r| <= |pinyins|
  {
    var r := Group(text, pinyins, isAlpha, 0, []);
    GroupKeepsLedger(text, pinyins, isAlpha, 0, [], r);
    assert LedgerOf(text, pinyins, 0, []).tokens == "" + Kept(text, pinyins, 0);
    assert LedgerOf(text, pinyins, 0, []).phones == "" + Rendered(pinyins, 0);
    assert TokenText(r) + "" == TokenText(r);
    assert PhoneText(r) + "" == PhoneText(r);
    ItemsAtMostText(r);
    KeptAtMost(text, pinyins, 0);
    r
  }

  /** `b"...".isalpha()` on the UTF-8 bytes of a token: only ASCII letters
      qualify, and there must be at least one. */
  predicate BytesAreAlpha(w: string) {
    |w| > 0 && forall k :: 0 <= k < |w| ==> Tokenizer.IsAsciiLetter(w[k])
  }

  /** An item's phones after the English pass. */
  datatype Phones = Pinyin(entry: Entry) | Arpabet(phones: seq<string>)

  datatype Output = Output(token: string, phones: Phones)

  /** Lines 42-45: a token longer than one character, or a single ASCII
      letter, goes through the English converter; anything else (a lone
      Chinese character, a digit, a symbol) keeps its pinyin. */
  function ToEnglish(g2pE: Entry -> seq<string>, it: Item): (o: Output)
    ensures o.token == it.token
    ensures o.phones.Pinyin? <==> |it.token| <= 1 && !BytesAreAlpha(it.token)
  {
    if |it.token| > 1 || BytesAreAlpha(it.token) then Output(it.token, Arpabet(g2pE(it.phones)))
    else Output(it.token, Pinyin(it.phones))
  }

  /** The top-level `g2p`: pypinyin's initials and finals, combined per
      character, grouped, then converted. */
  function G2p(text: string, initials: seq<string>, finals: seq<string>, isAlpha: char -> bool, g2pE: Entry -> seq<string>): (r: seq<Output>)
    requires Min(|initials|, |finals|) <= |text| && !isAlpha(' ')
    ensures |r| == |Items(text, Pinyins(initials, finals), isAlpha)| <= |text|
    ensures forall k :: 0 <= k < |r| ==> r[k] == ToEnglish(g2pE, Items(text, Pinyins(initials, finals), isAlpha)[k])
  {
    var items := Items(text, Pinyins(initials, finals), isAlpha);
    seq(|items|, k requires 0 <= k < |items| => ToEnglish(g2pE, items[k]))
  }

  /** A Chinese character keeps its `[initial, final]` pair: its item has a
      one-character token, which is no ASCII letter. */
  lemma {:induction false} ChineseKeepsPinyin(g2pE: Entry -> seq<string>, it: Item)
    requires it.phones.Pair? && |it.token| == 1 && !Tokenizer.IsAsciiLetter(it.token[0])
    ensures ToEnglish(g2pE, it) == Output(it.token, Pinyin(it.phones))
  {
  }
}

=== FILE: lexicon.dfy ===
/** The word lists of `ToneSandhi.__init__` (g2p_mix/tone_sandhi.py). */
module Lexicon {

  /** The two word lists the neutral-tone rule consults. */
  datatype WordLists = WordLists(neutral: set<string>, notNeutral: set<string>)

  /** Words whose last syllable is read in the neutral tone. The source list
      names 过去 twice; as a set it holds 486 distinct words. */
  const NeutralToneWords: set<string> := {
      "麻烦", "麻利", "鸳鸯", "高粱", "骨头", "骆驼", "马虎", "首饰", "馒头", "馄饨", "风筝", "难为",
      "队伍", "阔气", "闺女", "门道", "锄头", "铺盖", "铃铛", "铁匠", "钥匙", "里脊", "里头", "部分",
      "那么", "道士", "造化", "迷糊", "连累", "这么", "这个", "运气", "过去", "软和", "转悠", "踏实",
      "跳蚤", "跟头", "趔趄", "财主", "豆腐", "讲究", "记性", "记号", "认识", "规矩", "见识", "裁缝",
      "补丁", "衣裳", "衣服", "衙门", "街坊", "行李", "行当", "蛤蟆", "蘑菇", "薄荷", "葫芦", "葡萄",
      "萝卜", "荸荠", "苗条", "苗头", "苍蝇", "芝麻", "舒服", "舒坦", "舌头", "自在", "膏药", "脾气",
      "脑袋", "脊梁", "能耐", "胳膊", "胭脂", "胡萝", "胡琴", "胡同", "聪明", "耽误", "耽搁", "耷拉",
      "耳朵", "老爷", "老实", "老婆", "戏弄", "将军", "翻腾", "罗嗦", "罐头", "编辑", "结实", "红火",
      "累赘", "糨糊", "糊涂", "精神", "粮食", "簸箕", "篱笆", "算计", "算盘", "答应", "笤帚", "笑语",
      "笑话", "窟窿", "窝囊", "窗户", "稳当", "稀罕", "称呼", "秧歌", "秀气", "秀才", "福气", "祖宗",
      "砚台", "码头", "石榴", "石头", "石匠", "知识", "眼睛", "眯缝", "眨巴", "眉毛", "相声", "盘算",
      "白净", "痢疾", "痛快", "疟疾", "疙瘩", "疏忽", "畜生", "生意", "甘蔗", "琵琶", "琢磨", "琉璃",
      "玻璃", "玫瑰", "玄乎", "狐狸", "状元", "特务", "牲口", "牙碜", "牌楼", "爽快", "爱人", "热闹",
      "烧饼", "烟筒", "烂糊", "点心", "炊帚", "灯笼", "火候", "漂亮", "滑溜", "溜达", "温和", "清楚",
      "消息", "浪头", "活泼", "比方", "正经", "欺负", "模糊", "槟榔", "棺材", "棒槌", "棉花", "核桃",
      "栅栏", "柴火", "架势", "枕头", "枇杷", "机灵", "本事", "木头", "木匠", "朋友", "月饼", "月亮",
      "暖和", "明白", "时候", "新鲜", "故事", "收拾", "收成", "提防", "挖苦", "挑剔", "指甲", "指头",
      "拾掇", "拳头", "拨弄", "招牌", "招呼", "抬举", "护士", "折腾", "扫帚", "打量", "打算", "打扮",
      "打听", "打发", "扎实", "扁担", "戒指", "懒得", "意识", "意思", "悟性", "怪物", "思量", "怎么",
      "念头", "念叨", "别人", "快活", "忙活", "志气", "心思", "得罪", "张罗", "弟兄", "开通", "应酬",
      "庄稼", "干事", "帮手", "帐篷", "希罕", "师父", "师傅", "巴结", "巴掌", "差事", "工夫", "岁数",
      "屁股", "尾巴", "少爷", "小气", "小伙", "将就", "对头", "对付", "寡妇", "家伙", "客气", "实在",
      "官司", "学问", "字号", "嫁妆", "媳妇", "媒人", "婆家", "娘家", "委屈", "姑娘", "姐夫", "妯娌",
      "妥当", "妖精", "奴才", "女婿", "头发", "太阳", "大爷", "大方", "大意", "大夫", "多少", "多么",
      "外甥", "壮实", "地道", "地方", "在乎", "困难", "嘴巴", "嘱咐", "嘟囔", "嘀咕", "喜欢", "喇嘛",
      "喇叭", "商量", "唾沫", "哑巴", "哈欠", "哆嗦", "咳嗽", "和尚", "告诉", "告示", "含糊", "吓唬",
      "后头", "名字", "名堂", "合同", "吆喝", "叫唤", "口袋", "厚道", "厉害", "千斤", "包袱", "包涵",
      "匀称", "勤快", "动静", "动弹", "功夫", "力气", "前头", "刺猬", "刺激", "别扭", "利落", "利索",
      "利害", "分析", "出息", "凑合", "凉快", "冷战", "冤枉", "冒失", "养活", "关系", "先生", "兄弟",
      "便宜", "使唤", "佩服", "作坊", "体面", "位置", "似的", "伙计", "休息", "什么", "人家", "亲戚",
      "亲家", "交情", "云彩", "事情", "买卖", "主意", "丫头", "丧气", "两口", "东西", "东家", "世故",
      "不由", "下水", "下巴", "上头", "上司", "丈夫", "丈人", "一辈", "那个", "菩萨", "父亲", "母亲",
      "咕噜", "邋遢", "费用", "冤家", "甜头", "介绍", "荒唐", "大人", "泥鳅", "幸福", "熟悉", "计划",
      "扑腾", "蜡烛", "姥爷", "照顾", "喉咙", "吉他", "弄堂", "蚂蚱", "凤凰", "拖沓", "寒碜", "糟蹋",
      "倒腾", "报复", "逻辑", "盘缠", "喽啰", "牢骚", "咖喱", "扫把", "惦记", "上来", "下来", "进来",
      "出来", "回来", "过来", "起来", "上去", "下去", "进去", "出去", "回去", "几个", "有个", "两个",
      "半个", "多个", "各个", "整个", "每个", "做个", "是个", "房子", "车子", "胖子", "瘦子", "矮子",
      "垫子", "饺子", "妻子", "儿子", "桌子", "椅子", "嫂子", "屋子", "面子", "样子", "盘子", "瓶子",
      "脑子", "旗子", "乱子", "乐子", "小子", "法子", "票子", "圈子", "调子", "场子", "位子", "瞎子",
      "镜子", "方子", "耗子", "帽子", "爷爷", "奶奶", "试试", "姐姐", "哥哥", "弟弟", "妹妹", "爸爸",
      "妈妈", "姥姥", "舅舅", "婶婶", "嫂嫂", "宝宝"
    }

  /** Words ending in 儿 that keep their full tone. */
  const NotNeutralToneWords: set<string> := {
      "女儿", "妻儿", "胎儿", "婴儿", "幼儿", "少儿", "小儿", "孤儿", "新生儿", "婴幼儿"
    }

  const Standard: WordLists := WordLists(NeutralToneWords, NotNeutralToneWords)

  /** The single characters that precede an ordinal or cardinal 一: the eleven
      numerals 零..十 and 万, 月, 第, 初. */
  const OrdinalMarks: string := "零一二三四五六七八九十万月第初"

  /** The characters after 一 that mark it as read in its citation tone. */
  const CitationFollowers: string := "月班连楼"

  /** Sentence-final particles read in the neutral tone. */
  const Particles: string := "吧呢啊呐噻嘛吖嗨呐哦哒滴哩哟喽啰耶喔诶"

  /** Aspect markers: 了, 着, 过. */
  const AspectMarkers: string := "了着过"
}

=== FILE: merge.dfy ===
/** The merge pass of `ToneSandhi._merge` (g2p_mix/tone_sandhi.py): one
    left-to-right pass that glues adjacent Chinese tokens into prosodic words
    before the tone rules run. */
module Merge {
  import opened Common
  import opened Tokens

  /** What `_merge` needs of a token to run without raising: a Chinese token
      has a first and a last syllable to read tones from and a non-empty POS
      tag for `pos[0]`; any token absorbed at the end of a Chinese one must
      not leave an empty last syllable behind. */
  predicate MergeReady(t: Token) {
    && (t.lang == ZH ==> |t.phones| > 0 && |t.phones[0]| > 0 && t.pos.Some? && |t.pos.value| > 0)
    && (|t.phones| > 0 ==> |Last(t.phones)| > 0)
  }

  predicate AllReady(ts: seq<Token>) {
    forall k :: 0 <= k < |ts| ==> MergeReady(ts[k])
  }

  function Words(ts: seq<Token>): (r: seq<string>)
    ensures |r| == |ts| && forall k :: 0 <= k < |ts| ==> r[k] == ts[k].word
  {
    seq(|ts|, k requires 0 <= k < |ts| => ts[k].word)
  }

  function PhoneLists(ts: seq<Token>): (r: seq<seq<string>>)
    ensures |r| == |ts| && forall k :: 0 <= k < |ts| ==> r[k] == ts[k].phones
  {
    seq(|ts|, k requires 0 <= k < |ts| => ts[k].phones)
  }

  /** The triggers of rule 1: the previous word is 不, 很 or 一. */
  predicate IsBuHenYi(w: string) {
    w == "不" || w == "很" || w == "一"
  }

  /** Rule 2 tests `token.word in ("儿")`; the parentheses make a string, not
      a tuple, so this is a substring test and the empty word passes too. */
  predicate InEr(w: string) {
    IsSubstring(w, "儿")
  }

  lemma {:induction false} InErExactly(w: string)
    ensures InEr(w) <==> w == "" || w == "儿"
  {
    if InEr(w) {
      var k :| 0 <= k <= |"儿"| && IsPrefix(w, "儿"[k..]);
    } else {
      assert IsPrefix("", "儿"[0..]);
      assert IsPrefix("儿", "儿"[0..]);
    }
  }

  /** Rules 1 and 2: absorb the current token into the previous one.  Read
      literally, rule 2 fires on the word 儿 and on the empty word alike. */
  predicate RuleBuOrEr(last: Token, tok: Token): (b: bool)
    ensures b <==> last.word in ["不", "很", "一"] || tok.word in ["", "儿"]
  {
    InErExactly(tok.word);
    IsBuHenYi(last.word) || InEr(tok.word)
  }

  /** Rule 3: both boundary syllables carry tone 3 and both words are short. */
  predicate RuleThree(last: Token, tok: Token): (b: bool)
    requires last.lang == ZH && tok.lang == ZH
    requires MergeReady(last) && MergeReady(tok)
    ensures b <==> && Last(Last(last.phones)) == '3' && Last(tok.phones[0]) == '3'
                   && |last.word| <= 2 && |tok.word| <= 2
  {
    && Tone(last, -1) == Some('3')
    && Tone(tok, 0) == Some('3')
    && |last.word| <= 2
    && |tok.word| <= 2
    && |last.word| + |tok.word| <= 4
  }

  /** Rule 4: a lone 一 between two identical words after a verb; `rest[0]`
      is the 一 token, `rest[1]` the one after it. */
  predicate RuleReduplication(last: Token, rest: seq<Token>): (b: bool)
    requires last.lang == ZH && MergeReady(last) && |rest| > 0
    ensures b ==> |rest| > 1 && rest[0].word == "一" && rest[1].word == last.word
    ensures b ==> IsPrefix("v", last.pos.value)
    ensures |rest| > 1 && rest[0].word == "一" && rest[1].word == last.word && IsPrefix("v", last.pos.value) ==> b
  {
    && rest[0].word == "一"
    && last.pos.value[0] == 'v'
    && |rest| > 1
    && last.word == rest[1].word
  }

  lemma {:induction false} PushBackReady(t: Token, u: Token)
    requires MergeReady(t) && MergeReady(u) && t.lang == ZH
    ensures MergeReady(PushBack(t, u))
  {
    var r := PushBack(t, u);
    assert r.phones[0] == t.phones[0];
    if |u.phones| > 0 {
      assert Last(r.phones) == Last(u.phones);
    } else {
      assert r.phones == t.phones;
    }
  }

  /** One iteration of the loop of `_merge`: `out` is `new_tokens` and
      `rest` the unread input; `absorbed` counts the input tokens glued onto
      the last output token (0 when the current token is kept apart). */
  datatype Progress = Progress(out: seq<Token>, rest: seq<Token>, absorbed: nat)

  function Step(out: seq<Token>, rest: seq<Token>): (r: Progress)
    requires |out| > 0 ==> MergeReady(Last(out))
    requires AllReady(rest) && |rest| > 0
    ensures AllReady(r.rest) && (|r.out| > 0 ==> MergeReady(Last(r.out)))
    ensures r.absorbed <= 2
    ensures r.absorbed == 0 ==> r.out == out + [rest[0]] && r.rest == rest[1..]
    ensures r.absorbed == 1 ==>
              && |out| > 0 && r.rest == rest[1..]
              && r.out == DropLast(out) + [PushBack(Last(out), rest[0])]
    ensures r.absorbed == 2 ==>
              && |out| > 0 && |rest| > 1 && r.rest == rest[2..]
              && r.out == DropLast(out) + [PushBack(PushBack(Last(out), rest[0]), rest[1])]
    ensures |out| == 0 || Last(out).lang != ZH || rest[0].lang != ZH ==> r.absorbed == 0
    ensures |out| > 0 && Last(out).lang == ZH && rest[0].lang == ZH ==>
              (r.absorbed == 1 <==> RuleBuOrEr(Last(out), rest[0]) || RuleThree(Last(out), rest[0]))
    ensures |out| > 0 && Last(out).lang == ZH && rest[0].lang == ZH ==>
              (r.absorbed == 2 <==> && !RuleBuOrEr(Last(out), rest[0]) && !RuleThree(Last(out), rest[0])
                                    && RuleReduplication(Last(out), rest))
  {
    var tok := rest[0];
    if |out| == 0 || Last(out).lang != ZH || tok.lang != ZH then
      Progress(out + [tok], rest[1..], 0)
    else
      var last := Last(out);
      if RuleBuOrEr(last, tok) || RuleThree(last, tok) then
        PushBackReady(last, tok);
        Progress(DropLast(out) + [PushBack(last, tok)], rest[1..], 1)
      else if RuleReduplication(last, rest) then
        PushBackReady(last, tok);
        PushBackReady(PushBack(last, tok), rest[1]);
        Progress(DropLast(out) + [PushBack(PushBack(last, tok), rest[1])], rest[2..], 2)
      else
        Progress(out + [tok], rest[1..], 0)
  }

  /** After rule 1 no 不, 很 or 一 of its own stands directly before another
      Chinese token: the next Chinese token would have been absorbed. */
  predicate NoOpenTrigger(out: seq<Token>) {
    forall k :: 0 <= k < |out| - 1 && out[k].lang == ZH && IsBuHenYi(out[k].word) ==> out[k + 1].lang != ZH
  }

  lemma {:induction false} StepKeepsClosed(out: seq<Token>, rest: seq<Token>)
    requires |out| > 0 ==> MergeReady(Last(out))
    requires AllReady(rest) && |rest| > 0
    ensures NoOpenTrigger(out) ==> NoOpenTrigger(Step(out, rest).out)
  {
    var r := Step(out, rest);
    if NoOpenTrigger(out) && r.absorbed > 0 {
      // the last token grows but keeps its language, so every pair that
      // ends in it is judged as before
      assert forall k :: 0 <= k < |out| ==> r.out[k].lang == out[k].lang;
    }
  }

  /** The loop of `_merge`, run to the end of the input. */
  function MergeFrom(out: seq<Token>, rest: seq<Token>): (r: seq<Token>)
    requires |out| > 0 ==> MergeReady(Last(out))
    requires AllReady(rest)
    ensures |r| <= |out| + |rest|
    ensures NoOpenTrigger(out) ==> NoOpenTrigger(r)
    decreases |rest|
  {
    if |rest| == 0 then out
    else
      var p := Step(out, rest);
      StepKeepsClosed(out, rest);
      MergeFrom(p.out, p.rest)
  }

  /** The tokens of the example of rule 4 in the source's comment. */
  const Ting: Token := Token("听", ZH, Some("v"), ["ting1"])
  const YiNumeral: Token := Token("一", ZH, Some("m"), ["yi1"])

  /** 听/一/听 after a verb tag becomes the one word 听一听. */
  lemma {:induction false} ListenOnceIsOneWord()
    ensures MergeTokens([Ting, YiNumeral, Ting]) == [Token("听一听", ZH, Some("v"), ["ting1", "yi1", "ting1"])]
  {
    ListenOnceFirstStep();
    ListenOnceSecondStep();
    assert MergeTokens([Ting, YiNumeral, Ting]) == MergeFrom([Ting], [YiNumeral, Ting]);
    assert MergeFrom([Ting], [YiNumeral, Ting]) == MergeFrom([Token("听一听", ZH, Some("v"), ["ting1", "yi1", "ting1"])], []);
  }

  /** The first token starts the output. */
  lemma {:induction false} ListenOnceFirstStep()
    ensures Step([], [Ting, YiNumeral, Ting]) == Progress([Ting], [YiNumeral, Ting], 0)
  {
    assert [Ting, YiNumeral, Ting][1..] == [YiNumeral, Ting];
  }

  /** Neither rule 1, 2 nor 3 fires on 听 and 一, and rule 4 glues 一 and the
      second 听 on. */
  lemma {:induction false} ListenOnceSecondStep()
    ensures Step([Ting], [YiNumeral, Ting]) == Progress([Token("听一听", ZH, Some("v"), ["ting1", "yi1", "ting1"])], [], 2)
  {
    assert !RuleBuOrEr(Ting, YiNumeral);
    assert Tone(Ting, -1) == Some('1');
    assert RuleReduplication(Ting, [YiNumeral, Ting]);
    assert PushBack(PushBack(Ting, YiNumeral), Ting) == Token("听一听", ZH, Some("v"), ["ting1", "yi1", "ting1"]);
    assert [YiNumeral, Ting][2..] == [];
  }

  /** `ToneSandhi._merge`: never more tokens than it was given, and no
      trigger of rule 1 left before a Chinese token. */
  function MergeTokens(ts: seq<Token>): (r: seq<Token>)
    requires AllReady(ts)
    ensures |r| <= |ts|
    ensures NoOpenTrigger(r)
  {
    MergeFrom([], ts)
  }

  // ---------------------------------------------------------------------
  // The reference shape of the result: the input cut into consecutive
  // non-empty runs, each run folded into its first token with `push_back`.

  predicate NonEmptyRuns(runs: seq<seq<Token>>) {
    forall k :: 0 <= k < |runs| ==> |runs[k]| > 0
  }

  lemma {:induction false} WordsAppend(a: seq<Token>, b: seq<Token>)
    ensures Words(a + b) == Words(a) + Words(b)
    ensures PhoneLists(a + b) == PhoneLists(a) + PhoneLists(b)
  {
  }

  /** A run folded into its first token with `push_back`. */
  function Combine(run: seq<Token>): (r: Token)
    requires |run| > 0
    ensures r.lang == run[0].lang && r.pos == run[0].pos
    decreases |run|
  {
    if |run| == 1 then run[0] else PushBack(Combine(DropLast(run)), Last(run))
  }

  lemma {:induction false} CombineSnoc(run: seq<Token>, t: Token)
    requires |run| > 0
    ensures Combine(run + [t]) == PushBack(Combine(run), t)
  {
    assert DropLast(run + [t]) == run;
  }

  /** The folded token carries the text and the syllables of the whole run. */
  lemma {:induction false} CombineText(run: seq<Token>)
    requires |run| > 0
    ensures Combine(run).word == Flatten(Words(run))
    ensures Combine(run).phones == Flatten(PhoneLists(run))
    decreases |run|
  {
    if |run| == 1 {
      FlattenSingleton(run[0].word);
      FlattenSingleton(run[0].phones);
    } else {
      var init := DropLast(run);
      assert run == init + [Last(run)];
      CombineText(init);
      WordsAppend(init, [Last(run)]);
      FlattenAppend(Words(init), Words([Last(run)]));
      FlattenAppend(PhoneLists(init), PhoneLists([Last(run)]));
      FlattenSingleton(Last(run).word);
      FlattenSingleton(Last(run).phones);
    }
  }

  /** One token per run, in order. */
  function Regroup(runs: seq<seq<Token>>): (r: seq<Token>)
    requires NonEmptyRuns(runs)
    ensures |r| == |runs|
    ensures forall k :: 0 <= k < |runs| ==> r[k] == Combine(runs[k])
  {
    seq(|runs|, k requires 0 <= k < |runs| => Combine(runs[k]))
  }

  /** Appending one token as a run of its own. */
  lemma {:induction false} RegroupSnoc(runs: seq<seq<Token>>, t: Token)
    requires NonEmptyRuns(runs)
    ensures NonEmptyRuns(runs + [[t]])
    ensures Regroup(runs + [[t]]) == Regroup(runs) + [t]
  {
  }

  /** Absorbing one more token into the last run. */
  lemma {:induction false} RegroupExtend(runs: seq<seq<Token>>, t: Token)
    requires NonEmptyRuns(runs) && |runs| > 0
    ensures NonEmptyRuns(DropLast(runs) + [Last(runs) + [t]])
    ensures Regroup(DropLast(runs) + [Last(runs) + [t]])
         == DropLast(Regroup(runs)) + [PushBack(Last(Regroup(runs)), t)]
  {
    var init, run := DropLast(runs), Last(runs);
    var runs' := init + [run + [t]];
    CombineSnoc(run, t);
    var r, r' := Regroup(runs), Regroup(runs');
    var want := DropLast(r) + [PushBack(Last(r), t)];
    assert |r'| == |want| == |runs|;
    forall k | 0 <= k < |runs|
      ensures r'[k] == want[k]
    {
      if k < |runs| - 1 {
        assert runs'[k] == runs[k];
      } else {
        assert runs'[k] == run + [t];
      }
    }
  }

  lemma {:induction false} AppendRest(done: seq<Token>, taken: seq<Token>, rest: seq<Token>)
    requires |taken| <= |rest| && rest[..|taken|] == taken
    ensures (done + taken) + rest[|taken|..] == done + rest
  {
    assert rest == taken + rest[|taken|..];
  }

  /** The runs after one step: the current token on its own, or glued to
      the last run together with the token after it when `absorbed == 2`. */
  function NextRuns(runs: seq<seq<Token>>, rest: seq<Token>, absorbed: nat): seq<seq<Token>>
    requires |rest| > 0 && (absorbed > 0 ==> |runs| > 0) && (absorbed > 1 ==> |rest| > 1)
  {
    if absorbed == 0 then runs + [[rest[0]]]
    else if absorbed == 1 then DropLast(runs) + [Last(runs) + [rest[0]]]
    else
      var runs2 := DropLast(runs) + [Last(runs) + [rest[0]]];
      DropLast(runs2) + [Last(runs2) + [rest[1]]]
  }

  lemma {:induction false} NextRunsRegroup(runs: seq<seq<Token>>, rest: seq<Token>, absorbed: nat)
    requires NonEmptyRuns(runs)
    requires |rest| > 0 && (absorbed > 0 ==> |runs| > 0) && (absorbed > 1 ==> |rest| > 1)
    ensures NonEmptyRuns(NextRuns(runs, rest, absorbed))
    ensures absorbed == 0 ==> Regroup(NextRuns(runs, rest, absorbed)) == Regroup(runs) + [rest[0]]
    ensures absorbed == 1 ==> Regroup(NextRuns(runs, rest, absorbed))
                              == DropLast(Regroup(runs)) + [PushBack(Last(Regroup(runs)), rest[0])]
    ensures absorbed > 1 ==> Regroup(NextRuns(runs, rest, absorbed))
                             == DropLast(Regroup(runs)) + [PushBack(PushBack(Last(Regroup(runs)), rest[0]), rest[1])]
  {
    if absorbed == 0 {
      RegroupSnoc(runs, rest[0]);
    } else if absorbed == 1 {
      RegroupExtend(runs, rest[0]);
    } else {
      RegroupExtend(runs, rest[0]);
      RegroupExtend(DropLast(runs) + [Last(runs) + [rest[0]]], rest[1]);
    }
  }

  lemma {:induction false} NextRunsFlatten(runs: seq<seq<Token>>, rest: seq<Token>, absorbed: nat)
    requires |rest| > 0 && (absorbed > 0 ==> |runs| > 0) && (absorbed > 1 ==> |rest| > 1)
    requires absorbed <= 2
    ensures Flatten(NextRuns(runs, rest, absorbed)) == Flatten(runs) + rest[..Taken(absorbed)]
  {
    if absorbed == 0 {
      Flatten0(runs, rest);
    } else if absorbed == 1 {
      Flatten1(runs, rest);
    } else {
      Flatten2(runs, rest);
    }
  }

  lemma {:induction false} Flatten0(runs: seq<seq<Token>>, rest: seq<Token>)
    requires |rest| > 0
    ensures Flatten(runs + [[rest[0]]]) == Flatten(runs) + rest[..1]
  {
    FlattenSnoc(runs, rest[0]);
    assert [rest[0]] == rest[..1];
  }

  lemma {:induction false} Flatten1(runs: seq<seq<Token>>, rest: seq<Token>)
    requires |rest| > 0 && |runs| > 0
    ensures Flatten(DropLast(runs) + [Last(runs) + [rest[0]]]) == Flatten(runs) + rest[..1]
  {
    FlattenExtend(runs, rest[0]);
    assert [rest[0]] == rest[..1];
  }

  lemma {:induction false} Flatten2(runs: seq<seq<Token>>, rest: seq<Token>)
    requires |rest| > 1 && |runs| > 0
    ensures var runs2 := DropLast(runs) + [Last(runs) + [rest[0]]];
            Flatten(DropLast(runs2) + [Last(runs2) + [rest[1]]]) == Flatten(runs) + rest[..2]
  {
    FlattenExtendTwice(runs, rest[0], rest[1]);
    assert [rest[0], rest[1]] == rest[..2];
  }

  /** How many tokens of the input a step consumes. */
  function Taken(absorbed: nat): (n: nat)
    ensures n > 0 && (absorbed > 0 ==> n == absorbed)
  {
    if absorbed == 0 then 1 else absorbed
  }
  /** One step of the loop keeps the output a regrouping of what was read. */
  lemma {:induction false} StepRegroups(runs: seq<seq<Token>>, rest: seq<Token>) returns (runs1: seq<seq<Token>>)
    requires NonEmptyRuns(runs)
    requires |runs| > 0 ==> MergeReady(Last(Regroup(runs)))
    requires AllReady(rest) && |rest| > 0
    ensures NonEmptyRuns(runs1)
    ensures Regroup(runs1) == Step(Regroup(runs), rest).out
    ensures Flatten(runs1) + Step(Regroup(runs), rest).rest == Flatten(runs) + rest
  {
    var p := Step(Regroup(runs), rest);
    NextRunsRegroup(runs, rest, p.absorbed);
    NextRunsFlatten(runs, rest, p.absorbed);
    AppendRest(Flatten(runs), rest[..Taken(p.absorbed)], rest);
    runs1 := NextRuns(runs, rest, p.absorbed);
  }

  lemma {:induction false} MergeFromRegroups(runs: seq<seq<Token>>, rest: seq<Token>)
    returns (runs': seq<seq<Token>>)
    requires NonEmptyRuns(runs)
    requires |runs| > 0 ==> MergeReady(Last(Regroup(runs)))
    requires AllReady(rest)
    ensures NonEmptyRuns(runs')
    ensures Flatten(runs') == Flatten(runs) + rest
    ensures MergeFrom(Regroup(runs), rest) == Regroup(runs')
    decreases |rest|
  {
    if |rest| == 0 {
      runs' := runs;
      return;
    }
    var p := Step(Regroup(runs), rest);
    var runs1 := StepRegroups(runs, rest);
    runs' := MergeFromRegroups(runs1, p.rest);
  }

  /** The whole pass cuts its input into consecutive non-empty runs and
      folds each run into its first token: every output token keeps the
      `lang` and `pos` of the token that absorbed the others. */
  lemma {:induction false} MergeIsRegrouping(ts: seq<Token>) returns (runs: seq<seq<Token>>)
    requires AllReady(ts)
    ensures NonEmptyRuns(runs)
    ensures Flatten(runs) == ts
    ensures MergeTokens(ts) == Regroup(runs)
  {
    assert Regroup([]) == [];
    runs := MergeFromRegroups([], ts);
  }

  lemma {:induction false} RegroupKeepsText(runs: seq<seq<Token>>)
    requires NonEmptyRuns(runs)
    ensures Flatten(Words(Regroup(runs))) == Flatten(Words(Flatten(runs)))
    ensures Flatten(PhoneLists(Regroup(runs))) == Flatten(PhoneLists(Flatten(runs)))
    decreases |runs|
  {
    if |runs| > 0 {
      var head, tail := runs[0], Flatten(runs[1..]);
      var r := Regroup(runs);
      RegroupKeepsText(runs[1..]);
      assert r == [Combine(head)] + Regroup(runs[1..]);
      CombineText(head);
      WordsAppend([Combine(head)], Regroup(runs[1..]));
      WordsAppend(head, tail);
      FlattenAppend(Words([Combine(head)]), Words(Regroup(runs[1..])));
      FlattenAppend(PhoneLists([Combine(head)]), PhoneLists(Regroup(runs[1..])));
      FlattenAppend(Words(head), Words(tail));
      FlattenAppend(PhoneLists(head), PhoneLists(tail));
      FlattenSingleton(Combine(head).word);
      FlattenSingleton(Combine(head).phones);
    }
  }

  /** `_merge` loses, duplicates and reorders nothing: the concatenation of
      all words, and of all phone lists, is unchanged. */
  lemma {:induction false} MergeKeepsText(ts: seq<Token>)
    requires AllReady(ts)
    ensures Flatten(Words(MergeTokens(ts))) == Flatten(Words(ts))
    ensures Flatten(PhoneLists(MergeTokens(ts))) == Flatten(PhoneLists(ts))
  {
    var runs := MergeIsRegrouping(ts);
    RegroupKeepsText(runs);
  }

  lemma {:induction false} RunsAtMostLength(runs: seq<seq<Token>>)
    requires NonEmptyRuns(runs)
    ensures |runs| <= |Flatten(runs)|
  {
    if |runs| > 0 {
      RunsAtMostLength(runs[1..]);
    }
  }

  /** `_merge` never returns more tokens than it received. */
  lemma {:induction false} MergeNeverGrows(ts: seq<Token>)
    requires AllReady(ts)
    ensures |MergeTokens(ts)| <= |ts|
  {
    var runs := MergeIsRegrouping(ts);
    RunsAtMostLength(runs);
  }

  predicate AllAligned(ts: seq<Token>) {
    forall k :: 0 <= k < |ts| ==> Aligned(ts[k])
  }

  lemma {:induction false} CombineAligned(run: seq<Token>)
    requires |run| > 0 && AllAligned(run)
    ensures Aligned(Combine(run))
    decreases |run|
  {
    if |run| > 1 {
      CombineAligned(DropLast(run));
      PushBackAligned(Combine(DropLast(run)), Last(run));
    }
  }

  lemma {:induction false} FlattenMembers(runs: seq<seq<Token>>, k: nat, j: nat)
    requires k < |runs| && j < |runs[k]|
    ensures runs[k][j] in Flatten(runs)
    decreases k
  {
    if k > 0 {
      FlattenMembers(runs[1..], k - 1, j);
    }
  }

  /** When every input token has one syllable per character, so does every
      merged token. */
  lemma {:induction false} MergeKeepsAlignment(ts: seq<Token>)
    requires AllReady(ts) && AllAligned(ts)
    ensures AllAligned(MergeTokens(ts))
  {
    var runs := MergeIsRegrouping(ts);
    forall k | 0 <= k < |runs|
      ensures Aligned(Combine(runs[k]))
    {
      forall j | 0 <= j < |runs[k]|
        ensures Aligned(runs[k][j])
      {
        FlattenMembers(runs, k, j);
      }
      CombineAligned(runs[k]);
    }
  }

  /** Every Chinese token has one syllable per character. */
  predicate ChineseAligned(ts: seq<Token>) {
    forall k :: 0 <= k < |ts| ==> ts[k].lang == ZH ==> Aligned(ts[k])
  }

  /** A non-Chinese token right after a 一 has one phone per character: rule
      4 can glue such a token onto a Chinese one. */
  predicate AfterYiAligned(ts: seq<Token>) {
    forall k :: 0 <= k < |ts| - 1 && ts[k].word == "一" && ts[k + 1].lang != ZH ==> Aligned(ts[k + 1])
  }

  /** The tail of the input keeps both alignment properties. */
  lemma {:induction false} SuffixAligned(rest: seq<Token>, n: nat)
    requires n <= |rest| && ChineseAligned(rest) && AfterYiAligned(rest)
    ensures ChineseAligned(rest[n..]) && AfterYiAligned(rest[n..])
  {
    assert forall k :: 0 <= k < |rest[n..]| ==> rest[n..][k] == rest[k + n];
  }

  /** The last output token grown by the absorbed tokens stays aligned. */
  lemma {:induction false} AbsorbedAligned(out: seq<Token>, rest: seq<Token>)
    requires |out| > 0 ==> MergeReady(Last(out))
    requires AllReady(rest) && |rest| > 0
    requires ChineseAligned(out) && ChineseAligned(rest) && AfterYiAligned(rest)
    requires Step(out, rest).absorbed > 0
    ensures |out| > 0 && Last(out).lang == ZH
    ensures Step(out, rest).absorbed == 1 ==> Aligned(PushBack(Last(out), rest[0]))
    ensures Step(out, rest).absorbed == 2 ==> Aligned(PushBack(PushBack(Last(out), rest[0]), rest[1]))
  {
    var r := Step(out, rest);
    var last := Last(out);
    assert last.lang == ZH && rest[0].lang == ZH;
    assert last == out[|out| - 1] && Aligned(last) && Aligned(rest[0]);
    PushBackAligned(last, rest[0]);
    if r.absorbed == 2 {
      assert rest[0].word == "一";
      assert Aligned(rest[1]);
      PushBackAligned(PushBack(last, rest[0]), rest[1]);
    }
  }

  lemma {:induction false} StepKeepsChineseAligned(out: seq<Token>, rest: seq<Token>)
    requires |out| > 0 ==> MergeReady(Last(out))
    requires AllReady(rest) && |rest| > 0
    requires ChineseAligned(out) && ChineseAligned(rest) && AfterYiAligned(rest)
    ensures ChineseAligned(Step(out, rest).out)
    ensures ChineseAligned(Step(out, rest).rest) && AfterYiAligned(Step(out, rest).rest)
  {
    var r := Step(out, rest);
    if r.absorbed == 0 {
      assert r.out == out + [rest[0]];
    } else {
      AbsorbedAligned(out, rest);
      assert Aligned(Last(r.out));
      assert forall k :: 0 <= k < |out| - 1 ==> r.out[k] == out[k];
    }
    SuffixAligned(rest, Taken(r.absorbed));
  }

  lemma {:induction false} MergeFromChineseAligned(out: seq<Token>, rest: seq<Token>)
    requires |out| > 0 ==> MergeReady(Last(out))
    requires AllReady(rest)
    requires ChineseAligned(out) && ChineseAligned(rest) && AfterYiAligned(rest)
    ensures ChineseAligned(MergeFrom(out, rest))
    decreases |rest|
  {
    if |rest| > 0 {
      var p := Step(out, rest);
      StepKeepsChineseAligned(out, rest);
      MergeFromChineseAligned(p.out, p.rest);
    }
  }

  /** Chinese tokens keep one syllable per character through `_merge` as
      long as every Chinese token, and every non-Chinese token right after a
      一, has it on input. */
  lemma {:induction false} MergeKeepsChineseAlignment(ts: seq<Token>)
    requires AllReady(ts) && ChineseAligned(ts) && AfterYiAligned(ts)
    ensures ChineseAligned(MergeTokens(ts))
  {
    MergeFromChineseAligned([], ts);
  }

  /** A token is kept as its own element whenever it or the previous output
      token is not Chinese. */
  lemma {:induction false} NonChineseStandsAlone(out: seq<Token>, rest: seq<Token>)
    requires |out| > 0 ==> MergeReady(Last(out))
    requires AllReady(rest) && |rest| > 0
    requires |out| == 0 || Last(out).lang != ZH || rest[0].lang != ZH
    ensures MergeFrom(out, rest) == MergeFrom(out + [rest[0]], rest[1..])
  {
  }
}

=== FILE: token.dfy ===
/** The `Token` record of g2p_mix/token.py with value semantics: every
    "mutating" method returns a new token instead of changing the old one. */
module Tokens {
  import opened Common

  /** The `lang` tags the pipeline uses. */
  datatype Lang = ZH | EN | NUM | SYM

  /** `word` is the surface text, `phones` one syllable string per character
      for Chinese (each ending in its tone digit), the English phonemes for EN,
      and the text itself for numbers and symbols. */
  datatype Token = Token(word: string, lang: Lang, pos: Option<string>, phones: seq<string>)

  /** The Chinese-token invariant: one non-empty syllable per character. */
  predicate Aligned(t: Token) {
    && |t.phones| == |t.word|
    && forall k :: 0 <= k < |t.phones| ==> |t.phones[k]| > 0
  }

  /** `Token.__init__`: English tokens drop their tag and take the English
      converter's phonemes; every other token keeps its tag and falls back to
      `[word]` when no (or an empty) phone list is given. */
  function NewToken(word: string, lang: Lang, pos: Option<string>, phones: Option<seq<string>>,
                    convertEn: string -> seq<string>): (t: Token)
    ensures t.word == word && t.lang == lang
    ensures lang == EN ==> t.pos == None && t.phones == convertEn(word)
    ensures lang != EN ==> t.pos == pos && |t.phones| > 0
    ensures lang != EN && (phones == None || phones == Some([])) ==> t.phones == [word]
    ensures lang != EN && (phones == None || phones == Some([])) ==> (Aligned(t) <==> |word| == 1)
    ensures lang != EN && phones.Some? && phones.value != [] ==> t.phones == phones.value
  {
    if lang == EN then Token(word, lang, None, convertEn(word))
    else
      var ps := if phones.None? || phones.value == [] then [word] else phones.value;
      Token(word, lang, pos, ps)
  }

  /** Python's list index: a negative `i` counts from the end. */
  function PyIndex(n: nat, i: int): int {
    if i < 0 then n + i else i
  }

  /** What `tone(i)` needs to avoid an IndexError: a Chinese token whose
      syllable at `i` exists must have a non-empty syllable there. */
  predicate ToneReadable(t: Token, i: int) {
    t.lang == ZH && i < |t.phones| ==>
      0 <= PyIndex(|t.phones|, i) && |t.phones[PyIndex(|t.phones|, i)]| > 0
  }

  /** `Token.tone`: `-1` (here `None`) for a non-Chinese token or an index
      past the end; otherwise the last character of the syllable. */
  function Tone(t: Token, i: int): (r: Option<char>)
    requires ToneReadable(t, i)
    ensures r.Some? <==> t.lang == ZH && i < |t.phones|
    ensures r.Some? ==> r.value == Last(t.phones[PyIndex(|t.phones|, i)])
  {
    if t.lang != ZH || i >= |t.phones| then None
    else Some(Last(t.phones[PyIndex(|t.phones|, i)]))
  }

  /** `phones[i][:-1] + tone`: the syllable with its tone character replaced. */
  function SetTone(syl: string, tone: char): (r: string)
    ensures |r| > 0 && Last(r) == tone && DropLast(r) == DropLast(syl)
  {
    DropLast(syl) + [tone]
  }

  /** `Token.sandhi`: rewrites the tone character of syllable `i` and
      nothing else. */
  function Sandhi(t: Token, tone: char, i: nat): (r: Token)
    requires i < |t.phones|
    ensures r.word == t.word && r.lang == t.lang && r.pos == t.pos
    ensures |r.phones| == |t.phones|
    ensures forall j :: 0 <= j < |t.phones| && j != i ==> r.phones[j] == t.phones[j]
    ensures |r.phones[i]| > 0 && Last(r.phones[i]) == tone
    ensures DropLast(r.phones[i]) == DropLast(t.phones[i])
    ensures t.lang == ZH ==> Tone(r, i) == Some(tone)
    ensures Aligned(t) ==> Aligned(r)
  {
    t.(phones := t.phones[i := SetTone(t.phones[i], tone)])
  }

  /** Writing the same tone twice is the same as writing it once. */
  lemma {:induction false} SandhiIdempotent(t: Token, tone: char, i: nat)
    requires i < |t.phones|
    ensures Sandhi(Sandhi(t, tone, i), tone, i) == Sandhi(t, tone, i)
  {
    var once := Sandhi(t, tone, i);
    assert DropLast(once.phones[i]) + [tone] == once.phones[i];
  }

  /** `Token.push_back`: text and syllables grow together in one step. */
  function PushBack(t: Token, u: Token): (r: Token)
    ensures r.lang == t.lang && r.pos == t.pos
    ensures r.word == t.word + u.word && r.phones == t.phones + u.phones
  {
    t.(word := t.word + u.word, phones := t.phones + u.phones)
  }

  /** `Token.push_front`: the mirror image of `push_back`. */
  function PushFront(t: Token, u: Token): (r: Token)
    ensures r.lang == t.lang && r.pos == t.pos
    ensures r.word == u.word + t.word && r.phones == u.phones + t.phones
  {
    t.(word := u.word + t.word, phones := u.phones + t.phones)
  }

  /** Because both fields change in the same call, alignment survives. */
  lemma {:induction false} PushBackAligned(t: Token, u: Token)
    requires Aligned(t) && Aligned(u)
    ensures Aligned(PushBack(t, u))
  {
    var r := PushBack(t, u);
    forall k | 0 <= k < |r.phones|
      ensures |r.phones[k]| > 0
    {
      if k >= |t.phones| {
        assert r.phones[k] == u.phones[k - |t.phones|];
      }
    }
  }

  lemma {:induction false} PushFrontAligned(t: Token, u: Token)
    requires Aligned(t) && Aligned(u)
    ensures Aligned(PushFront(t, u))
  {
    var r := PushFront(t, u);
    forall k | 0 <= k < |r.phones|
      ensures |r.phones[k]| > 0
    {
      if k >= |u.phones| {
        assert r.phones[k] == t.phones[k - |u.phones|];
      }
    }
  }

  /** `push_front` onto `t` builds the same text and syllables as `push_back`
      onto `u`; only the tags come from the receiver. */
  lemma {:induction false} PushFrontMirrorsPushBack(t: Token, u: Token)
    ensures PushFront(t, u) == PushBack(u, t).(lang := t.lang, pos := t.pos)
  {
  }
}

=== FILE: tokenizer.dfy ===
/** The mixed-script scanner of g2p_mix/tokenizer.py: the four-way regular
    expression of `Tokenizer.pattern` read left to right as `re.finditer`
    does, the language classifier `get_language`, and the bookkeeping of
    `posseg_cut`.  Unicode classes that Python computes from its tables
    (`\d`, `\s`, `str.isdigit`, `str.isalnum`) are abstract predicates; the
    Han block U+4E00..U+9FFF and `[a-zA-Z]` are written out. */
module Tokenizer {
  import opened Common
  import opened Tokens

  /** The character classes Python takes from the Unicode database. */
  datatype CharClasses = CharClasses(
    isDecimal: char -> bool,  // `\d` in a `str` pattern
    isDigit: char -> bool,    // `str.isdigit` on one character
    isAlnum: char -> bool,    // `str.isalnum` on one character
    isSpace: char -> bool)    // `\s` in a `str` pattern

  /** `[一-鿿]` */
  predicate IsHan(c: char) {
    '一' <= c <= '鿿'
  }

  /** `[a-zA-Z]` */
  predicate IsAsciiLetter(c: char) {
    'a' <= c <= 'z' || 'A' <= c <= 'Z'
  }

  /** `\w`: CPython's `re` counts alphanumerics and the underscore. */
  predicate IsWordChar(cc: CharClasses, c: char) {
    cc.isAlnum(c) || c == '_'
  }

  /** The facts about the Unicode tables that the proofs rely on. */
  predicate WellFormed(cc: CharClasses) {
    && (forall c :: cc.isDecimal(c) ==> cc.isDigit(c))
    && (forall c :: cc.isDigit(c) ==> cc.isAlnum(c))
    && (forall c :: IsHan(c) ==> cc.isAlnum(c) && !cc.isDecimal(c))
    && (forall c :: IsAsciiLetter(c) ==> cc.isAlnum(c) && !cc.isDecimal(c))
    && (forall c :: '0' <= c <= '9' ==> cc.isDecimal(c))
    && !cc.isAlnum('\'') && !cc.isSpace('\'')
  }

  /** Which alternative of the pattern produced a match: group 1 (Chinese),
      2 (digits), 3 (one symbol) or 4 (an English word). */
  datatype Kind = Han | Digits | Punct | Letters

  /** A match `s[start..end]` of the given alternative. */
  datatype Span = Span(start: nat, end: nat, kind: Kind)

  /** The end of the longest run of characters satisfying `p` from `i`
      (a greedy `+` or `*`). */
  function RunEnd(s: string, i: nat, p: char -> bool): (j: nat)
    requires i <= |s|
    ensures i <= j <= |s|
    ensures forall k :: i <= k < j ==> p(s[k])
    ensures j == |s| || !p(s[j])
    decreases |s| - i
  {
    if i == |s| || !p(s[i]) then i else RunEnd(s, i + 1, p)
  }

  /** `[a-zA-Z]+(?:'[a-zA-Z]+)?` from a letter at `i`: the greedy letter run,
      then the apostrophe group only when a letter follows the apostrophe. */
  function LettersEnd(s: string, i: nat): (j: nat)
    requires i < |s| && IsAsciiLetter(s[i])
    ensures i < j <= |s|
  {
    var j1 := RunEnd(s, i, IsAsciiLetter);
    if j1 + 1 < |s| && s[j1] == '\'' && IsAsciiLetter(s[j1 + 1]) then RunEnd(s, j1 + 1, IsAsciiLetter)
    else j1
  }

  /** The first alternative of the pattern that matches at `i`, if any. */
  function MatchAt(cc: CharClasses, s: string, i: nat): (r: Option<Span>)
    requires i < |s|
    ensures r.Some? ==> r.value.start == i && i < r.value.end <= |s|
  {
    if IsHan(s[i]) then Some(Span(i, RunEnd(s, i, IsHan), Han))
    else if cc.isDecimal(s[i]) then Some(Span(i, RunEnd(s, i, cc.isDecimal), Digits))
    else if !IsWordChar(cc, s[i]) && !cc.isSpace(s[i]) then Some(Span(i, i + 1, Punct))
    else if IsAsciiLetter(s[i]) then Some(Span(i, LettersEnd(s, i), Letters))
    else None
  }

  /** A character no alternative can start with, which `finditer` steps over:
      whitespace, the underscore, and letters outside `[a-zA-Z]` and the Han
      block. */
  predicate Skippable(cc: CharClasses, c: char) {
    !IsHan(c) && !cc.isDecimal(c) && !IsAsciiLetter(c) && (IsWordChar(cc, c) || cc.isSpace(c))
  }

  predicate AllSatisfy(s: string, p: char -> bool) {
    forall k :: 0 <= k < |s| ==> p(s[k])
  }

  /** The shape of an English word: letters, optionally one apostrophe with
      letters on both sides. */
  predicate LettersShape(w: string) {
    || (|w| > 0 && AllSatisfy(w, IsAsciiLetter))
    || exists a :: 0 < a < |w| - 1 && w[a] == '\''
         && AllSatisfy(w[..a], IsAsciiLetter) && AllSatisfy(w[a + 1..], IsAsciiLetter)
  }

  /** The greedy end of `[a-zA-Z]+(?:'[a-zA-Z]+)?` at `end`: no letter
      follows, and a match of letters alone is not followed by an apostrophe
      and a letter, since the optional group would have taken them. */
  predicate LettersMaximal(s: string, start: nat, end: nat)
    requires start <= end <= |s|
  {
    && (end == |s| || !IsAsciiLetter(s[end]))
    && (AllSatisfy(s[start..end], IsAsciiLetter) ==>
          !(end + 1 < |s| && s[end] == '\'' && IsAsciiLetter(s[end + 1])))
  }

  /** What each alternative matches, and that runs are taken to their
      right-hand end. */
  predicate SpanOk(cc: CharClasses, s: string, sp: Span) {
    sp.start < sp.end <= |s| &&
    match sp.kind
      case Han => AllSatisfy(s[sp.start..sp.end], IsHan) && (sp.end == |s| || !IsHan(s[sp.end]))
      case Digits =>
        AllSatisfy(s[sp.start..sp.end], cc.isDecimal) && (sp.end == |s| || !cc.isDecimal(s[sp.end]))
      case Punct => sp.end == sp.start + 1 && !IsWordChar(cc, s[sp.start]) && !cc.isSpace(s[sp.start])
      case Letters => LettersShape(s[sp.start..sp.end]) && LettersMaximal(s, sp.start, sp.end)
  }

  lemma {:induction false} LettersEndShape(s: string, i: nat)
    requires i < |s| && IsAsciiLetter(s[i])
    ensures LettersShape(s[i..LettersEnd(s, i)])
    ensures LettersMaximal(s, i, LettersEnd(s, i))
  {
    var j1 := RunEnd(s, i, IsAsciiLetter);
    var j := LettersEnd(s, i);
    var w := s[i..j];
    if j1 + 1 < |s| && s[j1] == '\'' && IsAsciiLetter(s[j1 + 1]) {
      var a := j1 - i;
      assert w[a] == '\'';
      assert w[..a] == s[i..j1];
      assert w[a + 1..] == s[j1 + 1..j];
      assert !AllSatisfy(w, IsAsciiLetter);
    } else {
      assert AllSatisfy(w, IsAsciiLetter);
    }
  }

  lemma {:induction false} MatchAtOk(cc: CharClasses, s: string, i: nat)
    requires i < |s|
    ensures MatchAt(cc, s, i).Some? <==> !Skippable(cc, s[i])
    ensures MatchAt(cc, s, i).Some? ==> SpanOk(cc, s, MatchAt(cc, s, i).value)
  {
    if !IsHan(s[i]) && !cc.isDecimal(s[i]) && !(!IsWordChar(cc, s[i]) && !cc.isSpace(s[i])) && IsAsciiLetter(s[i]) {
      LettersEndShape(s, i);
    }
  }

  /** An English match that starts at he've takes the whole contraction: no
      shorter span meets what the pattern promises. */
  lemma {:induction false} ContractionIsOneMatch(cc: CharClasses, sp: Span)
    requires sp.start == 0 && sp.kind == Letters && SpanOk(cc, "he've", sp)
    ensures sp.end == 5
  {
  }

  /** `re.finditer` over `s` from `i`: the match found at the first position
      where an alternative matches, then the search resumes at its end. */
  function Scan(cc: CharClasses, s: string, i: nat): (spans: seq<Span>)
    requires i <= |s|
    ensures forall k :: 0 <= k < |spans| ==> i <= spans[k].start && SpanOk(cc, s, spans[k])
    ensures forall k :: 0 <= k < |spans| - 1 ==> spans[k].end <= spans[k + 1].start
    decreases |s| - i
  {
    if i == |s| then []
    else
      MatchAtOk(cc, s, i);
      match MatchAt(cc, s, i)
      case None => Scan(cc, s, i + 1)
      case Some(sp) => [sp] + Scan(cc, s, sp.end)
  }

  /** Position `j` lies inside one of the spans. */
  predicate Covered(spans: seq<Span>, j: nat) {
    exists k :: 0 <= k < |spans| && spans[k].start <= j < spans[k].end
  }

  /** Every span character is a character some alternative accepts. */
  lemma {:induction false} SpanCharsNotSkippable(cc: CharClasses, s: string, sp: Span, j: nat)
    requires WellFormed(cc) && SpanOk(cc, s, sp) && sp.start <= j < sp.end
    ensures !Skippable(cc, s[j])
  {
    var w := s[sp.start..sp.end];
    assert w[j - sp.start] == s[j];
    match sp.kind
    case Han =>
    case Digits =>
    case Punct =>
    case Letters =>
      if !(|w| > 0 && AllSatisfy(w, IsAsciiLetter)) {
        var a :| 0 < a < |w| - 1 && w[a] == '\''
          && AllSatisfy(w[..a], IsAsciiLetter) && AllSatisfy(w[a + 1..], IsAsciiLetter);
        var d := j - sp.start;
        if d < a {
          assert w[..a][d] == s[j];
        } else if d > a {
          assert w[a + 1..][d - a - 1] == s[j];
        }
      }
  }

  lemma {:induction false} CoveredCons(sp: Span, rest: seq<Span>, j: nat)
    ensures Covered([sp] + rest, j) <==> sp.start <= j < sp.end || Covered(rest, j)
  {
    var spans := [sp] + rest;
    if Covered(rest, j) {
      var k :| 0 <= k < |rest| && rest[k].start <= j < rest[k].end;
      assert spans[k + 1] == rest[k];
    }
    if Covered(spans, j) && !(sp.start <= j < sp.end) {
      var k :| 0 <= k < |spans| && spans[k].start <= j < spans[k].end;
      assert rest[k - 1] == spans[k];
    }
  }

  /** The spans miss exactly the skippable characters: whitespace, `_`, and
      letters the pattern does not name. */
  lemma {:induction false} ScanCoverage(cc: CharClasses, s: string, i: nat, j: nat)
    requires WellFormed(cc) && i <= j < |s|
    ensures Covered(Scan(cc, s, i), j) <==> !Skippable(cc, s[j])
    decreases |s| - i
  {
    var spans := Scan(cc, s, i);
    MatchAtOk(cc, s, i);
    match MatchAt(cc, s, i)
    case None =>
      if j > i {
        ScanCoverage(cc, s, i + 1, j);
      } else {
        assert forall k :: 0 <= k < |spans| ==> i < spans[k].start;
      }
    case Some(sp) =>
      var rest := Scan(cc, s, sp.end);
      CoveredCons(sp, rest, j);
      if j < sp.end {
        SpanCharsNotSkippable(cc, s, sp, j);
      } else {
        ScanCoverage(cc, s, sp.end, j);
      }
  }

  /** What may stand just before position `i` of a scan: a run of Chinese
      characters or of digits never continues leftwards into it. */
  predicate LeftClosed(cc: CharClasses, s: string, i: nat)
    requires i <= |s|
  {
    i == 0 || i == |s| || ((!IsHan(s[i - 1]) || !IsHan(s[i])) && (!cc.isDecimal(s[i - 1]) || !cc.isDecimal(s[i])))
  }

  /** A span's left neighbour, if any, is not of its own run class. */
  predicate LeftMaximal(cc: CharClasses, s: string, sp: Span)
    requires sp.start <= |s|
  {
    sp.start == 0 ||
    ((sp.kind == Han ==> !IsHan(s[sp.start - 1])) && (sp.kind == Digits ==> !cc.isDecimal(s[sp.start - 1])))
  }

  /** An English word ends in a letter. */
  lemma {:induction false} LettersShapeEndsInLetter(w: string)
    requires LettersShape(w)
    ensures |w| > 0 && IsAsciiLetter(w[|w| - 1])
  {
    if !(|w| > 0 && AllSatisfy(w, IsAsciiLetter)) {
      var a :| 0 < a < |w| - 1 && w[a] == '\''
        && AllSatisfy(w[..a], IsAsciiLetter) && AllSatisfy(w[a + 1..], IsAsciiLetter);
      assert w[a + 1..][|w| - a - 2] == w[|w| - 1];
    }
  }

  /** Where a span ends, no run of its neighbour's class is cut in two. */
  lemma {:induction false} SpanEndLeftClosed(cc: CharClasses, s: string, sp: Span)
    requires WellFormed(cc) && SpanOk(cc, s, sp)
    ensures LeftClosed(cc, s, sp.end)
  {
    var e := sp.end;
    var w := s[sp.start..e];
    assert w[e - 1 - sp.start] == s[e - 1];
    if sp.kind == Letters {
      LettersShapeEndsInLetter(w);
    }
  }

  /** Runs of Chinese characters and of digits are taken whole: no span of
      either kind starts in the middle of a run. */
  lemma {:induction false} ScanLeftMaximal(cc: CharClasses, s: string, i: nat)
    requires WellFormed(cc) && i <= |s| && LeftClosed(cc, s, i)
    ensures forall k :: 0 <= k < |Scan(cc, s, i)| ==> LeftMaximal(cc, s, Scan(cc, s, i)[k])
    decreases |s| - i
  {
    if i < |s| {
      var spans := Scan(cc, s, i);
      MatchAtOk(cc, s, i);
      match MatchAt(cc, s, i)
      case None =>
        ScanLeftMaximal(cc, s, i + 1);
      case Some(sp) =>
        SpanEndLeftClosed(cc, s, sp);
        ScanLeftMaximal(cc, s, sp.end);
        var rest := Scan(cc, s, sp.end);
        assert spans == [sp] + rest;
        forall k | 0 <= k < |spans|
          ensures LeftMaximal(cc, s, spans[k])
        {
          if k > 0 {
            assert spans[k] == rest[k - 1];
          }
        }
    }
  }

  /** One `(text, tag)` pair. */
  datatype Pair = Pair(text: string, tag: string)

  /** The tag of each alternative; `lettersTag` is "en" in g2p_mix/tokenizer.py
      and "eng" in `utils.segment`. */
  function TagOf(k: Kind, lettersTag: string): string {
    match k
    case Han => "zh"
    case Digits => "m"
    case Punct => "x"
    case Letters => lettersTag
  }

  function SpanPairs(s: string, spans: seq<Span>, lettersTag: string): (r: seq<Pair>)
    requires forall k :: 0 <= k < |spans| ==> spans[k].start <= spans[k].end <= |s|
    ensures |r| == |spans|
    ensures forall k :: 0 <= k < |r| ==>
              r[k] == Pair(s[spans[k].start..spans[k].end], TagOf(spans[k].kind, lettersTag))
  {
    if |spans| == 0 then []
    else [Pair(s[spans[0].start..spans[0].end], TagOf(spans[0].kind, lettersTag))]
         + SpanPairs(s, spans[1..], lettersTag)
  }

  /** `Tokenizer.tokenize`: one pair per match, in order.  The pattern has
      four groups and exactly one of them is set per match, so the inner
      loop appends exactly one pair. */
  function Tokenize(cc: CharClasses, text: string): (pairs: seq<Pair>)
    ensures |pairs| == |Scan(cc, text, 0)|
    ensures forall k :: 0 <= k < |pairs| ==> |pairs[k].text| > 0
    ensures forall k :: 0 <= k < |pairs| ==> pairs[k].tag in {"zh", "m", "x", "en"}
  {
    SpanPairs(text, Scan(cc, text, 0), "en")
  }

  /** A text made only of Chinese characters comes back as one "zh" pair. */
  lemma {:induction false} AllHanIsOneSpan(cc: CharClasses, text: string)
    requires |text| > 0 && AllSatisfy(text, IsHan)
    ensures Tokenize(cc, text) == [Pair(text, "zh")]
  {
    var e := RunEnd(text, 0, IsHan);
    assert e == |text|;
    assert Scan(cc, text, e) == [];
    assert Scan(cc, text, 0) == [Span(0, |text|, Han)];
    assert text[0..|text|] == text;
  }

  /** An apostrophe that does not sit between two letters of an English
      word is a symbol of its own. */
  lemma {:induction false} LoneApostropheIsSymbol(cc: CharClasses, s: string, i: nat)
    requires WellFormed(cc) && i < |s| && s[i] == '\''
    ensures MatchAt(cc, s, i) == Some(Span(i, i + 1, Punct))
  {
    assert !cc.isDigit('\'');
  }

  /** An English word holds letters and apostrophes only. */
  lemma {:induction false} LettersShapeChars(w: string, k: nat)
    requires LettersShape(w) && k < |w|
    ensures IsAsciiLetter(w[k]) || w[k] == '\''
  {
    if !(|w| > 0 && AllSatisfy(w, IsAsciiLetter)) {
      var a :| 0 < a < |w| - 1 && w[a] == '\''
        && AllSatisfy(w[..a], IsAsciiLetter) && AllSatisfy(w[a + 1..], IsAsciiLetter);
      if k < a {
        assert w[..a][k] == w[k];
      } else if k > a {
        assert w[a + 1..][k - a - 1] == w[k];
      }
    }
  }

  /** A Chinese span's text is all Chinese; every other span has none. */
  lemma {:induction false} SpanHanChars(cc: CharClasses, s: string, sp: Span)
    requires WellFormed(cc) && SpanOk(cc, s, sp)
    ensures HanChars(s[sp.start..sp.end]) == if sp.kind == Han then s[sp.start..sp.end] else ""
  {
    var w := s[sp.start..sp.end];
    if sp.kind == Han {
      HanCharsKeeps(w);
    } else {
      forall k | 0 <= k < |w|
        ensures !IsHan(w[k])
      {
        match sp.kind
        case Digits => assert cc.isDecimal(w[k]);
        case Punct => assert w[k] == s[sp.start];
        case Letters => LettersShapeChars(w, k);
      }
      HanCharsNone(w);
    }
  }

  /** The Chinese characters of a string, in order. */
  function HanChars(w: string): (r: string)
    ensures |r| <= |w|
    ensures AllSatisfy(r, IsHan)
  {
    if |w| == 0 then ""
    else (if IsHan(w[0]) then [w[0]] else "") + HanChars(w[1..])
  }

  lemma {:induction false} HanCharsKeeps(w: string)
    requires AllSatisfy(w, IsHan)
    ensures HanChars(w) == w
  {
    if |w| > 0 {
      HanCharsKeeps(w[1..]);
    }
  }

  lemma {:induction false} HanCharsNone(w: string)
    requires forall k :: 0 <= k < |w| ==> !IsHan(w[k])
    ensures HanChars(w) == ""
  {
    if |w| > 0 {
      HanCharsNone(w[1..]);
    }
  }

  lemma {:induction false} HanCharsAppend(u: string, v: string)
    ensures HanChars(u + v) == HanChars(u) + HanChars(v)
    decreases |u|
  {
    if |u| == 0 {
      assert u + v == v;
    } else {
      assert (u + v)[0] == u[0];
      assert (u + v)[1..] == u[1..] + v;
      HanCharsAppend(u[1..], v);
      var h := if IsHan(u[0]) then [u[0]] else "";
      assert HanChars(u + v) == h + HanChars(u[1..] + v);
      assert HanChars(u) == h + HanChars(u[1..]);
    }
  }

  /** The texts of the "zh" pairs, joined: `chinese_text` of `posseg_cut`. */
  function ChineseText(pairs: seq<Pair>): string
  {
    if |pairs| == 0 then ""
    else (if pairs[0].tag == "zh" then pairs[0].text else "") + ChineseText(pairs[1..])
  }

  /** Scanning and keeping the "zh" spans collects exactly the Chinese
      characters of the text, in order: no Chinese character is skipped or
      lands in a span of another kind. */
  lemma {:induction false} ScanChineseText(cc: CharClasses, s: string, i: nat, lettersTag: string)
    requires WellFormed(cc) && i <= |s| && lettersTag != "zh"
    ensures ChineseText(SpanPairs(s, Scan(cc, s, i), lettersTag)) == HanChars(s[i..])
    decreases |s| - i
  {
    if i == |s| {
      assert s[i..] == "";
    } else {
      var spans := Scan(cc, s, i);
      assert s[i..] == [s[i]] + s[i + 1..];
      MatchAtOk(cc, s, i);
      match MatchAt(cc, s, i)
      case None =>
        HanCharsAppend([s[i]], s[i + 1..]);
        assert HanChars([s[i]]) == "" by {
          assert [s[i]][1..] == "";
        }
        ScanChineseText(cc, s, i + 1, lettersTag);
      case Some(sp) =>
        var rest := Scan(cc, s, sp.end);
        assert spans[1..] == rest;
        assert s[i..] == s[i..sp.end] + s[sp.end..];
        HanCharsAppend(s[i..sp.end], s[sp.end..]);
        SpanHanChars(cc, s, sp);
        ScanChineseText(cc, s, sp.end, lettersTag);
    }
  }

  /** The external segmenters of `posseg_cut`. */
  datatype Segmenters = Segmenters(
    cut: string -> seq<Pair>,                  // jieba's `posseg.cut`: words with their flags
    seg: string -> seq<string>,                // pypinyin's `simpleseg.seg`
    cantonese: (string, string) -> seq<Pair>)  // `pos_tag(pycantonese.segment(text), tagset)`

  /** Every piece tagged with the same part of speech. */
  function Tagged(pieces: seq<string>, tag: string): (r: seq<Pair>)
    ensures |r| == |pieces|
    ensures forall k :: 0 <= k < |r| ==> r[k] == Pair(pieces[k], tag)
  {
    seq(|pieces|, k requires 0 <= k < |pieces| => Pair(pieces[k], tag))
  }

  /** One segmenter word: kept when shorter than `threshold`, otherwise
      replaced by its `seg` pieces, each carrying the word's tag.  The
      threshold is 4 in g2p_mix/tokenizer.py and 0 (always re-split) in
      `utils.posseg_cut`. */
  function Resplit(sg: Segmenters, w: Pair, threshold: nat): (r: seq<Pair>)
    ensures |w.text| < threshold ==> r == [w]
    ensures |w.text| >= threshold ==> r == Tagged(sg.seg(w.text), w.tag)
  {
    if |w.text| < threshold then [w] else Tagged(sg.seg(w.text), w.tag)
  }

  function ResplitAll(sg: Segmenters, ws: seq<Pair>, threshold: nat): seq<Pair>
  {
    if |ws| == 0 then [] else Resplit(sg, ws[0], threshold) + ResplitAll(sg, ws[1..], threshold)
  }

  /** The words one span contributes: a Chinese span goes through the
      segmenter; any other span is one word with its own tag, "x" becoming
      "PUNCT" in Cantonese mode. */
  function SpanWords(sg: Segmenters, p: Pair, jyut: bool, tagset: string, threshold: nat): (r: seq<Pair>)
    ensures p.tag != "zh" ==> r == [Pair(p.text, if jyut && p.tag == "x" then "PUNCT" else p.tag)]
  {
    if p.tag == "zh" then
      if jyut then sg.cantonese(p.text, tagset) else ResplitAll(sg, sg.cut(p.text), threshold)
    else [Pair(p.text, if jyut && p.tag == "x" then "PUNCT" else p.tag)]
  }

  function CutWords(sg: Segmenters, pairs: seq<Pair>, jyut: bool, tagset: string, threshold: nat): seq<Pair>
  {
    if |pairs| == 0 then []
    else SpanWords(sg, pairs[0], jyut, tagset, threshold) + CutWords(sg, pairs[1..], jyut, tagset, threshold)
  }

  lemma {:induction false} CutWordsAppend(sg: Segmenters, a: seq<Pair>, b: seq<Pair>, jyut: bool, tagset: string, threshold: nat)
    ensures CutWords(sg, a + b, jyut, tagset, threshold)
         == CutWords(sg, a, jyut, tagset, threshold) + CutWords(sg, b, jyut, tagset, threshold)
    decreases |a|
  {
    if |a| == 0 {
      assert a + b == b;
    } else {
      assert (a + b)[1..] == a[1..] + b;
      CutWordsAppend(sg, a[1..], b, jyut, tagset, threshold);
    }
  }

  /** A non-Chinese span reaches the word list verbatim, in its place
      between the words of the spans before and after it. */
  lemma {:induction false} NonChinesePassesThrough(sg: Segmenters, pairs: seq<Pair>, k: nat, jyut: bool, tagset: string, threshold: nat)
    requires k < |pairs| && pairs[k].tag != "zh"
    ensures CutWords(sg, pairs, jyut, tagset, threshold)
         == CutWords(sg, pairs[..k], jyut, tagset, threshold)
            + [Pair(pairs[k].text, if jyut && pairs[k].tag == "x" then "PUNCT" else pairs[k].tag)]
            + CutWords(sg, pairs[k + 1..], jyut, tagset, threshold)
  {
    assert pairs == pairs[..k] + ([pairs[k]] + pairs[k + 1..]);
    CutWordsAppend(sg, pairs[..k], [pairs[k]] + pairs[k + 1..], jyut, tagset, threshold);
    assert ([pairs[k]] + pairs[k + 1..])[1..] == pairs[k + 1..];
  }

  /** The texts of a list of pairs. */
  function Texts(ps: seq<Pair>): (r: seq<string>)
    ensures |r| == |ps|
    ensures forall k :: 0 <= k < |ps| ==> r[k] == ps[k].text
  {
    seq(|ps|, k requires 0 <= k < |ps| => ps[k].text)
  }

  lemma {:induction false} TextsAppend(a: seq<Pair>, b: seq<Pair>)
    ensures Texts(a + b) == Texts(a) + Texts(b)
  {
  }

  /** The segmenters only cut: joining their output gives back their input. */
  ghost predicate KeepsText(sg: Segmenters, tagset: string) {
    && (forall t :: Flatten(Texts(sg.cut(t))) == t)
    && (forall w :: Flatten(sg.seg(w)) == w)
    && (forall t :: Flatten(Texts(sg.cantonese(t, tagset))) == t)
  }

  lemma {:induction false} ResplitAllKeepsText(sg: Segmenters, ws: seq<Pair>, threshold: nat)
    requires forall w :: Flatten(sg.seg(w)) == w
    ensures Flatten(Texts(ResplitAll(sg, ws, threshold))) == Flatten(Texts(ws))
  {
    if |ws| > 0 {
      var head := Resplit(sg, ws[0], threshold);
      var tail := ResplitAll(sg, ws[1..], threshold);
      ResplitAllKeepsText(sg, ws[1..], threshold);
      TextsAppend(head, tail);
      FlattenAppend(Texts(head), Texts(tail));
      if |ws[0].text| < threshold {
        FlattenSingleton(ws[0].text);
      } else {
        assert Texts(head) == sg.seg(ws[0].text);
      }
      assert ws == [ws[0]] + ws[1..];
      TextsAppend([ws[0]], ws[1..]);
      FlattenAppend(Texts([ws[0]]), Texts(ws[1..]));
      FlattenSingleton(ws[0].text);
    }
  }

  /** When the segmenters only cut, the words of `posseg_cut` spell out the
      spans they came from. */
  lemma {:induction false} CutWordsKeepsText(sg: Segmenters, pairs: seq<Pair>, jyut: bool, tagset: string, threshold: nat)
    ensures KeepsText(sg, tagset) ==>
              Flatten(Texts(CutWords(sg, pairs, jyut, tagset, threshold))) == Flatten(Texts(pairs))
  {
    if |pairs| > 0 && KeepsText(sg, tagset) {
      var head := SpanWords(sg, pairs[0], jyut, tagset, threshold);
      var tail := CutWords(sg, pairs[1..], jyut, tagset, threshold);
      CutWordsKeepsText(sg, pairs[1..], jyut, tagset, threshold);
      TextsAppend(head, tail);
      FlattenAppend(Texts(head), Texts(tail));
      if pairs[0].tag == "zh" && !jyut {
        ResplitAllKeepsText(sg, sg.cut(pairs[0].text), threshold);
      } else if pairs[0].tag != "zh" {
        FlattenSingleton(pairs[0].text);
      }
      assert pairs == [pairs[0]] + pairs[1..];
      TextsAppend([pairs[0]], pairs[1..]);
      FlattenAppend(Texts([pairs[0]]), Texts(pairs[1..]));
      FlattenSingleton(pairs[0].text);
    }
  }

  /** `Tokenizer.posseg_cut` over the pairs of a scan. */
  function PossegCutPairs(sg: Segmenters, pairs: seq<Pair>, jyut: bool, tagset: string, threshold: nat): (r: (string, seq<Pair>))
    requires tagset == "universal" || tagset == "hkcancor"
  {
    (ChineseText(pairs), CutWords(sg, pairs, jyut, tagset, threshold))
  }

  /** `Tokenizer.posseg_cut`: the Chinese text for the pinyin converter and
      the tagged words.  Its `chinese_text` is exactly the Chinese characters
      of the input, in order; when the segmenters only cut, the words spell
      out every matched span. */
  function PossegCut(cc: CharClasses, sg: Segmenters, text: string, jyut: bool, tagset: string): (r: (string, seq<Pair>))
    requires WellFormed(cc)
    requires tagset == "universal" || tagset == "hkcancor"
    ensures r.0 == HanChars(text)
    ensures KeepsText(sg, tagset) ==> Flatten(Texts(r.1)) == Flatten(Texts(Tokenize(cc, text)))
  {
    var pairs := Tokenize(cc, text);
    ScanChineseText(cc, text, 0, "en");
    assert text[0..] == text;
    CutWordsKeepsText(sg, pairs, jyut, tagset, 4);
    PossegCutPairs(sg, pairs, jyut, tagset, 4)
  }

  /** `str.isdigit`: non-empty and every character a digit. */
  predicate StrIsDigit(cc: CharClasses, w: string) {
    |w| > 0 && AllSatisfy(w, cc.isDigit)
  }

  /** `str.isalnum`. */
  predicate StrIsAlnum(cc: CharClasses, w: string) {
    |w| > 0 && AllSatisfy(w, cc.isAlnum)
  }

  /** `w.replace("'", "")` */
  function RemoveApostrophes(w: string): (r: string)
    ensures |r| <= |w|
    ensures forall k :: 0 <= k < |r| ==> r[k] != '\''
  {
    if |w| == 0 then ""
    else if w[0] == '\'' then RemoveApostrophes(w[1..])
    else [w[0]] + RemoveApostrophes(w[1..])
  }

  /** Removing apostrophes keeps every other character, in order. */
  lemma {:induction false} RemoveApostrophesKeeps(w: string)
    requires forall k :: 0 <= k < |w| ==> w[k] != '\''
    ensures RemoveApostrophes(w) == w
  {
    if |w| > 0 {
      RemoveApostrophesKeeps(w[1..]);
    }
  }

  /** `Tokenizer.get_language` (and the identical `utils.get_language`):
      `isHans` stands for pypinyin's `RE_HANS.match`. */
  function GetLanguage(cc: CharClasses, isHans: string -> bool, word: string): (r: Lang)
    ensures r == ZH <==> isHans(word)
    ensures r == NUM <==> !isHans(word) && StrIsDigit(cc, word)
    ensures r == EN ==> StrIsAlnum(cc, RemoveApostrophes(word))
    ensures r == SYM ==> !StrIsDigit(cc, word) && !StrIsAlnum(cc, RemoveApostrophes(word))
  {
    if isHans(word) then ZH
    else if StrIsDigit(cc, word) then NUM
    else if StrIsAlnum(cc, RemoveApostrophes(word)) then EN
    else SYM
  }

  /** Digits are numbers, never English, even though they are alphanumeric. */
  lemma {:induction false} DigitsAreNumbers(cc: CharClasses, isHans: string -> bool, word: string)
    requires WellFormed(cc) && !isHans(word) && StrIsDigit(cc, word)
    ensures GetLanguage(cc, isHans, word) == NUM
    ensures StrIsAlnum(cc, RemoveApostrophes(word))
  {
    forall k | 0 <= k < |word|
      ensures word[k] != '\''
    {
      assert cc.isDigit(word[k]);
    }
    RemoveApostrophesKeeps(word);
  }

  /** The empty string and a lone apostrophe are symbols. */
  lemma {:induction false} EmptyAndApostropheAreSymbols(cc: CharClasses, isHans: string -> bool)
    requires WellFormed(cc) && !isHans("") && !isHans("'")
    ensures GetLanguage(cc, isHans, "") == SYM
    ensures GetLanguage(cc, isHans, "'") == SYM
  {
    assert RemoveApostrophes("'") == RemoveApostrophes("");
    assert "'"[0] == '\'';
    assert !cc.isDigit('\'');
  }

  /** A contraction such as "don't" is English when its letters are. */
  lemma {:induction false} ContractionIsEnglish(cc: CharClasses, isHans: string -> bool, a: string, b: string)
    requires WellFormed(cc) && !isHans(a + "'" + b)
    requires |a| > 0 && AllSatisfy(a, IsAsciiLetter) && AllSatisfy(b, IsAsciiLetter)
    ensures GetLanguage(cc, isHans, a + "'" + b) == EN
  {
    var w := a + "'" + b;
    assert w[|a|] == '\'' && !cc.isDigit('\'');
    RemoveApostrophesSplit(a, b);
    forall k | 0 <= k < |a + b|
      ensures cc.isAlnum((a + b)[k])
    {
      if k < |a| {
        assert IsAsciiLetter(a[k]);
      } else {
        assert IsAsciiLetter(b[k - |a|]);
      }
    }
  }

  lemma {:induction false} RemoveApostrophesAppend(u: string, v: string)
    ensures RemoveApostrophes(u + v) == RemoveApostrophes(u) + RemoveApostrophes(v)
    decreases |u|
  {
    if |u| > 0 {
      assert (u + v)[1..] == u[1..] + v;
      RemoveApostrophesAppend(u[1..], v);
    } else {
      assert u + v == v;
    }
  }

  lemma {:induction false} RemoveApostrophesSplit(a: string, b: string)
    requires AllSatisfy(a, IsAsciiLetter) && AllSatisfy(b, IsAsciiLetter)
    ensures RemoveApostrophes(a + "'" + b) == a + b
  {
    RemoveApostrophesAppend(a + "'", b);
    RemoveApostrophesAppend(a, "'");
    assert RemoveApostrophes("'") == "";
    RemoveApostrophesKeeps(a);
    RemoveApostrophesKeeps(b);
  }
}

=== FILE: tone_sandhi.dfy ===
/** The tone rules of `ToneSandhi` (g2p_mix/tone_sandhi.py) applied to one
    merged Chinese token: 不 sandhi, 一 sandhi, neutral tone and third-tone
    sandhi. Each rule only ever rewrites the tone character at the end of a
    syllable. */
module ToneSandhi {
  import opened Common
  import opened Tokens
  import opened Lexicon
  import opened Merge

  // ---------------------------------------------------------------------
  // Retoning: the one kind of change the rules make

  /** `b` is `a` with at most the tone characters of its syllables rewritten:
      same text, tag and syllable count, and every syllable keeps everything
      but its last character. */
  predicate Retoned(a: Token, b: Token) {
    && b.word == a.word && b.lang == a.lang && b.pos == a.pos
    && |b.phones| == |a.phones|
    && forall k :: 0 <= k < |a.phones| ==>
         |b.phones[k]| > 0 && DropLast(b.phones[k]) == DropLast(a.phones[k])
  }

  lemma {:induction false} RetonedRefl(t: Token)
    requires Aligned(t)
    ensures Retoned(t, t)
  {
  }

  lemma {:induction false} RetonedTrans(a: Token, b: Token, c: Token)
    requires Retoned(a, b) && Retoned(b, c)
    ensures Retoned(a, c)
  {
  }

  lemma {:induction false} RetonedAligned(a: Token, b: Token)
    requires Aligned(a) && Retoned(a, b)
    ensures Aligned(b)
  {
  }

  lemma {:induction false} SandhiRetones(t: Token, tone: char, i: nat)
    requires Aligned(t) && i < |t.phones|
    ensures Retoned(t, Sandhi(t, tone, i))
  {
  }

  // ---------------------------------------------------------------------
  // _split_word

  /** Where the shortest piece sits in the search-mode segmentation once it
      is sorted by length: Python's sort is stable, so it is the FIRST piece
      of minimal length. */
  function ShortestIndex(pieces: seq<string>): (i: nat)
    requires |pieces| > 0
    ensures i < |pieces|
    ensures forall j :: 0 <= j < |pieces| ==> |pieces[i]| <= |pieces[j]|
    ensures forall j :: 0 <= j < i ==> |pieces[j]| > |pieces[i]|
    decreases |pieces|
  {
    if |pieces| == 1 then 0
    else
      var k := ShortestIndex(pieces[1..]) + 1;
      if |pieces[0]| <= |pieces[k]| then 0 else k
  }

  function Shortest(pieces: seq<string>): string
    requires |pieces| > 0
  {
    pieces[ShortestIndex(pieces)]
  }

  /** Python's `s[:-k]`: all but the last `k` characters, and for `k == 0`
      the empty string `s[:0]`. */
  function PyDropLastN(s: string, k: nat): (r: string)
    ensures 0 < k <= |s| ==> r == s[..|s| - k]
    ensures k == 0 || k > |s| ==> r == ""
  {
    if k == 0 || k > |s| then "" else s[..|s| - k]
  }

  /** `_split_word`: the shortest piece of the search-mode segmentation
      `pieces` and the rest of the word, in word order. `word.find(first) == 0`
      holds exactly when `first` is a prefix of `word`. */
  function SplitWord(word: string, pieces: seq<string>): (r: seq<string>)
    requires |pieces| > 0
    ensures |r| == 2
    ensures r[0] == Shortest(pieces) || r[1] == Shortest(pieces)
    ensures |Shortest(pieces)| <= |word| ==> |r[0]| + |r[1]| == |word|
  {
    var first := Shortest(pieces);
    if IsPrefix(first, word) then [first, word[|first|..]]
    else [PyDropLastN(word, |first|), first]
  }

  /** The two halves spell the word exactly when the shortest piece is a
      prefix or a suffix of it; any other piece yields halves that do not. */
  lemma {:induction false} SplitWordCovers(word: string, pieces: seq<string>)
    requires |pieces| > 0
    ensures var r := SplitWord(word, pieces);
            r[0] + r[1] == word <==> IsPrefix(Shortest(pieces), word) || IsSuffix(Shortest(pieces), word)
  {
    var first := Shortest(pieces);
    var r := SplitWord(word, pieces);
    if IsPrefix(first, word) {
      assert word == word[..|first|] + word[|first|..];
    } else if IsSuffix(first, word) {
      assert |first| > 0;
      assert word == word[..|word| - |first|] + word[|word| - |first|..];
    }
  }

  // ---------------------------------------------------------------------
  // _bu_sandhi

  /** 看不懂, 去不去: a three-character word with 不 in the middle. */
  predicate IsBuFrame(w: string) {
    |w| == 3 && w[1] == '不'
  }

  /** 不 at `k` is followed by a syllable in the fourth tone. */
  predicate BuBeforeFalling(t: Token, k: nat)
    requires Aligned(t) && k < |t.word|
  {
    t.word[k] == '不' && k + 1 < |t.word| && Tone(t, k + 1) == Some('4')
  }

  /** Syllable `k` after the loop of `_bu_sandhi`, from the syllables it
      was given. */
  function BuSyllable(t: Token, k: nat): string
    requires Aligned(t) && k < |t.word|
  {
    if BuBeforeFalling(t, k) then SetTone(t.phones[k], '2') else t.phones[k]
  }

  /** What `_bu_sandhi` computes, stated position by position over the
      syllables it was given. */
  function BuReference(t: Token): (r: Token)
    requires Aligned(t)
    ensures Retoned(t, r)
    ensures forall k :: 0 <= k < |t.phones| && r.phones[k] != t.phones[k] ==> t.word[k] == '不'
  {
    if IsBuFrame(t.word) then Sandhi(t, '5', 1)
    else t.(phones := seq(|t.phones|, k requires 0 <= k < |t.phones| => BuSyllable(t, k)))
  }

  /** `_bu_sandhi` as written: one left-to-right pass that reads the tone of
      the NEXT syllable of the token being rewritten. Since the pass writes
      only behind the position it reads, it agrees with the reference. */
  method BuSandhi(t: Token) returns (r: Token)
    requires Aligned(t)
    ensures r == BuReference(t)
  {
    if IsBuFrame(t.word) {
      r := Sandhi(t, '5', 1);
      return;
    }
    r := t;
    var i := 0;
    while i < |t.word|
      invariant 0 <= i <= |t.word|
      invariant r.word == t.word && r.lang == t.lang && r.pos == t.pos
      invariant |r.phones| == |t.phones|
      invariant forall k :: 0 <= k < i ==> r.phones[k] == BuSyllable(t, k)
      invariant forall k :: i <= k < |t.phones| ==> r.phones[k] == t.phones[k]
    {
      if t.word[i] == '不' && i + 1 < |t.word| && Tone(r, i + 1) == Some('4') {
        r := Sandhi(r, '2', i);
      }
      i := i + 1;
    }
    assert r.phones == BuReference(t).phones;
  }

  // ---------------------------------------------------------------------
  // _yi_sandhi

  /** 看一看: a three-character word with 一 between two equal characters. */
  predicate IsYiFrame(w: string) {
    |w| == 3 && w[1] == '一' && w[0] == w[2]
  }

  /** The tone the loop of `_yi_sandhi` gives the 一 at `k` (`None` for any
      other character): yi1 after a digit or 万月第初 and at the end of the
      word or before 月班连楼, yi2 before a fourth tone, yi4 otherwise. */
  function YiTone(t: Token, k: nat): (r: Option<char>)
    requires Aligned(t) && k < |t.word|
    ensures r.Some? <==> t.word[k] == '一'
    ensures r.Some? ==> r.value in "124"
  {
    if t.word[k] != '一' then None
    else if k > 0 && t.word[k - 1] in OrdinalMarks then Some('1')
    else if k + 1 == |t.word| || t.word[k + 1] in CitationFollowers then Some('1')
    else if Tone(t, k + 1) == Some('4') then Some('2')
    else Some('4')
  }

  /** Syllable `k` after the loop of `_yi_sandhi`. */
  function YiSyllable(t: Token, k: nat): string
    requires Aligned(t) && k < |t.word|
  {
    match YiTone(t, k)
    case Some(c) => SetTone(t.phones[k], c)
    case None => t.phones[k]
  }

  /** What `_yi_sandhi` computes, position by position. */
  function YiReference(t: Token): (r: Token)
    requires Aligned(t)
    ensures Retoned(t, r)
    ensures forall k :: 0 <= k < |t.phones| && r.phones[k] != t.phones[k] ==> t.word[k] == '一'
    ensures !IsYiFrame(t.word) ==>
              forall k :: 0 <= k < |t.word| && t.word[k] == '一' ==> Last(r.phones[k]) in "124"
  {
    if IsYiFrame(t.word) then Sandhi(t, '5', 1)
    else
      t.(phones := seq(|t.phones|, k requires 0 <= k < |t.phones| => YiSyllable(t, k)))
  }

  /** `_yi_sandhi` as written: the sequential loop agrees with the reference. */
  method YiSandhi(t: Token) returns (r: Token)
    requires Aligned(t)
    ensures r == YiReference(t)
  {
    if IsYiFrame(t.word) {
      r := Sandhi(t, '5', 1);
      return;
    }
    r := t;
    var i := 0;
    while i < |t.word|
      invariant 0 <= i <= |t.word|
      invariant r.word == t.word && r.lang == t.lang && r.pos == t.pos
      invariant |r.phones| == |t.phones|
      invariant forall k :: 0 <= k < i ==> r.phones[k] == YiSyllable(t, k)
      invariant forall k :: i <= k < |t.phones| ==> r.phones[k] == t.phones[k]
    {
      if t.word[i] == '一' {
        var tone: char;
        if i > 0 && t.word[i - 1] in OrdinalMarks {
          tone := '1';
        } else if i + 1 == |t.word| || t.word[i + 1] in CitationFollowers {
          tone := '1';
        } else if Tone(r, i + 1) == Some('4') {
          tone := '2';
        } else {
          tone := '4';
        }
        assert YiTone(t, i) == Some(tone);
        r := Sandhi(r, tone, i);
      }
      i := i + 1;
    }
    assert r.phones == YiReference(t).phones;
  }

  /** Rewriting a syllable to the tone it already has changes nothing. */
  lemma {:induction false} SandhiKeeps(t: Token, tone: char, i: nat)
    requires i < |t.phones| && |t.phones[i]| > 0 && Last(t.phones[i]) == tone
    ensures Sandhi(t, tone, i) == t
  {
    DropLastSplit(t.phones[i]);
    assert Sandhi(t, tone, i).phones == t.phones;
  }

  // ---------------------------------------------------------------------
  // _neural_sandhi

  /** The tags under which a lone aspect marker is read in the neutral tone;
      the source compares the whole tag, not its first letter. */
  predicate AspectTag(pos: Option<string>) {
    pos == Some("n") || pos == Some("v") || pos == Some("a")
  }

  /** When a piece of the split word ends in the neutral tone: it is not
      empty and not one of the full-tone 儿 words, and it is a neutral-tone
      word, ends in a particle, or lies inside 了着过 under an n/v/a tag.
      The source's 儿/们 test compares one character with a list and is
      never true, so it adds nothing here. */
  predicate NeutralTrigger(lex: WordLists, t: Token, part: string): (b: bool)
    ensures b ==> part != "" && part !in lex.notNeutral
    ensures part != "" && part !in lex.notNeutral && (part in lex.neutral || Last(part) in Particles) ==> b
  {
    && part != "" && part !in lex.notNeutral
    && (|| part in lex.neutral
        || Last(part) in Particles
        || (IsSubstring(part, AspectMarkers) && AspectTag(t.pos)))
  }

  /** One iteration of the loop of `_neural_sandhi` as the source writes
      it: up to three tests, each rewriting the piece's last syllable (index
      `end - 1`, where `end` is the running index after the piece). */
  function NeutralPartAsWritten(lex: WordLists, t: Token, part: string, end: nat): (r: Token)
    requires Aligned(t) && |part| <= end <= |t.phones|
    ensures r == t || (end > 0 && r == Sandhi(t, '5', end - 1))
  {
    if part == "" || part in lex.notNeutral then t
    else
      var t1 := if part in lex.neutral then Sandhi(t, '5', end - 1) else t;
      var t2 := if Last(part) in Particles then Sandhi(t1, '5', end - 1) else t1;
      if IsSubstring(part, AspectMarkers) && AspectTag(t2.pos) then Sandhi(t2, '5', end - 1) else t2
  }

  /** The same iteration with the three tests folded into one. */
  function NeutralPart(lex: WordLists, t: Token, part: string, end: nat): (r: Token)
    requires Aligned(t) && |part| <= end <= |t.phones|
    ensures Aligned(r) && r.word == t.word
    ensures !NeutralTrigger(lex, t, part) ==> r == t
    ensures NeutralTrigger(lex, t, part) ==>
              && r.pos == t.pos
              && Last(r.phones[end - 1]) == '5'
              && forall k :: 0 <= k < |t.phones| && k != end - 1 ==> r.phones[k] == t.phones[k]
  {
    if NeutralTrigger(lex, t, part) then Sandhi(t, '5', end - 1) else t
  }

  /** However many of the three tests fire, the piece gets one neutral tone
      on its last syllable, and only when one of them fires. */
  lemma {:induction false} NeutralPartOnce(lex: WordLists, t: Token, part: string, end: nat)
    requires Aligned(t) && |part| <= end <= |t.phones|
    ensures NeutralPartAsWritten(lex, t, part, end) == NeutralPart(lex, t, part, end)
  {
    if part != "" && part !in lex.notNeutral {
      SandhiIdempotent(t, '5', end - 1);
    }
  }

  /** A piece retones at most its own last syllable, and only to 5. */
  lemma {:induction false} NeutralPartRetones(lex: WordLists, t: Token, part: string, end: nat)
    requires Aligned(t) && |part| <= end <= |t.phones|
    ensures var r := NeutralPart(lex, t, part, end);
            && Retoned(t, r)
            && forall k :: 0 <= k < |t.phones| && r.phones[k] != t.phones[k] ==>
                 k == end - 1 && Last(r.phones[k]) == '5'
  {
    if NeutralTrigger(lex, t, part) {
      SandhiRetones(t, '5', end - 1);
    }
  }

  /** `_neural_sandhi` on the two halves of `_split_word`. */
  function NeutralSandhi(lex: WordLists, t: Token, pieces: seq<string>): (r: Token)
    requires Aligned(t) && |pieces| > 0 && |Shortest(pieces)| <= |t.word|
    ensures Retoned(t, r)
    ensures forall k :: 0 <= k < |t.phones| && r.phones[k] != t.phones[k] ==>
              && Last(r.phones[k]) == '5'
              && ((k + 1 == |SplitWord(t.word, pieces)[0]| && NeutralTrigger(lex, t, SplitWord(t.word, pieces)[0]))
                  || (k + 1 == |t.word| && NeutralTrigger(lex, t, SplitWord(t.word, pieces)[1])))
    ensures NeutralTrigger(lex, t, SplitWord(t.word, pieces)[0]) ==>
              Last(r.phones[|SplitWord(t.word, pieces)[0]| - 1]) == '5'
    ensures NeutralTrigger(lex, t, SplitWord(t.word, pieces)[1]) ==> Last(r.phones[|t.word| - 1]) == '5'
    ensures !NeutralTrigger(lex, t, SplitWord(t.word, pieces)[0]) && !NeutralTrigger(lex, t, SplitWord(t.word, pieces)[1]) ==>
              r == t
  {
    var halves := SplitWord(t.word, pieces);
    var t1 := NeutralPart(lex, t, halves[0], |halves[0]|);
    var r := NeutralPart(lex, t1, halves[1], |halves[0]| + |halves[1]|);
    NeutralHalves(lex, t, pieces, t1, r);
    r
  }

  /** The two pieces of `_neural_sandhi` together: each retones at most its
      own last syllable, to 5, and does so exactly when its test fires. */
  lemma {:induction false} NeutralHalves(lex: WordLists, t: Token, pieces: seq<string>, t1: Token, r: Token)
    requires Aligned(t) && |pieces| > 0 && |Shortest(pieces)| <= |t.word|
    requires t1 == NeutralPart(lex, t, SplitWord(t.word, pieces)[0], |SplitWord(t.word, pieces)[0]|)
    requires r == NeutralPart(lex, t1, SplitWord(t.word, pieces)[1], |t.word|)
    ensures Retoned(t, r)
    ensures forall k :: 0 <= k < |t.phones| && r.phones[k] != t.phones[k] ==>
              && Last(r.phones[k]) == '5'
              && ((k + 1 == |SplitWord(t.word, pieces)[0]| && NeutralTrigger(lex, t, SplitWord(t.word, pieces)[0]))
                  || (k + 1 == |t.word| && NeutralTrigger(lex, t, SplitWord(t.word, pieces)[1])))
    ensures NeutralTrigger(lex, t, SplitWord(t.word, pieces)[0]) ==>
              Last(r.phones[|SplitWord(t.word, pieces)[0]| - 1]) == '5'
    ensures NeutralTrigger(lex, t, SplitWord(t.word, pieces)[1]) ==> Last(r.phones[|t.word| - 1]) == '5'
    ensures !NeutralTrigger(lex, t, SplitWord(t.word, pieces)[0]) && !NeutralTrigger(lex, t, SplitWord(t.word, pieces)[1]) ==>
              r == t
  {
    var h0, h1 := SplitWord(t.word, pieces)[0], SplitWord(t.word, pieces)[1];
    NeutralPartRetones(lex, t, h0, |h0|);
    RetonedAligned(t, t1);
    NeutralPartRetones(lex, t1, h1, |t.word|);
    RetonedTrans(t, t1, r);
    assert t1.pos == t.pos;
  }

  /** Running the neutral-tone rule twice is running it once. */
  lemma {:induction false} NeutralIdempotent(lex: WordLists, t: Token, pieces: seq<string>)
    requires Aligned(t) && |pieces| > 0 && |Shortest(pieces)| <= |t.word|
    ensures NeutralSandhi(lex, NeutralSandhi(lex, t, pieces), pieces) == NeutralSandhi(lex, t, pieces)
  {
    var h := SplitWord(t.word, pieces);
    var a, b := |h[0]|, |h[0]| + |h[1]|;
    var t1 := NeutralPart(lex, t, h[0], a);
    NeutralPartRetones(lex, t, h[0], a);
    RetonedAligned(t, t1);
    var r := NeutralPart(lex, t1, h[1], b);
    NeutralPartRetones(lex, t1, h[1], b);
    RetonedAligned(t1, r);
    assert r == NeutralSandhi(lex, t, pieces);
    if NeutralTrigger(lex, t, h[0]) {
      assert Last(t1.phones[a - 1]) == '5';
      assert Last(r.phones[a - 1]) == '5';
      SandhiKeeps(r, '5', a - 1);
    }
    assert NeutralPart(lex, r, h[0], a) == r;
    if NeutralTrigger(lex, t1, h[1]) {
      SandhiKeeps(r, '5', b - 1);
    }
    assert NeutralPart(lex, r, h[1], b) == r;
  }

  // ---------------------------------------------------------------------
  // _three_sandhi

  /** `_all_tone_three`: every syllable ends in 3 (`str.endswith`, so an
      empty syllable does not). */
  predicate AllToneThree(syls: seq<string>): (b: bool)
    ensures b <==> forall k :: 0 <= k < |syls| ==> IsSuffix("3", syls[k])
  {
    assert forall s: string :: IsSuffix("3", s) <==> |s| > 0 && Last(s) == '3' by {
      forall s: string ensures IsSuffix("3", s) <==> |s| > 0 && Last(s) == '3' {
        if |s| > 0 { assert s[|s| - 1..] == [Last(s)]; }
      }
    }
    forall k :: 0 <= k < |syls| ==> |syls[k]| > 0 && Last(syls[k]) == '3'
  }

  /** The change `_three_sandhi` may make: a third tone among the first
      three syllables turned into a second tone. */
  predicate ThreeToTwo(t: Token, r: Token) {
    && Retoned(t, r)
    && forall k :: 0 <= k < |t.phones| && r.phones[k] != t.phones[k] ==>
         k <= 2 && |t.phones[k]| > 0 && Last(t.phones[k]) == '3' && Last(r.phones[k]) == '2'
  }

  lemma {:induction false} SandhiThreeToTwo(t: Token, i: nat)
    requires Aligned(t) && i <= 2 && i < |t.phones| && Last(t.phones[i]) == '3'
    ensures ThreeToTwo(t, Sandhi(t, '2', i))
  {
  }

  /** The branch for a word whose shorter half is one character (纸/老虎,
      好/喜欢): the second syllable is looked at before the first. */
  function ThreeAfterSingle(t: Token): (r: Token)
    requires Aligned(t) && |t.word| >= 3
    ensures ThreeToTwo(t, r)
  {
    if AllToneThree(PySlice(t.phones, 1, 3)) then
      assert Last(t.phones[1]) == '3' by { assert t.phones[1] == PySlice(t.phones, 1, 3)[0]; }
      SandhiThreeToTwo(t, 1);
      Sandhi(t, '2', 1)
    else if AllToneThree(PySlice(t.phones, 0, 2)) then
      assert Last(t.phones[0]) == '3' by { assert t.phones[0] == PySlice(t.phones, 0, 2)[0]; }
      SandhiThreeToTwo(t, 0);
      Sandhi(t, '2', 0)
    else t
  }

  /** The first test of the other branch (广场/舞): syllables 0 and 1. */
  function ThreeFirst(t: Token): (r: Token)
    requires Aligned(t) && |t.word| >= 3
    ensures ThreeToTwo(t, r)
    ensures forall k :: 0 < k < |t.phones| ==> r.phones[k] == t.phones[k]
  {
    if AllToneThree(PySlice(t.phones, 0, 2)) then
      assert Last(t.phones[0]) == '3' by { assert t.phones[0] == PySlice(t.phones, 0, 2)[0]; }
      SandhiThreeToTwo(t, 0);
      Sandhi(t, '2', 0)
    else t
  }

  /** The second test: syllables 1 and 2, unless 2 and 3 also pair up
      (坎坎/坷坷). */
  function ThreeSecond(t: Token): (r: Token)
    requires Aligned(t) && |t.word| >= 3
    ensures ThreeToTwo(t, r)
    ensures forall k :: 0 <= k < |t.phones| && k != 1 ==> r.phones[k] == t.phones[k]
  {
    if AllToneThree(PySlice(t.phones, 1, 3)) && (|t.word| <= 3 || !AllToneThree(PySlice(t.phones, 2, 4))) then
      assert Last(t.phones[1]) == '3' by { assert t.phones[1] == PySlice(t.phones, 1, 3)[0]; }
      SandhiThreeToTwo(t, 1);
      Sandhi(t, '2', 1)
    else t
  }

  /** The third test (期待/已久): syllables 2 and 3 of a longer word. */
  function ThreeThird(t: Token): (r: Token)
    requires Aligned(t) && |t.word| >= 3
    ensures ThreeToTwo(t, r)
    ensures forall k :: 0 <= k < |t.phones| && k != 2 ==> r.phones[k] == t.phones[k]
  {
    if |t.word| > 3 && AllToneThree(PySlice(t.phones, 2, 4)) then
      assert Last(t.phones[2]) == '3' by { assert t.phones[2] == PySlice(t.phones, 2, 4)[0]; }
      SandhiThreeToTwo(t, 2);
      Sandhi(t, '2', 2)
    else t
  }

  lemma {:induction false} ThreeToTwoTrans(a: Token, b: Token, c: Token)
    requires ThreeToTwo(a, b) && ThreeToTwo(b, c)
    requires forall k :: 0 <= k < |a.phones| && c.phones[k] != b.phones[k] ==> b.phones[k] == a.phones[k]
    ensures ThreeToTwo(a, c)
  {
  }

  /** `_three_sandhi`: the first of two third tones becomes a second tone,
      within the first four syllables, in the order the source tests them. */
  function ThreeSandhi(t: Token, pieces: seq<string>): (r: Token)
    requires Aligned(t) && (|t.word| >= 3 ==> |pieces| > 0)
    ensures ThreeToTwo(t, r)
    ensures |t.word| == 2 && Last(t.phones[0]) == '3' && Last(t.phones[1]) == '3' ==>
              Last(r.phones[0]) == '2' && DropLast(r.phones[0]) == DropLast(t.phones[0]) && r.phones[1] == t.phones[1]
    ensures |t.word| == 2 && !(Last(t.phones[0]) == '3' && Last(t.phones[1]) == '3') ==> r == t
    ensures |t.word| >= 3 && |SplitWord(t.word, pieces)[0]| == 1 ==> r == ThreeAfterSingle(t)
    ensures |t.word| >= 3 && |SplitWord(t.word, pieces)[0]| != 1 ==> r == ThreeOther(t)
    ensures |t.word| < 2 ==> r == t
  {
    if |t.word| == 2 then
      if AllToneThree(t.phones) then
        SandhiThreeToTwo(t, 0);
        Sandhi(t, '2', 0)
      else t
    else if |t.word| >= 3 then
      if |SplitWord(t.word, pieces)[0]| == 1 then ThreeAfterSingle(t)
      else ThreeOther(t)
    else t
  }

  /** A two-syllable slice is all third tones exactly when both syllables
      end in 3; at the end of the word the slice holds one syllable. */
  lemma {:induction false} PairThree(t: Token, i: nat)
    requires Aligned(t) && i < |t.phones|
    ensures i + 1 < |t.phones| ==>
              (AllToneThree(PySlice(t.phones, i, i + 2)) <==> Last(t.phones[i]) == '3' && Last(t.phones[i + 1]) == '3')
    ensures i + 1 == |t.phones| ==>
              (AllToneThree(PySlice(t.phones, i, i + 2)) <==> Last(t.phones[i]) == '3')
  {
    var sl := PySlice(t.phones, i, i + 2);
    if i + 1 < |t.phones| {
      assert sl == [t.phones[i], t.phones[i + 1]];
    } else {
      assert sl == [t.phones[i]];
    }
  }

  /** The tones the single-character branch leaves on syllables 0 and 1;
      the rest are untouched. */
  lemma {:induction false} AfterSingleTones(t: Token)
    requires Aligned(t) && |t.word| >= 3
    ensures var r := ThreeAfterSingle(t);
            var middle := IsThree(t, 1) && IsThree(t, 2);
            && Aligned(r)
            && Last(r.phones[0]) == (if !middle && IsThree(t, 0) && IsThree(t, 1) then '2' else Last(t.phones[0]))
            && Last(r.phones[1]) == (if middle then '2' else Last(t.phones[1]))
            && forall k :: 2 <= k < |t.phones| ==> r.phones[k] == t.phones[k]
  {
    var r := ThreeAfterSingle(t);
    RetonedAligned(t, r);
    PairThree(t, 0);
    PairThree(t, 1);
  }

  /** After the single-character branch, none of its tests fires again. */
  lemma {:induction false} ThreeAfterSingleSettled(t: Token)
    requires Aligned(t) && |t.word| >= 3
    ensures ThreeAfterSingle(ThreeAfterSingle(t)) == ThreeAfterSingle(t)
  {
    var r := ThreeAfterSingle(t);
    AfterSingleTones(t);
    PairThree(r, 0);
    PairThree(r, 1);
  }

  /** The result of the branch for words whose shorter half is longer
      than one character. */
  function ThreeOther(t: Token): (r: Token)
    requires Aligned(t) && |t.word| >= 3
    ensures ThreeToTwo(t, r)
  {
    var t1 := ThreeFirst(t);
    RetonedAligned(t, t1);
    var t2 := ThreeSecond(t1);
    RetonedAligned(t1, t2);
    var t3 := ThreeThird(t2);
    ThreeToTwoTrans(t, t1, t2);
    ThreeToTwoTrans(t, t2, t3);
    t3
  }

  /** Syllable `k` carries the third tone. */
  predicate IsThree(t: Token, k: nat)
    requires Aligned(t) && k < |t.phones|
  {
    Last(t.phones[k]) == '3'
  }

  lemma {:induction false} FirstTone(t: Token)
    requires Aligned(t) && |t.word| >= 3
    ensures Last(ThreeFirst(t).phones[0]) == if IsThree(t, 0) && IsThree(t, 1) then '2' else Last(t.phones[0])
  {
    PairThree(t, 0);
  }

  lemma {:induction false} SecondTone(t: Token)
    requires Aligned(t) && |t.word| >= 3
    ensures Last(ThreeSecond(t).phones[1])
         == if IsThree(t, 1) && IsThree(t, 2) && (|t.word| <= 3 || !IsThree(t, 3)) then '2' else Last(t.phones[1])
  {
    PairThree(t, 1);
    PairThree(t, 2);
  }

  lemma {:induction false} ThirdTone(t: Token)
    requires Aligned(t) && |t.word| >= 3
    ensures Last(ThreeThird(t).phones[2])
         == if |t.word| > 3 && IsThree(t, 2) && IsThree(t, 3) then '2' else Last(t.phones[2])
  {
    PairThree(t, 2);
  }

  /** The tones the other branch leaves on syllables 0 to 2; the rest are
      untouched. */
  lemma {:induction false} ThreeOtherTones(t: Token)
    requires Aligned(t) && |t.word| >= 3
    ensures var r := ThreeOther(t);
            var four := |t.word| > 3 && IsThree(t, 2) && IsThree(t, 3);
            && Aligned(r)
            && Last(r.phones[0]) == (if IsThree(t, 0) && IsThree(t, 1) then '2' else Last(t.phones[0]))
            && Last(r.phones[1]) == (if IsThree(t, 1) && IsThree(t, 2) && !four then '2' else Last(t.phones[1]))
            && Last(r.phones[2]) == (if four then '2' else Last(t.phones[2]))
            && forall k :: 3 <= k < |t.phones| ==> r.phones[k] == t.phones[k]
  {
    var t1 := ThreeFirst(t);
    RetonedAligned(t, t1);
    var t2 := ThreeSecond(t1);
    RetonedAligned(t1, t2);
    var r := ThreeThird(t2);
    RetonedAligned(t, r);
    FirstTone(t);
    SecondTone(t1);
    ThirdTone(t2);
    assert t1.phones[1] == t.phones[1] && t1.phones[2] == t.phones[2];
    assert t2.phones[0] == t1.phones[0] && t2.phones[2] == t.phones[2];
    assert r.phones[0] == t2.phones[0] && r.phones[1] == t2.phones[1];
    if |t.word| > 3 {
      assert t2.phones[3] == t.phones[3];
    }
  }

  /** After the other branch, none of its three tests fires again. */
  lemma {:induction false} ThreeOtherNoTrigger(t: Token)
    requires Aligned(t) && |t.word| >= 3
    ensures var r := ThreeOther(t);
            && Aligned(r)
            && !(IsThree(r, 0) && IsThree(r, 1))
            && !(IsThree(r, 1) && IsThree(r, 2))
            && !(|r.word| > 3 && IsThree(r, 2) && IsThree(r, 3))
  {
    ThreeOtherTones(t);
  }

  lemma {:induction false} ThreeOtherSettled(t: Token)
    requires Aligned(t) && |t.word| >= 3
    ensures ThreeOther(ThreeOther(t)) == ThreeOther(t)
  {
    var r := ThreeOther(t);
    ThreeOtherNoTrigger(t);
    PairThree(r, 0);
    PairThree(r, 1);
    PairThree(r, 2);
    assert ThreeFirst(r) == r;
    assert ThreeSecond(r) == r;
    assert ThreeThird(r) == r;
  }

  /** Running the third-tone rule twice is running it once. */
  lemma {:induction false} ThreeIdempotent(t: Token, pieces: seq<string>)
    requires Aligned(t) && (|t.word| >= 3 ==> |pieces| > 0)
    ensures ThreeSandhi(ThreeSandhi(t, pieces), pieces) == ThreeSandhi(t, pieces)
  {
    var r := ThreeSandhi(t, pieces);
    RetonedAligned(t, r);
    if |t.word| == 2 {
      assert AllToneThree(t.phones) ==> !AllToneThree(r.phones) by {
        if AllToneThree(t.phones) {
          assert Last(r.phones[0]) == '2';
        }
      }
    } else if |t.word| >= 3 {
      if |SplitWord(t.word, pieces)[0]| == 1 {
        ThreeAfterSingleSettled(t);
      } else {
        ThreeOtherSettled(t);
      }
    }
  }

  /** No two neighbouring syllables both end in 3. */
  predicate NoThreePair(t: Token)
    requires Aligned(t)
  {
    forall k :: 0 <= k < |t.phones| - 1 ==> !(Last(t.phones[k]) == '3' && Last(t.phones[k + 1]) == '3')
  }

  lemma {:induction false} AfterSingleLeavesNoPair(t: Token)
    requires Aligned(t) && |t.word| == 3
    ensures Aligned(ThreeAfterSingle(t)) && NoThreePair(ThreeAfterSingle(t))
  {
    var r := ThreeAfterSingle(t);
    AfterSingleTones(t);
    forall k | 0 <= k < |r.phones| - 1
      ensures !(Last(r.phones[k]) == '3' && Last(r.phones[k + 1]) == '3')
    {
    }
  }

  lemma {:induction false} OtherLeavesNoPair(t: Token)
    requires Aligned(t) && 3 <= |t.word| <= 4
    ensures Aligned(ThreeOther(t)) && NoThreePair(ThreeOther(t))
  {
    var r := ThreeOther(t);
    ThreeOtherTones(t);
    forall k | 0 <= k < |r.phones| - 1
      ensures !(Last(r.phones[k]) == '3' && Last(r.phones[k + 1]) == '3')
    {
    }
  }

  /** Words of two or three syllables come out with no pair of third tones
      left, and so do four-syllable words whose shorter half is not a single
      character (坎坎/坷坷 becomes kan2 kan3 ke2 ke3). */
  lemma {:induction false} ThreeLeavesNoPair(t: Token, pieces: seq<string>)
    requires Aligned(t) && 2 <= |t.word| && |pieces| > 0
    requires |t.word| <= 3 || (|t.word| == 4 && |SplitWord(t.word, pieces)[0]| != 1)
    ensures Aligned(ThreeSandhi(t, pieces)) && NoThreePair(ThreeSandhi(t, pieces))
  {
    var r := ThreeSandhi(t, pieces);
    RetonedAligned(t, r);
    if |t.word| == 2 {
      PairThree(t, 0);
    } else if |SplitWord(t.word, pieces)[0]| == 1 {
      AfterSingleLeavesNoPair(t);
    } else {
      OtherLeavesNoPair(t);
    }
  }

  // ---------------------------------------------------------------------
  // modified_tone

  /** A stand-in for jieba's search-mode cut: every word the rules ask about
      gets at least one piece, and its shortest piece is no longer than the
      word (true of any segmenter whose pieces are substrings of the word). */
  ghost predicate SoundSplitter(split: string -> seq<string>) {
    forall w :: |w| >= 2 ==> |split(w)| > 0 && |Shortest(split(w))| <= |w|
  }

  /** What the rules need of a token they touch: one syllable per character. */
  predicate RulesReady(t: Token) {
    t.lang == ZH && |t.word| >= 2 ==> Aligned(t)
  }

  /** The body of the loop of `modified_tone` for one merged token: tokens
      that are not Chinese or have a single character are skipped, the others
      go through the four rules in order. Both `_neural_sandhi` and
      `_three_sandhi` segment the same word, so they see the same pieces. */
  function ApplyRules(lex: WordLists, t: Token, split: string -> seq<string>): (r: Token)
    requires RulesReady(t) && SoundSplitter(split)
    ensures t.lang != ZH || |t.word| < 2 ==> r == t
    ensures t.lang == ZH && |t.word| >= 2 ==> Retoned(t, r) && Aligned(r)
  {
    if |t.word| < 2 || t.lang != ZH then t
    else
      var pieces := split(t.word);
      var b := BuReference(t);
      RetonedAligned(t, b);
      var y := YiReference(b);
      RetonedAligned(b, y);
      RetonedTrans(t, b, y);
      var n := NeutralSandhi(lex, y, pieces);
      RetonedAligned(y, n);
      RetonedTrans(t, y, n);
      var r := ThreeSandhi(n, pieces);
      RetonedAligned(n, r);
      RetonedTrans(t, n, r);
      r
  }

  /** `modified_tone`: merge, then run the rules on every merged token. The
      text of the sentence is kept, token for token of the merged list, and
      only tone characters change. `lex` stands for the instance's word lists
      (`Standard` for the ones `__init__` builds). */
  function ModifiedTone(lex: WordLists, ts: seq<Token>, split: string -> seq<string>): (r: seq<Token>)
    requires AllReady(ts) && SoundSplitter(split)
    requires forall k :: 0 <= k < |MergeTokens(ts)| ==> RulesReady(MergeTokens(ts)[k])
    ensures |r| == |MergeTokens(ts)| <= |ts|
    ensures Flatten(Words(r)) == Flatten(Words(ts))
    ensures forall k :: 0 <= k < |r| ==>
              if r[k].lang == ZH && |r[k].word| >= 2 then Retoned(MergeTokens(ts)[k], r[k])
              else r[k] == MergeTokens(ts)[k]
    ensures forall k :: 0 <= k < |r| ==> r[k] == ApplyRules(lex, MergeTokens(ts)[k], split)
  {
    var m := MergeTokens(ts);
    MergeNeverGrows(ts);
    MergeKeepsText(ts);
    var r := seq(|m|, k requires 0 <= k < |m| => ApplyRules(lex, m[k], split));
    assert Words(r) == Words(m);
    r
  }

  /** Aligned Chinese input tokens are enough, together with any non-Chinese
      token that follows a 一 (rule 4 may glue it on): English phonemes and
      number text need not line up with their characters. */
  lemma {:induction false} AlignedInputIsReady(ts: seq<Token>)
    requires AllReady(ts) && ChineseAligned(ts) && AfterYiAligned(ts)
    ensures forall k :: 0 <= k < |MergeTokens(ts)| ==> RulesReady(MergeTokens(ts)[k])
  {
    MergeKeepsChineseAlignment(ts);
  }

  /** A segmenter that keeps every word whole. */
  function Whole(w: string): (r: seq<string>)
    ensures r == [w] && Shortest(r) == w
  {
    [w]
  }

  /** 不一天 as the segmenter hands it over: bu4 yi1 tian1. */
  const BuYiTian: Token := Token("不一天", ZH, Some("m"), ["bu4", "yi1", "tian1"])

  lemma {:induction false} BuYiTianBu()
    ensures Aligned(BuYiTian) && BuReference(BuYiTian) == BuYiTian
  {
    var t := BuYiTian;
    assert !BuBeforeFalling(t, 0);
    assert BuReference(t).phones == t.phones;
  }

  lemma {:induction false} BuYiTianYi()
    ensures Aligned(BuYiTian) && YiReference(BuYiTian).phones == ["bu4", "yi4", "tian1"]
  {
    var t := BuYiTian;
    assert '不' !in OrdinalMarks;
    assert '天' !in CitationFollowers;
    assert !IsYiFrame(t.word);
    assert YiTone(t, 1) == Some('4');
    assert DropLast("yi1") == "yi";
    assert SetTone("yi1", '4') == "yi4";
    assert YiSyllable(t, 0) == "bu4" && YiSyllable(t, 1) == "yi4" && YiSyllable(t, 2) == "tian1";
    assert YiReference(t).phones == ["bu4", "yi4", "tian1"];
  }

  /** First pass over 不一天: 不 sees yi1 and stays bu4; 一 before a first
      tone becomes yi4. */
  lemma {:induction false} BuYiTianFirstPass(lex: WordLists)
    ensures SoundSplitter(Whole) && RulesReady(BuYiTian)
    ensures var once := ApplyRules(lex, BuYiTian, Whole);
            once.phones[0] == "bu4" && once.phones[1] == "yi4"
  {
    BuYiTianBu();
    BuYiTianYi();
    var y := YiReference(BuYiTian);
    RetonedAligned(BuYiTian, y);
    var n := NeutralSandhi(lex, y, ["不一天"]);
    assert n.phones[0] == "bu4" && n.phones[1] == "yi4";
  }

  /** Any later pass over 不一天 with yi4 in the middle turns 不 into bu2. */
  lemma {:induction false} FallingYiMakesBu2(lex: WordLists, u: Token)
    requires u.word == "不一天" && u.lang == ZH && Aligned(u) && Last(u.phones[1]) == '4'
    ensures SoundSplitter(Whole)
    ensures Last(ApplyRules(lex, u, Whole).phones[0]) == '2'
  {
    FallingYiBu(u);
    var b := BuReference(u);
    YiKeepsBu2(b);
    var y := YiReference(b);
    NeutralKeepsBu2(lex, y);
    var n := NeutralSandhi(lex, y, ["不一天"]);
    ThreeKeepsBu2(n);
  }

  /** Bu sandhi: 不 before yi4 becomes bu2. */
  lemma {:induction false} FallingYiBu(u: Token)
    requires u.word == "不一天" && u.lang == ZH && Aligned(u) && Last(u.phones[1]) == '4'
    ensures Retoned(u, BuReference(u)) && Aligned(BuReference(u)) && Last(BuReference(u).phones[0]) == '2'
  {
    var b := BuReference(u);
    assert BuBeforeFalling(u, 0);
    RetonedAligned(u, b);
  }

  /** Yi sandhi leaves the 不 of 不一天 alone. */
  lemma {:induction false} YiKeepsBu2(b: Token)
    requires b.word == "不一天" && b.lang == ZH && Aligned(b) && Last(b.phones[0]) == '2'
    ensures Retoned(b, YiReference(b)) && Aligned(YiReference(b)) && Last(YiReference(b).phones[0]) == '2'
  {
    var y := YiReference(b);
    assert y.phones[0] == b.phones[0];
    RetonedAligned(b, y);
  }

  /** Neutral-tone sandhi on the whole word 不一天 leaves its 不 alone. */
  lemma {:induction false} NeutralKeepsBu2(lex: WordLists, y: Token)
    requires y.word == "不一天" && y.lang == ZH && Aligned(y) && Last(y.phones[0]) == '2'
    ensures var n := NeutralSandhi(lex, y, ["不一天"]);
            Retoned(y, n) && Aligned(n) && Last(n.phones[0]) == '2'
  {
    var n := NeutralSandhi(lex, y, ["不一天"]);
    assert n.phones[0] == y.phones[0];
    RetonedAligned(y, n);
  }

  /** Third-tone sandhi only turns a 3 into a 2, so a bu2 stays. */
  lemma {:induction false} ThreeKeepsBu2(n: Token)
    requires n.word == "不一天" && Aligned(n) && Last(n.phones[0]) == '2'
    ensures Last(ThreeSandhi(n, ["不一天"]).phones[0]) == '2'
  {
    var r := ThreeSandhi(n, ["不一天"]);
    assert ThreeToTwo(n, r);
  }

  /** The rules are not idempotent as a whole: in 不一天, yi sandhi turns 一
      into yi4 after bu sandhi has looked at it, so a second pass then turns
      不 into bu2. */
  lemma {:induction false} RulesNotIdempotent(lex: WordLists)
    ensures SoundSplitter(Whole) && RulesReady(BuYiTian)
    ensures var once := ApplyRules(lex, BuYiTian, Whole);
            && Last(once.phones[0]) == '4'
            && Last(ApplyRules(lex, once, Whole).phones[0]) == '2'
  {
    BuYiTianFirstPass(lex);
    var once := ApplyRules(lex, BuYiTian, Whole);
    FallingYiMakesBu2(lex, once);
  }
}

=== FILE: utils.dfy ===
/** The helpers of g2p_mix/utils.py.  The pronunciation tables (`CMUDICT`,
    `IPA`, `POSTNASALS_MAP`, the pycantonese jyutping tables) and the
    pypinyin converters are parameters. */
module Utils {
  import opened Common
  import opened Tokenizer

  /** `utils.segment`: the scanner of g2p_mix/tokenizer.py with English
      words tagged "eng".  Its pattern also captures the apostrophe tail as a
      fifth group, but the loop stops at the first group that is set, and the
      fourth group is set whenever the fifth is. */
  function Segment(cc: CharClasses, text: string): (pairs: seq<Pair>)
    ensures |pairs| == |Scan(cc, text, 0)|
    ensures forall k :: 0 <= k < |pairs| ==> pairs[k].tag in {"zh", "m", "x", "eng"}
  {
    SpanPairs(text, Scan(cc, text, 0), "eng")
  }

  /** `segment` and `Tokenizer.tokenize` cut the same spans and differ only
      in the name of the English tag. */
  lemma {:induction false} SegmentMatchesTokenize(cc: CharClasses, text: string)
    ensures |Segment(cc, text)| == |Tokenize(cc, text)|
    ensures forall k :: 0 <= k < |Segment(cc, text)| ==>
              && Segment(cc, text)[k].text == Tokenize(cc, text)[k].text
              && (Segment(cc, text)[k].tag == "eng" <==> Tokenize(cc, text)[k].tag == "en")
              && (Tokenize(cc, text)[k].tag != "en" ==> Segment(cc, text)[k].tag == Tokenize(cc, text)[k].tag)
  {
  }

  /** `utils.posseg_cut`: as in g2p_mix/tokenizer.py, but every segmenter
      word is re-split by `seg`, whatever its length. */
  function PossegCut(cc: CharClasses, sg: Segmenters, text: string, jyut: bool, tagset: string): (r: (string, seq<Pair>))
    requires WellFormed(cc)
    requires tagset == "universal" || tagset == "hkcancor"
    ensures r.0 == HanChars(text)
    ensures KeepsText(sg, tagset) ==> Flatten(Texts(r.1)) == Flatten(Texts(Segment(cc, text)))
  {
    var pairs := Segment(cc, text);
    ScanChineseText(cc, text, 0, "eng");
    assert text[0..] == text;
    CutWordsKeepsText(sg, pairs, jyut, tagset, 0);
    PossegCutPairs(sg, pairs, jyut, tagset, 0)
  }

  /** With threshold 0 a segmenter word never survives whole: it is always
      replaced by its `seg` pieces. */
  lemma {:induction false} EveryWordResplit(sg: Segmenters, w: Pair)
    ensures Resplit(sg, w, 0) == Tagged(sg.seg(w.text), w.tag)
    ensures |w.text| < 4 ==> Resplit(sg, w, 4) == [w]
  {
  }

  /** The English pronunciation table: each key maps to its pronunciations. */
  type Cmudict = map<string, seq<seq<string>>>

  /** Which pronunciation `g2p_ch` takes: the second one for "a" (the letter
      name "EY1" rather than the article), the first one otherwise. */
  function Variant(key: string): nat {
    if key == "a" then 1 else 0
  }

  /** `g2p_ch`: the pronunciation of one lower-cased letter; `None` where
      Python raises a `KeyError` or an `IndexError`.  The `assert` on the
      length is the precondition. */
  function G2pCh(dict: Cmudict, lower: string -> string, ch: string): (r: Option<seq<string>>)
    requires |lower(ch)| == 1
    ensures r.Some? <==> lower(ch) in dict && Variant(lower(ch)) < |dict[lower(ch)]|
    ensures r.Some? ==> r.value in dict[lower(ch)]
    ensures r.Some? ==> r.value == dict[lower(ch)][if lower(ch) == "a" then 1 else 0]
  {
    var key := lower(ch);
    if key in dict && Variant(key) < |dict[key]| then Some(dict[key][Variant(key)]) else None
  }

  /** A capital "A" in an abbreviation is read as its letter name. */
  lemma {:induction false} CapitalAIsLetterName(dict: Cmudict, lower: string -> string)
    requires lower("A") == "a" && "a" in dict && dict["a"] == [["AH0"], ["EY1"]]
    ensures G2pCh(dict, lower, "A") == Some(["EY1"])
  {
  }

  /** Every character of `word` lower-cases to a single character. */
  predicate LowersToOne(lower: string -> string, word: string) {
    forall k :: 0 <= k < |word| ==> |lower([word[k]])| == 1
  }

  /** The pronunciation of each letter of `word`, one list per letter. */
  function LetterReadings(dict: Cmudict, lower: string -> string, word: string): (r: seq<seq<string>>)
    requires LowersToOne(lower, word)
    requires forall k :: 0 <= k < |word| ==> G2pCh(dict, lower, [word[k]]).Some?
    ensures |r| == |word|
  {
    seq(|word|, k requires 0 <= k < |word| => G2pCh(dict, lower, [word[k]]).value)
  }

  /** `g2p_abbr`: the letters' pronunciations, in order; `None` as soon as
      one letter has none. */
  function G2pAbbr(dict: Cmudict, lower: string -> string, word: string): (r: Option<seq<string>>)
    requires LowersToOne(lower, word)
    ensures r.Some? <==> forall k :: 0 <= k < |word| ==> G2pCh(dict, lower, [word[k]]).Some?
    ensures r.Some? ==> r.value == Flatten(LetterReadings(dict, lower, word))
  {
    if |word| == 0 then Some([])
    else
      assert |lower([word[0]])| == 1;
      match G2pCh(dict, lower, [word[0]])
      case None => None
      case Some(head) =>
        assert forall k :: 0 < k < |word| ==> [word[k]] == [word[1..][k - 1]];
        match G2pAbbr(dict, lower, word[1..])
        case None => None
        case Some(tail) =>
          assert LetterReadings(dict, lower, word)[1..] == LetterReadings(dict, lower, word[1..]);
          Some(head + tail)
  }

  /** Spelling a word out letter by letter: the pronunciation of a
      concatenation is the concatenation of the pronunciations. */
  lemma {:induction false} G2pAbbrAppend(dict: Cmudict, lower: string -> string, u: string, v: string)
    requires LowersToOne(lower, u) && LowersToOne(lower, v)
    ensures LowersToOne(lower, u + v)
    ensures G2pAbbr(dict, lower, u + v).Some?
        <==> G2pAbbr(dict, lower, u).Some? && G2pAbbr(dict, lower, v).Some?
    ensures G2pAbbr(dict, lower, u + v).Some? ==>
              G2pAbbr(dict, lower, u + v).value == G2pAbbr(dict, lower, u).value + G2pAbbr(dict, lower, v).value
    decreases |u|
  {
    assert forall k :: 0 <= k < |u + v| ==> (u + v)[k] == if k < |u| then u[k] else v[k - |u|];
    if |u| == 0 {
      assert u + v == v;
    } else {
      assert (u + v)[0] == u[0];
      assert (u + v)[1..] == u[1..] + v;
      assert LowersToOne(lower, u[1..]) by {
        assert forall k :: 0 <= k < |u[1..]| ==> u[1..][k] == u[k + 1];
      }
      G2pAbbrAppend(dict, lower, u[1..], v);
    }
  }

  /** One parsed syllable. */
  datatype Syllable = Syllable(initial: string, final: string, tone: char)

  /** The pypinyin splitters `to_initials` / `to_finals`, given the `strict` flag. */
  datatype PinyinSplitters = PinyinSplitters(toInitials: (string, bool) -> string, toFinals: (string, bool) -> string)

  /** `parse_pinyin`: the tone is the last character; a syllabic nasal found
      in the post-nasal table has no initial and takes the mapped final;
      anything else is split by pypinyin.  An empty pinyin raises an
      `IndexError` in the source, hence the precondition. */
  function ParsePinyin(postnasals: map<string, string>, ps: PinyinSplitters, pinyin: string, strict: bool): (r: Syllable)
    requires |pinyin| > 0
    ensures r.tone == pinyin[|pinyin| - 1]
    ensures DropLast(pinyin) in postnasals ==> r.initial == "" && r.final == postnasals[DropLast(pinyin)]
    ensures DropLast(pinyin) !in postnasals ==>
              r.initial == ps.toInitials(pinyin, strict) && r.final == ps.toFinals(pinyin, strict)
  {
    var tone := Last(pinyin);
    if DropLast(pinyin) in postnasals then Syllable("", postnasals[DropLast(pinyin)], tone)
    else Syllable(ps.toInitials(pinyin, strict), ps.toFinals(pinyin, strict), tone)
  }

  /** `apply_tone`'s argument: a single phone or a list of phones. */
  datatype Phones = One(phone: string) | Many(phones: seq<string>)

  function AsList(p: Phones): seq<string> {
    match p
    case One(x) => [x]
    case Many(xs) => xs
  }

  /** `phone.replace("0", tone)`: every placeholder "0" becomes the tone. */
  function ReplaceZero(phone: string, tone: string): (r: string)
    ensures '0' !in tone ==> '0' !in r
    ensures '0' !in phone ==> r == phone
  {
    if |phone| == 0 then ""
    else (if phone[0] == '0' then tone else [phone[0]]) + ReplaceZero(phone[1..], tone)
  }

  /** Once the placeholders are filled with a tone that has none of its
      own, filling again changes nothing. */
  lemma {:induction false} ReplaceZeroIdempotent(phone: string, tone: string)
    requires '0' !in tone
    ensures ReplaceZero(ReplaceZero(phone, tone), tone) == ReplaceZero(phone, tone)
  {
  }

  /** `apply_tone`: a bare phone becomes a one-element list; every phone
      has its placeholders filled, in order. */
  function ApplyTone(phones: Phones, tone: string): (r: seq<string>)
    ensures |r| == |AsList(phones)|
    ensures forall k :: 0 <= k < |r| ==> r[k] == ReplaceZero(AsList(phones)[k], tone)
    ensures '0' !in tone ==> forall k :: 0 <= k < |r| ==> '0' !in r[k]
  {
    var xs := AsList(phones);
    seq(|xs|, k requires 0 <= k < |xs| => ReplaceZero(xs[k], tone))
  }

  lemma {:induction false} ApplyToneIdempotent(phones: Phones, tone: string)
    requires '0' !in tone
    ensures ApplyTone(Many(ApplyTone(phones, tone)), tone) == ApplyTone(phones, tone)
  {
    var once := ApplyTone(phones, tone);
    forall k | 0 <= k < |once|
      ensures ReplaceZero(once[k], tone) == once[k]
    {
    }
  }

  /** The Mandarin part of the `IPA` table. */
  datatype IpaTables = IpaTables(
    tones: map<string, string>,
    interjections: map<string, Phones>,
    syllabicConsonants: map<string, Phones>,
    initials: map<string, string>,
    finals: map<string, Phones>,
    apicalRetroflex: string,  // `finals["-i"]["ZH_CH_SH_R"]`
    apicalDental: string)     // `finals["-i"]["Z_C_S"]`

  /** The syllable is neither an interjection nor a syllabic consonant and
      its tone is known: the reading is built from the initial and final. */
  predicate FromInitialFinal(ipa: IpaTables, initial: string, final: string, tone: string) {
    tone in ipa.tones && initial + final !in ipa.interjections && initial + final !in ipa.syllabicConsonants
  }

  /** `pinyin2ipa`: interjections first, then syllabic consonants, then the
      initial followed by the final, where "i" after zh/ch/sh/r and after
      z/c/s is the matching apical vowel.  `None` where a table lookup raises
      a `KeyError`. */
  function Pinyin2Ipa(ipa: IpaTables, initial: string, final: string, tone: string): (r: Option<seq<string>>)
    ensures tone !in ipa.tones ==> r == None
    ensures tone in ipa.tones && initial + final in ipa.interjections ==>
              r == Some(ApplyTone(ipa.interjections[initial + final], ipa.tones[tone]))
    ensures tone in ipa.tones && initial + final !in ipa.interjections
            && initial + final in ipa.syllabicConsonants ==>
              r == Some(ApplyTone(ipa.syllabicConsonants[initial + final], ipa.tones[tone]))
    ensures r.Some? && initial + final !in ipa.interjections && initial + final !in ipa.syllabicConsonants ==>
              initial in ipa.initials && |r.value| >= 1 && r.value[0] == ipa.initials[initial]
    ensures (r.Some? && initial + final !in ipa.interjections && initial + final !in ipa.syllabicConsonants
             && final == "i" && initial in {"zh", "ch", "sh", "r", "z", "c", "s"}) ==> |r.value| == 2
    ensures FromInitialFinal(ipa, initial, final, tone) && final == "i" && initial in {"zh", "ch", "sh", "r"} ==>
              && (r.Some? <==> initial in ipa.initials)
              && (r.Some? ==> r.value == [ipa.initials[initial], ReplaceZero(ipa.apicalRetroflex, ipa.tones[tone])])
    ensures FromInitialFinal(ipa, initial, final, tone) && final == "i" && initial in {"z", "c", "s"} ==>
              && (r.Some? <==> initial in ipa.initials)
              && (r.Some? ==> r.value == [ipa.initials[initial], ReplaceZero(ipa.apicalDental, ipa.tones[tone])])
    ensures FromInitialFinal(ipa, initial, final, tone) && !(final == "i" && initial in {"zh", "ch", "sh", "r", "z", "c", "s"}) ==>
              && (r.Some? <==> initial in ipa.initials && final in ipa.finals)
              && (r.Some? ==> r.value == [ipa.initials[initial]] + ApplyTone(ipa.finals[final], ipa.tones[tone]))
  {
    if tone !in ipa.tones then None
    else
      var t := ipa.tones[tone];
      var pinyin := initial + final;
      if pinyin in ipa.interjections then Some(ApplyTone(ipa.interjections[pinyin], t))
      else if pinyin in ipa.syllabicConsonants then Some(ApplyTone(ipa.syllabicConsonants[pinyin], t))
      else if initial !in ipa.initials then None
      else if initial in {"zh", "ch", "sh", "r"} && final == "i" then
        Some([ipa.initials[initial], ReplaceZero(ipa.apicalRetroflex, t)])
      else if initial in {"z", "c", "s"} && final == "i" then
        Some([ipa.initials[initial], ReplaceZero(ipa.apicalDental, t)])
      else if final !in ipa.finals then None
      else Some([ipa.initials[initial]] + ApplyTone(ipa.finals[final], t))
  }

  /** No placeholder survives: when the tone string has no "0" and the
      initials carry none, no output phone contains one. */
  lemma {:induction false} Pinyin2IpaFillsTone(ipa: IpaTables, initial: string, final: string, tone: string)
    requires tone in ipa.tones && '0' !in ipa.tones[tone]
    requires initial in ipa.initials ==> '0' !in ipa.initials[initial]
    ensures Pinyin2Ipa(ipa, initial, final, tone).Some? ==>
              forall k :: 0 <= k < |Pinyin2Ipa(ipa, initial, final, tone).value| ==>
                '0' !in Pinyin2Ipa(ipa, initial, final, tone).value[k]
  {
    var t := ipa.tones[tone];
    var r := Pinyin2Ipa(ipa, initial, final, tone);
    if r.Some? && FromInitialFinal(ipa, initial, final, tone) {
      if final == "i" && initial in {"zh", "ch", "sh", "r", "z", "c", "s"} {
        var apical := if initial in {"zh", "ch", "sh", "r"} then ipa.apicalRetroflex else ipa.apicalDental;
        assert r.value == [ipa.initials[initial]] + [ReplaceZero(apical, t)];
        NoZeroAfterHead(ipa.initials[initial], [ReplaceZero(apical, t)]);
      } else {
        NoZeroAfterHead(ipa.initials[initial], ApplyTone(ipa.finals[final], t));
      }
    }
  }

  /** Putting a phone without placeholders in front of such phones keeps
      them all free of placeholders. */
  lemma {:induction false} NoZeroAfterHead(head: string, tail: seq<string>)
    requires '0' !in head && forall k :: 0 <= k < |tail| ==> '0' !in tail[k]
    ensures forall k :: 0 <= k < |[head] + tail| ==> '0' !in ([head] + tail)[k]
  {
    forall k | 0 <= k < |[head] + tail|
      ensures '0' !in ([head] + tail)[k]
    {
      if k > 0 {
        assert ([head] + tail)[k] == tail[k - 1];
      }
    }
  }

  /** The concatenated per-character readings of `word`, or `None` when a
      character has none. */
  function CharsJyutping(chars: map<char, string>, word: string): (r: Option<string>)
    ensures r.Some? <==> forall k :: 0 <= k < |word| ==> word[k] in chars
  {
    if |word| == 0 then Some("")
    else if word[0] !in chars then None
    else
      assert forall k :: 0 < k < |word| ==> word[k] == word[1..][k - 1];
      match CharsJyutping(chars, word[1..])
      case None => None
      case Some(tail) => Some(chars[word[0]] + tail)
  }

  /** One piece of `re.findall(r"[\D]+\d|\D", s)`: a run of non-digits closed
      by one digit, or a lone non-digit. */
  predicate JyutPiece(isDigit: char -> bool, p: string) {
    || (|p| == 1 && !isDigit(p[0]))
    || (|p| >= 2 && isDigit(p[|p| - 1]) && forall k :: 0 <= k < |p| - 1 ==> !isDigit(p[k]))
  }

  /** A well-formed syllable: a non-empty run of non-digits and one tone digit. */
  predicate JyutSyllable(isDigit: char -> bool, p: string) {
    |p| >= 2 && JyutPiece(isDigit, p)
  }

  /** `re.findall(r"[\D]+\d|\D", s[i..])`: a digit is skipped; otherwise the
      non-digit run is closed by the digit after it, or, at the end of the
      string, its first character stands alone. */
  function JyutSplit(isDigit: char -> bool, s: string): (r: seq<string>)
    ensures forall k :: 0 <= k < |r| ==> JyutPiece(isDigit, r[k])
    decreases |s|
  {
    if |s| == 0 then []
    else if isDigit(s[0]) then JyutSplit(isDigit, s[1..])
    else
      var j := RunEnd(s, 0, x => !isDigit(x));
      if j < |s| then
        assert JyutPiece(isDigit, s[..j + 1]);
        [s[..j + 1]] + JyutSplit(isDigit, s[j + 1..])
      else [s[..1]] + JyutSplit(isDigit, s[1..])
  }

  /** The run of non-digits in a syllable ends just before its tone digit. */
  lemma {:induction false} SyllableRunEnd(isDigit: char -> bool, p: string, rest: string)
    requires JyutSyllable(isDigit, p)
    ensures RunEnd(p + rest, 0, x => !isDigit(x)) == |p| - 1
  {
    var s := p + rest;
    var j := RunEnd(s, 0, x => !isDigit(x));
    assert s[|p| - 1] == p[|p| - 1];
  }

  /** Splitting a run of well-formed syllables gives the syllables back. */
  lemma {:induction false} JyutSplitJoin(isDigit: char -> bool, syllables: seq<string>)
    requires forall k :: 0 <= k < |syllables| ==> JyutSyllable(isDigit, syllables[k])
    ensures JyutSplit(isDigit, Flatten(syllables)) == syllables
  {
    if |syllables| > 0 {
      var p, rest := syllables[0], Flatten(syllables[1..]);
      var s := p + rest;
      assert s[0] == p[0];
      SyllableRunEnd(isDigit, p, rest);
      assert s[..|p|] == p;
      assert s[|p|..] == rest;
      JyutSplitJoin(isDigit, syllables[1..]);
      assert syllables == [p] + syllables[1..];
    }
  }

  /** `convert_jyut`: a whole-word entry wins; otherwise the characters'
      readings are joined, and one missing character makes the result
      `None`; the reading is then split into syllables. */
  function ConvertJyut(isDigit: char -> bool, words: map<string, string>, chars: map<char, string>, word: string): (r: Option<seq<string>>)
    ensures r.None? <==> word !in words && exists k :: 0 <= k < |word| && word[k] !in chars
    ensures word in words ==> r == Some(JyutSplit(isDigit, words[word]))
    ensures r.Some? ==> forall k :: 0 <= k < |r.value| ==> JyutPiece(isDigit, r.value[k])
  {
    if word in words then Some(JyutSplit(isDigit, words[word]))
    else
      match CharsJyutping(chars, word)
      case None => None
      case Some(j) => Some(JyutSplit(isDigit, j))
  }

  /** Without a word entry, the syllables are the characters' readings in
      order when each reading is itself one well-formed syllable. */
  lemma {:induction false} ConvertJyutByCharacter(isDigit: char -> bool, words: map<string, string>, chars: map<char, string>, word: string)
    requires word !in words
    requires forall k :: 0 <= k < |word| ==> word[k] in chars && JyutSyllable(isDigit, chars[word[k]])
    ensures ConvertJyut(isDigit, words, chars, word)
         == Some(seq(|word|, k requires 0 <= k < |word| => chars[word[k]]))
  {
    var readings := seq(|word|, k requires 0 <= k < |word| => chars[word[k]]);
    CharsJyutpingFlatten(chars, word);
    JyutSplitJoin(isDigit, readings);
  }

  lemma {:induction false} CharsJyutpingFlatten(chars: map<char, string>, word: string)
    requires forall k :: 0 <= k < |word| ==> word[k] in chars
    ensures CharsJyutping(chars, word) == Some(Flatten(seq(|word|, k requires 0 <= k < |word| => chars[word[k]])))
  {
    var readings := seq(|word|, k requires 0 <= k < |word| => chars[word[k]]);
    if |word| > 0 {
      CharsJyutpingFlatten(chars, word[1..]);
      assert readings[1..] == seq(|word[1..]|, k requires 0 <= k < |word[1..]| => chars[word[1..][k]]);
    }
  }
}
